=== FILE: README.md ===
# Datetime helpers, modelled in Dafny

This project models the pure core of a small JavaScript/TypeScript date-time
library and proves properties of the model. Four pieces are covered:

- **ECMAScript time arithmetic** (`Datetime_local.ts`). `Dateinternals` re-implements
  the Date abstract operations of section 21.4.1 of ECMA-262: `Day`, `WeekDay`,
  `DaysInYear`, `DayFromYear`, the binary-search `YearFromTime` clamped to years
  0..9999, `MonthFromTime`, `DateFromTime`, the time-of-day fields, `MakeTime`,
  `MakeDay`, `MakeDate`, `MakeFullYear`, `TimeClip` and `EXMAScript_Modulo`.
  The same file holds the fixed-width renderers built on them: `toISOString`,
  `toString`, `toDateString`, `toTimeString`, `toUTCString`, the zone suffix,
  local time and `getTimezoneOffset`. The zone offset is a parameter.
- **The overflow-correcting setters** of `Datetime_global.js`. `setHours` and
  `setFullYear` offer a candidate record to a strict validation. On
  rejection they run carry and borrow steps on it, at most 800 times. The validation
  is an abstract predicate and the capacities are parameters. The same file also
  supplies the ns/ms scaling of the constructor and `setTime`, `getUTCOffset`,
  `getDay`, `getMonth`, `getYear`, and the texts of `toHTMLDiscordString`,
  including its relative `'R'` phrase.
- **Relative-time phrases.** There are two variants, each with a compiled twin:
  - `RelativeTime.getRelativeTime` (`RelativeTimeChecker.ts/.js`) uses floored
    seconds, seven units and `in N …` / `N … ago`;
  - the `'R'` branch of `RelativeTimeChecker.run` (`relative-time-checker.ts/.js`)
    uses truncated seconds, four units, an always-plural `seconds` and `from now`.
    The model also covers the constructor's format normalisation and the return
    value of `run`.
- **Digit grouping** (`testsx.ts/.js`): `chunk` and `underscoreNumber`.

The current time is always an input, and so are host `Date` renderings.

Modules, one per file:

| module | content |
|---|---|
| `Results` | `Option`, `Result`, and the JS error kinds |
| `JsNumbers` | JS numbers (NaN, ±Infinity, finite reals), `Math.trunc`, the truncating `%`, `BigInt(x)` |
| `Text` | `String(n)`, `padStart`, `join`, and reading digit runs back |
| `Calendar` | the `Dateinternals` operations, `EXMAScript_Modulo`, `TimeClip` |
| `CalendarProofs` | ranges and round trips of the calendar arithmetic |
| `DatetimeLocal` | the renderers of `Datetime_local`, with readers that invert them |
| `Correction` | the carry/borrow steps and the bounded correction loop of the setters |
| `DatetimeGlobal` | constructor and `setTime` scaling, `getUTCOffset`, index getters, Discord texts |
| `RelativeTime` | `getRelativeTime`, the `'R'` phrase, `RelativeTimeChecker` constructor and `run` |
| `DigitGrouping` | `chunk`, `underscoreNumber`, and a variant that keeps the leading partial group |

JavaScript's `%` truncates toward zero and Dafny's is Euclidean. Every `%` of the
source that can see a negative operand is written with `JsNumbers.TruncRem`.

## Model

| member | source | states |
|---|---|---|
| JsNumbers.Trunc | Datetime_local.ts:366-376 | `Math.trunc`: the integer between zero and `x` that is less than one away from `x` |
| JsNumbers.TruncRem | Datetime_global.js:509-510 | the JS remainder is smaller in magnitude than the divisor and, unless zero, has the dividend's sign |
| JsNumbers.TruncDivRem | Datetime_global.js:507-547 | truncated quotient times divisor plus the JS remainder gives back the dividend |
| JsNumbers.ToBigInt | Datetime_global.js:35 | `BigInt(x)` succeeds exactly for finite integral numbers and returns their value; otherwise it is a RangeError |
| JsNumbers.ToBigIntOfInteger | Datetime_global.js:489-492 | `BigInt` of an integer-valued number is that integer |
| Calendar.Modulo | Datetime_local.ts:454-458 | for y>0 the result is in [0,y) and is the mathematical modulus; for y<0 it is in (y,0] with the sign of the divisor |
| Calendar.EcmaModulo | Datetime_local.ts:454-458 | a zero modulus is a RangeError; otherwise the result has the divisor's sign, is smaller than it in magnitude and is congruent to x |
| Calendar.WeekDay | Datetime_local.ts:283-284 | the weekday is in 0..6, and day 0 (1 January 1970) is a Thursday (4) |
| Calendar.DaysInYear | Datetime_local.ts:304-314 | a year has 366 days exactly when it is a Gregorian leap year, otherwise 365 |
| Calendar.DayFromYear | Datetime_local.ts:334-339 | year 1970 starts on day 0 |
| Calendar.SearchYear | Datetime_local.ts:315-333 | the binary search never leaves [0,9999] and returns either its fallback or a year inside its window |
| Calendar.YearFromTime | Datetime_local.ts:315-333 | every time value gets a year in [0,9999] |
| Calendar.MonthFromTime | Datetime_local.ts:287-301 | the month index is in 0..11 for every time value |
| Calendar.HourFromTime | Datetime_local.ts:358-359 | the hour is in [0,24) for every time value, negative ones included |
| Calendar.MinFromTime | Datetime_local.ts:360-361 | the minute is in [0,60) for every time value |
| Calendar.SecFromTime | Datetime_local.ts:362-363 | the second is in [0,60) for every time value |
| Calendar.MsFromTime | Datetime_local.ts:364-365 | the millisecond is in [0,1000) for every time value |
| Calendar.MonthDays | Datetime_local.ts:403-409 | the month-length table has twelve entries |
| Calendar.TimeClip | Datetime_local.ts:366-376 | the value is valid exactly when it is finite and at most 8.64e15 in magnitude; a valid value is the truncation of the input |
| Calendar.MakeFullYear | Datetime_local.ts:377-382 | NaN stays NaN; a truncated year in 0..99 becomes 1900..1999; any other year is only truncated |
| CalendarProofs.DayFromYearStep | Datetime_local.ts:304-314 | consecutive year starts are `DaysInYear(y)` days apart |
| CalendarProofs.DayFromYearIncreasing | Datetime_local.ts:334-339 | later years start on later days |
| CalendarProofs.YearFromTimeFinds | Datetime_local.ts:315-333 | the year found is the largest year in [0,9999] that starts on or before the day, or 0 when none does |
| CalendarProofs.FoundYearUnique | Datetime_local.ts:315-333 | only one year meets that description |
| CalendarProofs.YearFromTimeIsYearOfDay | Datetime_local.ts:315-333 | a year in range whose span contains the day is the year found |
| CalendarProofs.YearFromTimeBelowRange | Datetime_local.ts:316-333 | a day before year 0 is given year 0 |
| CalendarProofs.YearFromTimeAboveRange | Datetime_local.ts:316-333 | a day after year 9999 is given year 9999 |
| CalendarProofs.YearFromTimeBrackets | Datetime_local.ts:315-341 | inside years 0..9999 the year's first day is at or before the day and the next year's first day is after it, so the day within the year is below `DaysInYear` |
| CalendarProofs.DayIsFloor | Datetime_local.ts:285-287 | `Day` is the floored quotient: the day's span of milliseconds holds t, and a time before the epoch is on a negative day |
| CalendarProofs.DateFromTimeBounds | Datetime_local.ts:342-357 | inside years 0..9999, `DateFromTime` is between 1 and the length of that month |
| CalendarProofs.MakeDayFoldsMonths | Datetime_local.ts:390-402 | twelve more months is the same as one more year |
| CalendarProofs.DaysBeforeMonthInRange | Datetime_local.ts:403-414 | in years 0..9999 the days before a month are the cumulative month lengths of that year's leap status |
| CalendarProofs.MakeDayRoundTrip | Datetime_local.ts:390-414 | for a year in 0..9999, a month in 0..11 and a day within that month, the day `MakeDay` builds reads back as the same year, month and date, so `MakeDay` inverts `YearFromTime`, `MonthFromTime` and `DateFromTime` |
| CalendarProofs.CalendarFieldsRoundTrip | Datetime_local.ts:287-357 | inside years 0..9999, `MakeDay` of the year, month and date of a time value is that value's day |
| CalendarProofs.DayOfMakeDate | Datetime_local.ts:383-389 | `MakeDate` of a day and a time of day within it lies on that day |
| Calendar.MakeTime | Datetime_local.ts:415-419 | four in-range clock fields make a time of day within one day |
| CalendarProofs.TimeOfDayRoundTrip | Datetime_local.ts:358-365 | for every integer t, the day and the four time fields of t rebuild t through `MakeTime` and `MakeDate` |
| CalendarProofs.TimeFieldsOfMakeDate | Datetime_local.ts:383-389 | in-range time fields put together with `MakeTime` and `MakeDate` read back unchanged |
| CalendarProofs.TimeValueRoundTrip | Datetime_local.ts:383-419 | inside years 0..9999 a time value is rebuilt exactly from all seven of its fields |
| CalendarProofs.WeekDayNextDay | Datetime_local.ts:283-284 | one day later is the next weekday, modulo 7 |
| CalendarProofs.TimeClipIdempotent | Datetime_local.ts:366-376 | clipping an already clipped value changes nothing |
| CalendarProofs.MakeFullYearIdempotent | Datetime_local.ts:377-382 | applying `MakeFullYear` twice is the same as once |
| Text.NatToString | Datetime_local.ts:450-452 | `String(n)` is a non-empty run of digits with no leading zero |
| Text.IntToString | Datetime_local.ts:450-452 | a negative number is a minus sign before the digits of its magnitude |
| Text.PadStart | Datetime_local.ts:450-452 | the text is at least the requested width, ends with the input and is filled on the left |
| Text.ParseNatToString | Datetime_local.ts:450-452 | reading `String(n)` back gives n |
| Text.ZeroPaddedRoundTrip | Datetime_local.ts:450-452 | for any integer: if it is non-negative and below 10^len, zero-padding it to len gives exactly len digits that read back as the number |
| Text.PaddedNatRoundTrip | Datetime_global.js:720-722 | a zero-padded number of any size reads back as itself |
| Text.Reverse | testsx.ts:16 | the reversed sequence has element `|s|-1-i` at index i |
| Text.Characters | testsx.ts:16 | `Array.from` of a string gives one one-character string per character, in order |
| Text.KeepDigits | testsx.ts:18 | `replace(/\D/g, '')` leaves only digits |
| Text.KeepAllDigits | testsx.ts:18 | a run of digits loses nothing |
| Text.CommasToUnderscores | testsx.ts:18 | each comma becomes an underscore and nothing else changes |
| DatetimeLocal.OffsetMs | Datetime_local.ts:112-117 | the nanosecond offset truncated to milliseconds: the largest whole-ms magnitude not above it, with the same sign |
| DatetimeLocal.LocalTime | Datetime_local.ts:112-117 | local time minus UTC time is the zone offset truncated to whole milliseconds |
| DatetimeLocal.LocalTimeWholeMs | Datetime_local.ts:112-117 | with an offset of whole milliseconds, local and UTC time differ by exactly the offset in nanoseconds |
| DatetimeLocal.GetTimezoneOffset | Datetime_local.ts:225-228 | a RangeError exactly for an invalid date, since the offset lookup applies `BigInt` to NaN (Datetime_local.ts:465); otherwise the offset in minutes with the opposite sign |
| DatetimeLocal.ReadField | Datetime_local.ts:450-452 | a fixed-width field reads back exactly when it lies inside the text and is all digits |
| DatetimeLocal.TimeString | Datetime_local.ts:271-275 | the time text is `HH:MM:SS GMT`, twelve characters with colons at 2 and 5 |
| DatetimeLocal.TimeStringFields | Datetime_local.ts:271-275 | the hour, minute and second read back from their positions for every time value |
| DatetimeLocal.YearText | Datetime_local.ts:276-282 | a year in 0..9999 renders as four digits that read back as the year |
| DatetimeLocal.DateString | Datetime_local.ts:276-282 | the date text starts with the weekday name and has the month name at 4..7 |
| DatetimeLocal.DateStringFields | Datetime_local.ts:276-282 | inside years 0..9999 it is 15 characters, and the day of the month and the year read back from their positions |
| DatetimeLocal.ToUTCString | Datetime_local.ts:230-240 | the text is `Invalid Date` exactly for an invalid value |
| DatetimeLocal.UTCStringFields | Datetime_local.ts:230-240 | inside years 0..9999 it is 29 characters: weekday, day, month name and year at fixed positions, then the time text |
| DatetimeLocal.FieldText | Datetime_local.ts:75-89 | a missing field renders `NaN`; a present one that fits renders as exactly `width` digits that read back as it |
| DatetimeLocal.IsoLayoutShape | Datetime_local.ts:75-89 | the ISO layout is 24 characters with `-`, `-`, `T`, `:`, `:`, `.`, `Z` at fixed positions and each field in its slot |
| DatetimeLocal.ParseISO | Datetime_local.ts:75-89 | only a 24-character `YYYY-MM-DDTHH:MM:SS.mmmZ` text is accepted |
| DatetimeLocal.ISOStringRoundTrip | Datetime_local.ts:75-89 | inside years 0..9999, reading `ToISOString` back gives the time value |
| DatetimeLocal.ISOStringOfInvalid | Datetime_local.ts:75-89 | `ToISOString` does not reject an invalid value and renders `0000-12-NaNTNaN:NaN:NaN.NaNZ` |
| DatetimeLocal.TimeZoneString | Datetime_local.ts:136-146 | the zone suffix is a sign, four characters, then the zone id in parentheses; the sign is `-` exactly for a negative offset |
| DatetimeLocal.TimeZoneStringRoundTrip | Datetime_local.ts:136-146 | an offset of whole minutes below a day reads back from the suffix |
| DatetimeLocal.OffsetTextReadsFields | Datetime_local.ts:136-146 | for any offset, the suffix reads back as the hours and minutes of its magnitude, with its sign |
| DatetimeLocal.ToString | Datetime_local.ts:57-61 | `Invalid Date` exactly for an invalid value |
| DatetimeLocal.ToStringFields | Datetime_local.ts:57-61 | a valid value is the date text, a space, the time text and the zone suffix of the local time, at fixed positions |
| DatetimeLocal.ToDateString | Datetime_local.ts:63-67 | `Invalid Date` exactly for an invalid value; otherwise the date text of the local time |
| DatetimeLocal.ToTimeString | Datetime_local.ts:69-73 | `Invalid Date` exactly for an invalid value; otherwise the local time text followed by the zone suffix |
| DatetimeLocal.SetTime | Datetime_local.ts:91-93 | the stored value is the clip of the argument and the zone is kept; the result is the stored value or NaN |
| DatetimeLocal.SetTimeIdempotent | Datetime_local.ts:91-93 | setting the time to what `setTime` returned changes nothing |
| Correction.CarryUp | Datetime_global.js:507-522 | a positive carry keeps `high*base+low`; a low field at or above the base ends in [0,base) and raises the high field |
| Correction.BorrowDown | Datetime_global.js:532-547 | a borrow keeps `high*base+low`; a negative low field ends in (0,base] and lowers the high field |
| Correction.BorrowDownExact | Datetime_global.js:532-547 | the borrowed field equals the base exactly when the deficit is a multiple of the base |
| Correction.BorrowWholeSecond | Datetime_global.js:532-535 | ms = -1000 becomes ms = 1000 with the second lowered by two |
| Correction.CarryOneBased | Datetime_global.js:523-530 | a day or month above its capacity ends in [1,capacity] and raises the next field |
| Correction.CarryOneBasedValue | Datetime_global.js:523-530 | the one-based carry keeps `high*cap+low` unless low is a multiple of cap, in which case it overshoots by one cap |
| Correction.BorrowOneBased | Datetime_global.js:548-555 | a borrow of one month or year keeps the weighted value, and a day or month up to one capacity below 1 ends in [1,cap] |
| Correction.CarryClock | Datetime_global.js:507-522 | the clock carries keep the weighted time of day and leave ms, second, minute and hour below their bases, without touching the date |
| Correction.CarryCalendar | Datetime_global.js:523-530 | the day and month carries bring day and month within their capacities and touch no clock field |
| Correction.BorrowClock | Datetime_global.js:532-547 | the clock borrows keep the weighted time of day and leave ms, second, minute and hour non-negative |
| Correction.BorrowCalendar | Datetime_global.js:548-555 | the day and month borrows move one month back exactly when the day was below 1 |
| Correction.CorrectTime | Datetime_global.js:505-556 | one correction step of `setHours` leaves the clock fields non-negative and the sub-ms fields unchanged |
| Correction.CorrectDate | Datetime_global.js:430-448 | the correction step of `setFullYear` never changes a clock field |
| Correction.CorrectTimeFixesInRange | Datetime_global.js:505-556 | a candidate already within all ranges is left alone by a correction step |
| Correction.ClockStepsKeepValue | Datetime_global.js:507-547 | carrying and then borrowing keeps the weighted time of day |
| Correction.Settle | Datetime_global.js:497-504 | the loop's result is accepted by the validation, or the error is `Precaution recursion limit reached` |
| Correction.SettleFailsIff | Datetime_global.js:497-504 | the loop fails exactly when all of the first 800 candidates are rejected |
| Correction.SettleFirst | Datetime_global.js:497-504 | a success is the first accepted candidate of the sequence |
| Correction.SettleKeeps | Datetime_global.js:497-556 | any property that the candidate has and every step keeps also holds for the loop's result |
| Correction.HoursCandidate | Datetime_global.js:482-496 | the candidate exists exactly when every supplied argument converts to an integer; its hour, minute, second and millisecond are the arguments given and the current ones for the missing trailing arguments; date and sub-millisecond fields are kept; a bad argument is a RangeError |
| Correction.HoursCandidateDefaults | Datetime_global.js:482-496 | a single argument keeps the current minute, second and millisecond |
| Correction.HoursCandidateUndefined | Datetime_global.js:482-496 | an explicit `undefined` argument counts as 0 |
| Correction.SetHours | Datetime_global.js:481-559 | a success is accepted and keeps microsecond and nanosecond; a failure is a RangeError or the limit error |
| Correction.SetHoursFirstOffer | Datetime_global.js:481-559 | when the first candidate is accepted, the result is that accepted candidate: exactly the requested fields with the defaults |
| Correction.SetHoursRejectsArgument | Datetime_global.js:481-496 | any argument that does not convert to an integer makes `setHours` throw a RangeError |
| Correction.SetHoursWrapsHour | Datetime_global.js:481-559 | on a 24-hour day, `setHours(25)` gives one o'clock of the next day when that day is in the same month |
| Correction.SetMinutes | Datetime_global.js:568-572 | a success is accepted and keeps microsecond and nanosecond; a failure is a RangeError or the limit error |
| Correction.SetSeconds | Datetime_global.js:580-583 | the same guarantees for `setSeconds` |
| Correction.SetMilliseconds | Datetime_global.js:590-592 | the same guarantees for `setMilliseconds` |
| Correction.SetMinutesDelegates | Datetime_global.js:568-572 | `setMinutes` is `setHours` with the current hour first |
| Correction.SetSecondsDelegates | Datetime_global.js:580-583 | `setSeconds` is `setHours` with the current hour and minute first |
| Correction.SetMillisecondsDelegates | Datetime_global.js:590-592 | `setMilliseconds` is `setHours` with the current hour, minute and second first |
| Correction.SetMinutesWithoutArgument | Datetime_global.js:568-572 | `setMinutes()` sets the minute to 0 |
| Correction.SetHoursKeepsAccepted | Datetime_global.js:481-559 | setting an accepted value's own hour returns that value unchanged |
| Correction.CoerceYear | Datetime_global.js:418-420 | a year fails exactly when it is missing (TypeError) or not an integer (RangeError) |
| Correction.YearCandidate | Datetime_global.js:415-422 | the candidate exists exactly when the year converts and so does each argument the guards read (the third as the day once two are given, the second as the month once three are given); the year is the first argument, the month the second argument with three arguments and the current month otherwise, the day the third argument (0 when missing) with two or more arguments and the current day otherwise; every clock field is kept; a failing year gives the year's own error, and every failure is a RangeError or a TypeError |
| Correction.SetFullYear | Datetime_global.js:415-453 | a success is accepted and keeps every clock field; a failure is a RangeError, TypeError or the limit error |
| Correction.SetFullYearFirstOffer | Datetime_global.js:415-453 | when the first candidate is accepted, the result is that accepted candidate: the requested year, month and day with the clock fields kept |
| Correction.SetFullYearNeedsYear | Datetime_global.js:415-420 | `setFullYear()` with no argument throws a TypeError, since `BigInt(undefined)` does |
| Correction.SetFullYearTwoArguments | Datetime_global.js:416-421 | with two arguments the month passed is ignored and the day becomes 0 |
| Correction.YearCandidateDropsMonth | Datetime_global.js:416-421 | `setFullYear(y, m)` with m different from the current month asks for the current month and day 0 |
| Correction.YearCandidateIntended | Datetime_global.js:408-422 | the intended candidate exists exactly when the year and each given month and day convert; the year is the first argument, the month the second when given and the day the third when given, the current ones otherwise; every clock field is kept; every failure is a RangeError or a TypeError |
| Correction.YearCandidateIntendedKeepsDay | Datetime_global.js:408-420 | with the intended defaults, `setFullYear(y, m)` sets year and month and keeps the day |
| Correction.SetFullYearIntended | Datetime_global.js:415-453 | the intended setter has the same success and failure guarantees as the one written |
| Correction.SetFullYearIntendedFirstOffer | Datetime_global.js:415-453 | when the intended first candidate is accepted, it is the result |
| Correction.SetFullYearIntendedDefaults | Datetime_global.js:408-420 | with the intended defaults a missing month or day is the current one |
| Correction.CommitKeepsAccepted | Datetime_global.js:558 | the stored value always passes the validation: a failed setter leaves it unchanged |
| DatetimeGlobal.TruncNumber | Datetime_global.js:32-34 | `Math.trunc` keeps finiteness and truncates the value |
| DatetimeGlobal.ConstructorNs | Datetime_global.js:15-35 | a `bigint`, a Temporal object or another `Datetime_global` gives its epoch nanoseconds unchanged; a finite number is truncated and scaled by 1,000,000; a non-finite one is a RangeError |
| DatetimeGlobal.EpochMilliseconds | Datetime_global.js:152 | epoch milliseconds are the nanoseconds floored to whole milliseconds |
| DatetimeGlobal.SetTime | Datetime_global.js:150-153 | a `bigint` is stored unchanged; a Temporal object is a TypeError; another `Datetime_global` is stored as its whole epoch milliseconds; a number succeeds exactly when finite and integral and is scaled by 1,000,000; the result is the new epoch ms |
| DatetimeGlobal.ConstructorMilliseconds | Datetime_global.js:33-35 | the constructor's epoch ms is the truncated input |
| DatetimeGlobal.SetTimeAgreesWithConstructor | Datetime_global.js:150-153 | for a `bigint` or a number, where `setTime` succeeds it stores what the constructor would, and it fails on a finite number only when it is fractional; a Temporal object is accepted by the constructor and rejected by `setTime`; another `Datetime_global` keeps all its nanoseconds in the constructor but only its whole milliseconds in `setTime`, the same exactly when it has no sub-millisecond part |
| DatetimeGlobal.SetTimeRoundTrip | Datetime_global.js:150-153 | setting an integral ms value returns it |
| DatetimeGlobal.GetUTCOffset | Datetime_global.js:717-724 | NaN gives `UTC+Error`; otherwise `UTC`, a sign that is `-` exactly for a positive offset, and at least four digits |
| DatetimeGlobal.GetUTCOffsetRoundTrip | Datetime_global.js:717-724 | every integer offset, and NaN, reads back from its text |
| DatetimeGlobal.GetUTCOffsetExamples | Datetime_global.js:717-724 | 0 gives `UTC+0000`, -330 gives `UTC+0530` and 60 gives `UTC-0100` |
| DatetimeGlobal.IsoDayOfWeek | Datetime_global.js:247-249 | the ISO weekday is in 1..7 and day 0 is a Thursday (4) |
| DatetimeGlobal.GetDay | Datetime_global.js:247-249 | `dayOfWeek % 7` is in 0..6, is 0 exactly for Sunday (7), and otherwise equals the ISO number |
| DatetimeGlobal.GetDayIsWeekDay | Datetime_global.js:247-249 | `getDay` agrees with the ECMAScript `WeekDay` of the same instant |
| DatetimeGlobal.GetMonth | Datetime_global.js:268-270 | the zero-based month is one less than the calendar month and in 0..11 |
| DatetimeGlobal.GetMonthAgreesWithDate | Datetime_global.js:268-270 | for a date of years 0..9999, `getMonth` of its one-based month is the ECMAScript `MonthFromTime` of the same day |
| DatetimeGlobal.GetYearRoundTrip | Datetime_global.js:254-256 | `MakeFullYear(GetYear(y))` recovers the year exactly for years 1900..1999 |
| DatetimeGlobal.StyleOf | Datetime_global.js:196-238 | a format letter is recognised exactly when it is one of `tTdDfFR` |
| DatetimeGlobal.DiscordText | Datetime_global.js:191-241 | the text fails exactly for an unknown letter, with the message `<f> is not valid` |
| DatetimeGlobal.DiscordLetters | Datetime_global.js:191-235 | `Render` follows the letter: each letter selects its style, the default letter is `f`, and `R` gives the relative phrase of the current time and the value |
| DatetimeGlobal.DiscordDateReadsBack | Datetime_global.js:203-204 | for a year in 0..9999 the `d` text is `YYYY-MM-DD`, whose fields read back as year, month and day |
| DatetimeGlobal.DiscordTimeReadsBack | Datetime_global.js:194-201 | the `t` text is `HH:MM` and the `T` text adds `:SS`, with fields that read back |
| RelativeTime.ElapsedSeconds | RelativeTimeChecker.ts:99-101 | the difference is floored to whole seconds |
| RelativeTime.PhraseShape | RelativeTimeChecker.ts:104-107 | in `Phrase`, a negative difference reads `in …`, a non-negative one `… ago`, and neither is `now` |
| RelativeTime.NowExactlyAtZero | RelativeTimeChecker.ts:139-144 | the phrase is `now` exactly when the floored difference is 0 |
| RelativeTime.GetRelativeTime | RelativeTimeChecker.ts:98-145 | an invalid date gives `NaN seconds ago`; a valid one gives `now` exactly when it lies 0..999 ms in the past |
| RelativeTime.FirstFitting | RelativeTimeChecker.ts:109-138 | the unit chosen is the first whose length is at most the difference |
| RelativeTime.PhraseOfSecondsByTable | RelativeTimeChecker.ts:109-144 | for a non-zero difference `PhraseOfSeconds` uses the first fitting unit of years, months, weeks, days, hours, minutes, seconds, with a count of at least 1, singular exactly when it is 1 |
| RelativeTime.UnitIndexRow | RelativeTimeChecker.js:98-132 | the unit chosen is the first that fits: every earlier unit is longer than the difference |
| RelativeTime.PhraseExamples | RelativeTimeChecker.ts:104-138 | 59 gives `59 seconds ago`, 60 gives `1 minute ago` and -60 gives `in 1 minute` |
| RelativeTime.JustAhead | RelativeTimeChecker.js:87-133 | a date 1..999 ms in the future is `in 1 second`, not `now` |
| RelativeTime.Counted | relative-time-checker.ts:62-71 | a counted unit starts with its digits |
| RelativeTime.RPhrase | relative-time-checker.ts:57-71 | the phrase is `now` exactly when the truncated seconds are 0 |
| RelativeTime.RPhraseTs | relative-time-checker.ts:16-19 | the phrase is `now` exactly when the two instants are less than 1000 ms apart |
| RelativeTime.RPhraseJs | relative-time-checker.js:14-17 | the compiled twin, which takes the direction from the ms difference, is `now` under the same condition |
| RelativeTime.RPhraseTwinsAgree | relative-time-checker.js:14-17 | the two ways of deciding the direction always give the same phrase |
| RelativeTime.AbsTruncDiv | relative-time-checker.ts:63-70 | the magnitude of a truncated quotient is the floored quotient of the magnitude |
| RelativeTime.RPhraseByUnit | relative-time-checker.ts:57-71 | below 60 s the text is always-plural seconds; above, the unit is days, hours or minutes by thresholds 86400 and 3600, counted as floor of magnitude over unit length, then `ago` or `from now` |
| RelativeTime.OneSecondIsPlural | relative-time-checker.ts:60-61 | one second reads `1 seconds ago` or `1 seconds from now` |
| RelativeTime.NewChecker | relative-time-checker.ts:7-14 | a missing format defaults to `R`; the format `Relative` is stored as `R`; any other format is stored as given; the element is kept |
| RelativeTime.DefaultCheckerRunsR | relative-time-checker.ts:7-19 | a checker built without a format writes the `R` phrase of a valid date and returns true |
| RelativeTime.Run | relative-time-checker.ts:16-74 | an invalid date writes `Invalid Date` and returns false; false only ever comes with `Invalid Date`, and with a valid date only from a callback returning `undefined`; an unnamed format renders the `R` phrase |
| RelativeTime.RelativeRunsAsR | relative-time-checker.ts:9-13 | a checker built with `Relative` runs exactly like one with `R` |
| RelativeTime.RunTwinsAgree | relative-time-checker.js:14-75 | the compiled twin's `run` gives the same text and result as the TypeScript one |
| DigitGrouping.Chunk | testsx.ts:2-13 | `chunk` returns only complete groups: `floor(n/3)` of them, group i being elements 3i..3i+2 |
| DigitGrouping.ChunkLoop | testsx.js:2-13 | the loop with its temporary buffer computes `chunk` |
| DigitGrouping.ChunkConcat | testsx.ts:6-12 | the groups put back together are the first `3*floor(n/3)` elements; the trailing partial group is lost |
| DigitGrouping.UnderscoreNumberOf | testsx.ts:15-19 | `BigInt` of the argument succeeds exactly for integral numbers |
| DigitGrouping.Triples | testsx.ts:16-18 | the complete triples of a text from the right, read left to right, each with its non-digits dropped |
| DigitGrouping.GroupDigitsJoin | testsx.js:14-18 | the output of `GroupDigits` is the complete digit triples from the right, joined by `_` in reading order |
| DigitGrouping.GroupDigitsAlphabet | testsx.ts:15-19 | the output contains only digits and `_`; a minus sign is removed |
| DigitGrouping.GroupDigitsKept | testsx.ts:15-19 | deleting the underscores gives the digits after the first `len%3` characters |
| DigitGrouping.UnderscoreNumberDigits | testsx.ts:15-19 | for n >= 0, deleting the underscores from `UnderscoreNumber(n)` gives the decimal text of n without its leading `len%3` digits, hence all of it when the digit count is a multiple of 3 |
| DigitGrouping.GroupDigitsShort | testsx.ts:5-12 | a text shorter than 3 gives the empty string |
| DigitGrouping.UnderscoreNumberExample | testsx.ts:15-19 | 1234 gives `234` |
| DigitGrouping.ChunkFlushed | testsx.ts:2-13 | the corrected chunking has `ceil(n/3)` groups |
| DigitGrouping.ChunkFlushedConcat | testsx.ts:2-13 | the corrected groups put back together are the whole input |
| DigitGrouping.GroupDigitsFlushedJoin | testsx.ts:15-19 | the corrected output is the leading partial group, if any, then the triples, joined by `_` |
| DigitGrouping.GroupDigitsFlushedKept | testsx.ts:15-19 | deleting the underscores from the corrected output gives all the digits of the input |
| DigitGrouping.UnderscoreNumberFlushedDigits | testsx.ts:15-19 | the corrected `underscoreNumber(n)` without underscores is the decimal text of abs(n) |
| DigitGrouping.UnderscoreNumberFlushedExample | testsx.ts:15-19 | the corrected version turns 1234 into `1_234` |

## Left out

- Time zones: Temporal's zone database is not modelled. This covers `getOffsetNanoseconds`, `#UTC`, `Dateinternals.UTC` and `setTimezone` in `Datetime_local.ts`. The offset in nanoseconds and the zone id are parameters.
- The `Datetime_local` constructor: it needs `Date.parse`, `Date.now`, `ToPrimitive` and the zone-dependent `Dateinternals.UTC`. Its arithmetic (`MakeFullYear`, `MakeDay`, `MakeTime`, `MakeDate`, `TimeClip`) is modelled.
- `Date.now`, `Date.parse` and the host `Date` object: the current time is an argument. The host renderings that `run` selects by name (`toString`, `toLocaleString`, …) are a function parameter.
- IEEE-754 doubles: time values are integers. NaN is an explicit `Invalid` value and other numbers are exact reals, so `-0` and rounding are not modelled.
- `MakeTime`, `MakeDay`, `MakeDate`: their non-finite-argument guards are not modelled because they are only reached with integers here.
- Non-number primitives passed to the `Datetime_global` constructor or `setTime` (Datetime_global.js:150-152): `null` and `undefined` make `BigInt` throw a TypeError, a string is parsed and may throw a SyntaxError, and a boolean becomes 0 or 1. Only JS numbers, `bigint`s, Temporal objects and `Datetime_global` values are inputs of the model.
- Correction.Capacities: the capacities are positive integers, so the fractional `hoursInDay` of a day with a half-hour DST shift (23.5 or 24.5 hours, e.g. in `Australia/Lord_Howe`) is not modelled; with it, the hour carry and borrow (Datetime_global.js:519-521, 545-546) would divide by a non-integer.
- DigitGrouping.Texts: it is a plain pointwise map of `GroupText` with no contract of its own; the lemmas that use it (`TextsReversed`, `FlushedTexts`) state what the reversed texts are.
- DatetimeGlobal.GetUTCOffset: takes an integer offset or NaN, so fractional and infinite offsets are not modelled.
- `toHTMLDiscordString`: the `<time>` wrapper and its `toISOString`/`toString` attributes are host and Temporal calls. The month and weekday names come from the wall-clock fields passed in, which Temporal supplies.
- Temporal's `with(…, {overflow: "reject"})`: it is the abstract acceptance predicate. The capacities `hoursInDay`, `daysInMonth`, `monthsInYear` and the previous month's length are parameters read once from the original value, as in the source.
- The setters' stored instant and return value: the model's setters return the accepted candidate's wall-clock fields. The source stores the ZonedDateTime that `with` builds from that candidate and returns its `epochMilliseconds` (Datetime_global.js:429, 452, 502, 558). Converting wall-clock fields to an instant needs the time-zone database, so it is not modelled. In a DST gap the instant can differ from the candidate: "compatible" disambiguation moves 02:30 on a spring-forward day to 03:30. So on such days `SetHoursFirstOffer` and `SetFullYearFirstOffer` describe the candidate, not the stored time.
- `this.time` assignment: the setters are pure functions, and `Commit` models the store that happens only on success.
- `setMonth` and `setDate`: they only forward to `setFullYear` with three arguments, which is modelled; note that `setDate` passes the zero-based `getMonth()` (Datetime_global.js:469-471) where `setFullYear` takes a one-based month, so `setDate(d)` lands in the month before.
- Correction.CarryOneBased: does not state value preservation, because the source's day→month and month→year carry overshoots by one capacity when the low field is an exact multiple. `CarryOneBasedValue` states the exact overshoot instead.
- `Datetime_global.ts`, `ClockDate.ts`, the DOM builders, custom-element lifecycles, timers, `autorun`, prompts and the proxy helper: not pure logic over dates, so they are not part of this model.
- The `format(...)` token engine and `toSwatchInternetTime`: tests.js imports `toSwatchInternetTime` (tests.js:2), and Datetime_HTML.js:21 and RelativeTimeChecker.js:30 call `format`, but no source file of the library defines either.
- Calling the `Datetime_local` or `Datetime_global` constructor without `new`: this returns `toString()`, which is either modelled (`Datetime_local`) or a Temporal call (`Datetime_global`).
- Datetime_global constructor with no argument or `undefined`: it reads the current time, so callers pass the instant explicitly.
- The epoch range limit of `new Temporal.ZonedDateTime`: not modelled, so any integer nanosecond count is accepted.

## Findings

| source | as written | input that shows it | evidently intended | confidence | as-written member | corrected member |
|---|---|---|---|---|---|---|
| testsx.ts:2-13 | `chunk` never pushes the partial group left in its temporary buffer, so `underscoreNumber` loses the leading `len%3` digits | `underscoreNumber(1234)` gives `"234"` | `"1_234"`: every digit kept, grouped in threes from the right | not executed | DigitGrouping.UnderscoreNumberExample | DigitGrouping.UnderscoreNumberFlushedDigits |
| Datetime_global.js:416-417 | the argument-count guards of `date` and `month` are swapped, so with two arguments the month is ignored and the day becomes `undefined`, hence 0 | `setFullYear(2020, 5)` on a value in month 1, day 15 asks for 2020, month 1, day 0 | year 2020, month 5, day 15: the month argument used as the code feeds it (one-based) and the day kept | not executed | Correction.YearCandidateDropsMonth | Correction.YearCandidateIntendedKeepsDay |

=== FILE: Calendar.dfy ===
/** The `Dateinternals` object of Datetime_local.ts: the time-value arithmetic of
    section 21.4.1 of ECMA-262 (Day, WeekDay, DaysInYear, DayFromYear,
    YearFromTime, MonthFromTime, DateFromTime, the time-of-day fields, MakeTime,
    MakeDay, MakeDate, MakeFullYear, TimeClip), together with
    `EXMAScript_Modulo`. A time value is an integer count of milliseconds since
    1970-01-01T00:00:00Z, or NaN, which is the `Invalid` case of `TimeValue`. */
module Calendar {
  import opened Results
  import opened JsNumbers

  const HoursPerDay := 24
  const MinutesPerHour := 60
  const SecondsPerMinute := 60
  const MsPerSecond := 1000
  const MsPerMinute := 60000
  const MsPerHour := 3600000
  const MsPerDay := 86400000

  /** The year range searched by `YearFromTime`. */
  const MinYear := 0
  const MaxYear := 9999

  /** The largest magnitude `TimeClip` accepts: 8.64e15 ms, 100 000 000 days. */
  const MaxTimeValue := 8640000000000000

  /** A time value: NaN, or an integral millisecond count. */
  datatype TimeValue = Invalid | Valid(ms: int)

  /** `EXMAScript_Modulo` for a non-zero divisor: the JavaScript remainder,
      moved into the divisor's sign by adding the divisor once. */
  function Modulo(x: int, y: int): (r: int)
    requires y != 0
    ensures y > 0 ==> 0 <= r < y && r == x % y
    ensures y < 0 ==> y < r <= 0 && r == (if x % y == 0 then 0 else x % y + y)
  {
    var rem := TruncRem(x, y);
    var q := TruncDiv(x, y);
    TruncDivRem(x, y);
    var r := if rem == 0 || Sign(rem) == Sign(y) then rem else rem + y;
    if y > 0 then
      (if rem >= 0 then DivModUnique(x, y, q, rem); r
       else DivModUnique(x, y, q - 1, rem + y); r)
    else
      (if rem >= 0 then DivModUnique(x, y, q, rem); r
       else DivModUnique(x, y, q + 1, rem - y); r)
  }

  /** `EXMAScript_Modulo(x, y)`: a RangeError for a zero divisor; otherwise the
      remainder congruent to `x` that has the divisor's sign. */
  function EcmaModulo(x: int, y: int): (r: Result<int>)
    ensures r.Failure? <==> y == 0
    ensures r.Failure? ==> r.error == RangeError("modulus cannot be zero")
    ensures y > 0 ==> r.Success? && 0 <= r.value < y && (x - r.value) % y == 0
    ensures y < 0 ==> r.Success? && y < r.value <= 0 && (x - r.value) % y == 0
  {
    if y == 0 then Failure(RangeError("modulus cannot be zero"))
    else
      var m := Modulo(x, y);
      if y > 0 then
        DivModUnique(x - m, y, x / y, 0); Success(m)
      else
        DivModUnique(x - m, y, if x % y == 0 then x / y else x / y - 1, 0); Success(m)
  }

  /** `Day(t)`: `Math.floor(t / msPerDay)`; Dafny's `/` by a positive divisor
      already rounds toward negative infinity. */
  function Day(t: int): int {
    t / MsPerDay
  }

  /** `WeekDay(t)`: 0 is Sunday; day 0 (1970-01-01) was a Thursday. */
  function WeekDay(t: int): (r: int)
    ensures 0 <= r <= 6
    ensures Day(t) == 0 ==> r == 4
  {
    Modulo(Day(t) + 4, 7)
  }

  /** The Gregorian rule for leap years. */
  predicate IsLeapYear(y: int) {
    y % 400 == 0 || (y % 4 == 0 && y % 100 != 0)
  }

  /** `DaysInYear(y)`. */
  function DaysInYear(y: int): (r: int)
    ensures r == 365 || r == 366
    ensures r == 366 <==> IsLeapYear(y)
  {
    if Modulo(y, 400) == 0 then 366
    else if Modulo(y, 100) == 0 then 365
    else if Modulo(y, 4) == 0 then 366
    else 365
  }

  /** `DayFromYear(y)`: the day number of 1 January of year `y`. */
  function DayFromYear(y: int): (r: int)
    ensures y == 1970 ==> r == 0
  {
    365 * (y - 1970) + (y - 1969) / 4 - (y - 1901) / 100 + (y - 1601) / 400
  }

  /** The loop of the binary search in `YearFromTime` over `low..high`, with
      `result` the best year found so far and `starts(y)` the first day of
      year `y` (`DayFromYear` in `YearFromTime`). The source compares
      `DayFromYear(mid)` with the real quotient `t / msPerDay`; since the left
      side is an integer this is the same as comparing with its floor, `days`.
      What the search finds is stated by `CalendarProofs.SearchYearFinds`. */
  function SearchYear(starts: int -> int, days: int, low: int, high: int, result: int): (r: int)
    requires MinYear <= low <= high + 1 <= MaxYear + 1 && MinYear <= result <= MaxYear
    ensures MinYear <= r <= MaxYear
    ensures r == result || low <= r <= high
    decreases high - low
  {
    if low > high then result
    else
      var mid := (low + high) / 2;
      if starts(mid) <= days then SearchYear(starts, days, mid + 1, high, mid)
      else SearchYear(starts, days, low, mid - 1, result)
  }

  /** `YearFromTime(t)`: binary search over the years 0..9999 only, so every
      time value maps into that range. */
  function YearFromTime(t: int): (r: int)
    ensures MinYear <= r <= MaxYear
  {
    SearchYear(DayFromYear, Day(t), MinYear, MaxYear, MinYear)
  }

  /** The time values whose year `YearFromTime` can represent: from
      0000-01-01T00:00:00.000Z up to, not including, 10000-01-01. */
  predicate InSearchedYears(t: int) {
    DayFromYear(MinYear) <= Day(t) < DayFromYear(MaxYear + 1)
  }

  /** `InLeapYear(t)`. */
  function InLeapYear(t: int): bool {
    DaysInYear(YearFromTime(t)) == 366
  }

  /** `DayWithinYear(t)`: days since 1 January of `YearFromTime(t)`. */
  function DayWithinYear(t: int): int {
    Day(t) - DayFromYear(YearFromTime(t))
  }

  /** `MonthFromTime(t)`: 0 is January. */
  function MonthFromTime(t: int): (r: int)
    ensures 0 <= r <= 11
  {
    MonthOfDayWithinYear(DayWithinYear(t), if InLeapYear(t) then 1 else 0)
  }

  /** The chain of comparisons of `MonthFromTime` against the first days of
      the months (`leap` is 1 in a leap year). A day before the first month
      start maps to January and one past the year's end to December. */
  function MonthOfDayWithinYear(d: int, leap: int): (r: int)
    ensures 0 <= r <= 11
  {
    if d < 31 then 0
    else if d < 59 + leap then 1
    else if d < 90 + leap then 2
    else if d < 120 + leap then 3
    else if d < 151 + leap then 4
    else if d < 181 + leap then 5
    else if d < 212 + leap then 6
    else if d < 243 + leap then 7
    else if d < 273 + leap then 8
    else if d < 304 + leap then 9
    else if d < 334 + leap then 10
    else 11
  }

  /** `DateFromTime(t)`: 1-based day of the month. */
  function DateFromTime(t: int): int {
    DateOfDayWithinYear(DayWithinYear(t), if InLeapYear(t) then 1 else 0, MonthFromTime(t))
  }

  /** The per-month subtractions of `DateFromTime`. */
  function DateOfDayWithinYear(d: int, leap: int, m: int): int {
    if m == 0 then d + 1
    else if m == 1 then d - 30
    else if m == 2 then d - 58 - leap
    else if m == 3 then d - 89 - leap
    else if m == 4 then d - 119 - leap
    else if m == 5 then d - 150 - leap
    else if m == 6 then d - 180 - leap
    else if m == 7 then d - 211 - leap
    else if m == 8 then d - 242 - leap
    else if m == 9 then d - 272 - leap
    else if m == 10 then d - 303 - leap
    else d - 333 - leap
  }

  function HourFromTime(t: int): (r: int)
    ensures 0 <= r < HoursPerDay
  {
    Modulo(t / MsPerHour, HoursPerDay)
  }

  function MinFromTime(t: int): (r: int)
    ensures 0 <= r < MinutesPerHour
  {
    Modulo(t / MsPerMinute, MinutesPerHour)
  }

  function SecFromTime(t: int): (r: int)
    ensures 0 <= r < SecondsPerMinute
  {
    Modulo(t / MsPerSecond, SecondsPerMinute)
  }

  function MsFromTime(t: int): (r: int)
    ensures 0 <= r < MsPerSecond
  {
    Modulo(t, MsPerSecond)
  }

  /** `MakeTime(h, m, s, ms)` for finite, integral arguments. */
  function MakeTime(hour: int, min: int, sec: int, ms: int): (r: int)
    ensures (0 <= hour < HoursPerDay && 0 <= min < MinutesPerHour && 0 <= sec < SecondsPerMinute
             && 0 <= ms < MsPerSecond) ==> 0 <= r < MsPerDay
  {
    hour * MsPerHour + min * MsPerMinute + sec * MsPerSecond + ms
  }

  /** `MakeDate(day, time)` for finite arguments. */
  function MakeDate(day: int, time: int): int {
    day * MsPerDay + time
  }

  /** The month lengths table built inside `MakeDay`. */
  function MonthDays(leap: bool): (r: seq<int>)
    ensures |r| == 12
  {
    [31, if leap then 29 else 28, 31, 30, 31, 30, 31, 31, 30, 31, 30, 31]
  }

  /** The `for (i = 0; i < m; i++) sum += monthDays[i]` loop of `MakeDay`. */
  function SumMonthDays(monthDays: seq<int>, m: nat): int
    requires m <= |monthDays|
  {
    if m == 0 then 0 else SumMonthDays(monthDays, m - 1) + monthDays[m - 1]
  }

  /** `MakeDay(year, month, date)` for finite, integral arguments: the month is
      folded into the year (`year + floor(month / 12)`, `month mod 12`), and
      whether February has 29 days is decided by `InLeapYear` of the first day
      of that year, so through the clamped `YearFromTime`. */
  function MakeDay(year: int, month: int, date: int): int {
    var ym := year + month / 12;
    var mn := Modulo(month, 12);
    DayFromYear(ym) + DaysBeforeMonth(ym, mn) + date - 1
  }

  /** The `daysBeforeMonth` closure of `MakeDay`: the days of the months
      before month `mn` of year `ym`. */
  function DaysBeforeMonth(ym: int, mn: nat): int
    requires mn < 12
  {
    var leap := InLeapYear(MakeDate(DayFromYear(ym), 0));
    SumMonthDays(MonthDays(leap), mn)
  }

  /** `TimeClip(v)`: NaN for a non-finite value or one beyond 8.64e15 in
      magnitude; otherwise the value truncated toward zero (a zero of either
      sign becomes +0, which this model does not distinguish). */
  function TimeClip(v: Number): (r: TimeValue)
    ensures r.Valid? <==> v.Finite? && AbsReal(v.value) <= MaxTimeValue as real
    ensures r.Valid? ==> r.ms == Trunc(v.value) && Abs(r.ms) <= MaxTimeValue
  {
    match v
    case Finite(x) => if AbsReal(x) > MaxTimeValue as real then Invalid else Valid(Trunc(x))
    case _ => Invalid
  }

  /** The JavaScript number a time value stands for. */
  function TimeValueToNumber(tv: TimeValue): Number {
    match tv
    case Invalid => NaN
    case Valid(t) => Finite(t as real)
  }

  /** `MakeFullYear(year)`: NaN stays NaN; otherwise the year is truncated
      toward zero and 0..99 become 1900..1999. */
  function MakeFullYear(year: Number): (r: Number)
    ensures r.NaN? <==> year.NaN?
    ensures year.Infinity? ==> r == year
    ensures year.Finite? && 0 <= Trunc(year.value) < 100 ==>
              r == Finite((1900 + Trunc(year.value)) as real)
    ensures year.Finite? && !(0 <= Trunc(year.value) < 100) ==>
              r == Finite(Trunc(year.value) as real)
  {
    match year
    case NaN => NaN
    case Infinity(_) => year
    case Finite(x) =>
      var y := Trunc(x);
      if 0 <= y < 100 then Finite((1900 + y) as real) else Finite(y as real)
  }
}

=== FILE: CalendarProofs.dfy ===
/** Properties of the time-value arithmetic of `Calendar`: the leap-year step
    of `DayFromYear`, what the binary search of `YearFromTime` finds, the month
    and date decomposition, and the round trips between a time value and its
    calendar fields inside the years 0..9999. */
module CalendarProofs {
  import opened JsNumbers
  import opened Calendar

  /** Days before month `m` (0..12) of a year, `leap` being 1 in a leap year. */
  function CumulativeDays(leap: int, m: int): int
    requires 0 <= m <= 12
  {
    [0, 31, 59, 90, 120, 151, 181, 212, 243, 273, 304, 334, 365][m] + (if m >= 2 then leap else 0)
  }

  /** The number of days of month `m` (0-based) of year `y`. */
  function DaysInMonth(y: int, m: int): (r: int)
    requires 0 <= m <= 11
    ensures 28 <= r <= 31
  {
    MonthDays(IsLeapYear(y))[m]
  }

  function LeapDigit(y: int): int {
    if IsLeapYear(y) then 1 else 0
  }

  // ---------------------------------------------------------------------------
  // DayFromYear

  lemma FloorStep(a: int, k: int)
    requires k > 0
    ensures (a + 1) / k - a / k == (if (a + 1) % k == 0 then 1 else 0)
  {
    var q, r := a / k, a % k;
    if r < k - 1 {
      DivModUnique(a + 1, k, q, r + 1);
    } else {
      DivModUnique(a + 1, k, q + 1, 0);
    }
  }

  lemma DivisibleBy(y: int, big: int, small: int)
    requires big > 0 && small > 0 && big % small == 0 && y % big == 0
    ensures y % small == 0
  {
    var a, b := y / big, big / small;
    assert y == a * big;
    assert big == b * small;
    assert y == (a * b) * small;
    DivModUnique(y, small, a * b, 0);
  }

  /** One year on, `DayFromYear` has advanced by exactly the length of the year. */
  lemma DayFromYearStep(y: int)
    ensures DayFromYear(y + 1) - DayFromYear(y) == DaysInYear(y)
  {
    FloorStep(y - 1969, 4);
    FloorStep(y - 1901, 100);
    FloorStep(y - 1601, 400);
    ModAddMultiple(y, -492, 4);
    ModAddMultiple(y, -19, 100);
    ModAddMultiple(y, -4, 400);
    if y % 400 == 0 {
      DivisibleBy(y, 400, 100);
      DivisibleBy(y, 400, 4);
    } else if y % 100 == 0 {
      DivisibleBy(y, 100, 4);
    }
  }

  /** `DayFromYear` grows by at least 365 a year, so it is strictly increasing. */
  lemma {:induction false} DayFromYearIncreasing(a: int, b: int)
    requires a <= b
    ensures DayFromYear(a) + 365 * (b - a) <= DayFromYear(b)
    decreases b - a
  {
    if a < b {
      DayFromYearIncreasing(a, b - 1);
      DayFromYearStep(b - 1);
    }
  }

  // ---------------------------------------------------------------------------
  // YearFromTime

  /** Year `r` of 0..9999 is the one whose days contain `days`, or 0 when
      year 0 starts after `days`, or 9999 when `days` is past that year. */
  predicate FoundYear(starts: int -> int, r: int, days: int) {
    (r == MinYear || starts(r) <= days)
    && (starts(MinYear) <= days ==> starts(r) <= days && (r == MaxYear || days < starts(r + 1)))
  }

  /** The binary search keeps `result` the last year known to start on or
      before `days` and `high + 1` the first year known to start after it, so
      it ends on the year containing `days`, or on 0 when year 0 starts after
      `days`. */
  lemma {:induction false} SearchYearFinds(starts: int -> int, days: int, low: int, high: int, result: int)
    requires MinYear <= low <= high + 1 <= MaxYear + 1
    requires low == MinYear ==> result == MinYear
    requires low > MinYear ==> result == low - 1 && starts(result) <= days
    requires high < MaxYear ==> days < starts(high + 1)
    ensures FoundYear(starts, SearchYear(starts, days, low, high, result), days)
    decreases high - low
  {
    if low <= high {
      var mid := (low + high) / 2;
      assert low <= mid <= high;
      if starts(mid) <= days {
        SearchYearFinds(starts, days, mid + 1, high, mid);
        var r := SearchYear(starts, days, mid + 1, high, mid);
        assert FoundYear(starts, r, days);
        assert SearchYear(starts, days, low, high, result) == r;
      } else {
        SearchYearFinds(starts, days, low, mid - 1, result);
        var r := SearchYear(starts, days, low, mid - 1, result);
        assert FoundYear(starts, r, days);
        assert SearchYear(starts, days, low, high, result) == r;
      }
    }
  }

  /** `YearFromTime(t)` is the year whose days contain `Day(t)`, clamped to
      0..9999. */
  lemma YearFromTimeFinds(t: int)
    ensures FoundYear(DayFromYear, YearFromTime(t), Day(t))
  {
    SearchYearFinds(DayFromYear, Day(t), MinYear, MaxYear, MinYear);
  }

  /** Only one year of 0..9999 can be found for a day inside that year. */
  lemma FoundYearUnique(r: int, y: int, days: int)
    requires MinYear <= r <= MaxYear && MinYear <= y <= MaxYear
    requires DayFromYear(y) <= days < DayFromYear(y + 1)
    requires FoundYear(DayFromYear, r, days)
    ensures r == y
  {
    DayFromYearIncreasing(MinYear, y);
    if r < y {
      DayFromYearIncreasing(r + 1, y);
    } else if r > y {
      DayFromYearIncreasing(y + 1, r);
    }
  }

  /** Inside 0..9999, `YearFromTime` returns the year whose days contain `Day(t)`. */
  lemma YearFromTimeIsYearOfDay(t: int, y: int)
    requires MinYear <= y <= MaxYear
    requires DayFromYear(y) <= Day(t) < DayFromYear(y + 1)
    ensures YearFromTime(t) == y
  {
    YearFromTimeFinds(t);
    FoundYearUnique(YearFromTime(t), y, Day(t));
  }

  /** Before year 0 the search finds no year and answers 0. */
  lemma YearFromTimeBelowRange(t: int)
    requires Day(t) < DayFromYear(MinYear)
    ensures YearFromTime(t) == MinYear
  {
    var r := YearFromTime(t);
    YearFromTimeFinds(t);
    if r != MinYear {
      DayFromYearIncreasing(MinYear, r);
    }
  }

  /** From year 10000 on the search stops at 9999. */
  lemma YearFromTimeAboveRange(t: int)
    requires DayFromYear(MaxYear + 1) <= Day(t)
    ensures YearFromTime(t) == MaxYear
  {
    var r := YearFromTime(t);
    YearFromTimeFinds(t);
    DayFromYearIncreasing(MinYear, MaxYear + 1);
    if r < MaxYear {
      DayFromYearIncreasing(r + 1, MaxYear + 1);
    }
  }

  /** Inside 0..9999, `Day(t)` lies in the year `YearFromTime(t)`. */
  lemma YearFromTimeBrackets(t: int)
    requires InSearchedYears(t)
    ensures DayFromYear(YearFromTime(t)) <= Day(t) < DayFromYear(YearFromTime(t) + 1)
    ensures 0 <= DayWithinYear(t) < DaysInYear(YearFromTime(t))
  {
    YearFromTimeFinds(t);
    DayFromYearStep(YearFromTime(t));
  }

  /** `Day` is the floor of `t / MsPerDay`: the day number whose span of
      milliseconds holds `t`, also for times before the epoch. */
  lemma DayIsFloor(t: int)
    ensures Day(t) * MsPerDay <= t < Day(t) * MsPerDay + MsPerDay
    ensures t < 0 ==> Day(t) < 0
  {
  }

  /** The first millisecond of day `day` falls on that day. */
  lemma DayOfMakeDate(day: int, time: int)
    requires 0 <= time < MsPerDay
    ensures Day(MakeDate(day, time)) == day
  {
    DivModUnique(MakeDate(day, time), MsPerDay, day, time);
  }

  /** The leap test `MakeDay` performs on the first day of year `y` is the
      Gregorian rule for `y` inside 0..9999. */
  lemma InLeapYearOfYearStart(y: int)
    requires MinYear <= y <= MaxYear
    ensures InLeapYear(MakeDate(DayFromYear(y), 0)) == IsLeapYear(y)
  {
    var t := MakeDate(DayFromYear(y), 0);
    DayOfMakeDate(DayFromYear(y), 0);
    DayFromYearStep(y);
    YearFromTimeIsYearOfDay(t, y);
  }

  // ---------------------------------------------------------------------------
  // Months and dates

  lemma {:induction false} CumulativeDaysIncreasing(leap: int, i: int, j: int)
    requires 0 <= leap <= 1 && 0 <= i <= j <= 12
    ensures CumulativeDays(leap, i) + 28 * (j - i) <= CumulativeDays(leap, j)
    decreases j - i
  {
    if i < j {
      CumulativeDaysIncreasing(leap, i, j - 1);
    }
  }

  /** The summing loop of `MakeDay` computes the days before the month. */
  lemma {:induction false} SumMonthDaysIsCumulative(leap: bool, m: nat)
    requires m <= 12
    ensures SumMonthDays(MonthDays(leap), m) == CumulativeDays(if leap then 1 else 0, m)
  {
    if m > 0 {
      SumMonthDaysIsCumulative(leap, m - 1);
    }
  }

  /** The comparison chain picks the month whose days contain `d`, and the
      date counts from that month's first day. */
  lemma MonthOfDayBrackets(d: int, leap: int)
    requires 0 <= leap <= 1 && 0 <= d < 365 + leap
    ensures var m := MonthOfDayWithinYear(d, leap);
            CumulativeDays(leap, m) <= d < CumulativeDays(leap, m + 1)
            && DateOfDayWithinYear(d, leap, m) == d - CumulativeDays(leap, m) + 1
  {
  }

  /** `MonthFromTime` picks the month whose days contain the day within the
      year, and `DateFromTime` counts from that month's first day. */
  lemma MonthAndDateOfDayWithinYear(t: int)
    requires InSearchedYears(t)
    ensures var leap := if InLeapYear(t) then 1 else 0;
            var m := MonthFromTime(t);
            CumulativeDays(leap, m) <= DayWithinYear(t) < CumulativeDays(leap, m + 1)
            && DateFromTime(t) == DayWithinYear(t) - CumulativeDays(leap, m) + 1
  {
    YearFromTimeBrackets(t);
    MonthOfDayBrackets(DayWithinYear(t), if InLeapYear(t) then 1 else 0);
  }

  /** Inside 0..9999, `DateFromTime` is a day of the month `MonthFromTime` names. */
  lemma DateFromTimeBounds(t: int)
    requires InSearchedYears(t)
    ensures 1 <= DateFromTime(t) <= DaysInMonth(YearFromTime(t), MonthFromTime(t))
  {
    MonthAndDateOfDayWithinYear(t);
  }

  lemma MonthUnique(leap: int, a: int, b: int, d: int)
    requires 0 <= leap <= 1 && 0 <= a <= 11 && 0 <= b <= 11
    requires CumulativeDays(leap, a) <= d < CumulativeDays(leap, a + 1)
    requires CumulativeDays(leap, b) <= d < CumulativeDays(leap, b + 1)
    ensures a == b
  {
    if a < b {
      CumulativeDaysIncreasing(leap, a + 1, b);
    } else if b < a {
      CumulativeDaysIncreasing(leap, b + 1, a);
    }
  }

  /** `MakeDay` folds twelve months into one year. */
  lemma MakeDayFoldsMonths(y: int, m: int, d: int)
    ensures MakeDay(y, m + 12, d) == MakeDay(y + 1, m, d)
  {
    ModAddMultiple(m, 1, 12);
    assert y + (m + 12) / 12 == (y + 1) + m / 12;
    assert Modulo(m + 12, 12) == Modulo(m, 12);
  }

  /** The day number `MakeDay` assembles inside 0..9999. */
  lemma MakeDayInRange(y: int, m: int, d: int)
    requires MinYear <= y <= MaxYear && 0 <= m <= 11
    ensures MakeDay(y, m, d) == DayFromYear(y) + CumulativeDays(LeapDigit(y), m) + d - 1
  {
    DivModUnique(m, 12, 0, m);
    assert y + m / 12 == y && Modulo(m, 12) == m;
    DaysBeforeMonthInRange(y, m);
  }

  /** Inside 0..9999 the loop of `MakeDay` sums the month lengths of year `y`. */
  lemma DaysBeforeMonthInRange(y: int, m: nat)
    requires MinYear <= y <= MaxYear && m <= 11
    ensures DaysBeforeMonth(y, m) == CumulativeDays(LeapDigit(y), m)
  {
    InLeapYearOfYearStart(y);
    SumMonthDaysIsCumulative(IsLeapYear(y), m);
  }

  /** Calendar fields -> day -> calendar fields: a valid date of the years
      0..9999 is read back unchanged. */
  lemma MakeDayRoundTrip(y: int, m: int, d: int)
    requires MinYear <= y <= MaxYear && 0 <= m <= 11
    requires 1 <= d <= DaysInMonth(y, m)
    ensures var t := MakeDate(MakeDay(y, m, d), 0);
            YearFromTime(t) == y && MonthFromTime(t) == m && DateFromTime(t) == d
  {
    MakeDayInRange(y, m, d);
    FieldsOfAssembledDay(y, m, d, MakeDay(y, m, d));
  }

  /** The first millisecond of day `DayFromYear(y)` + (days before month `m`)
      + `d - 1` has year `y`, month `m` and date `d`. */
  lemma FieldsOfAssembledDay(y: int, m: int, d: int, day: int)
    requires MinYear <= y <= MaxYear && 0 <= m <= 11
    requires 1 <= d <= DaysInMonth(y, m)
    requires day == DayFromYear(y) + CumulativeDays(LeapDigit(y), m) + d - 1
    ensures var t := MakeDate(day, 0);
            YearFromTime(t) == y && MonthFromTime(t) == m && DateFromTime(t) == d
  {
    var t := MakeDate(day, 0);
    var leap := LeapDigit(y);
    var within := CumulativeDays(leap, m) + d - 1;
    DayOfMakeDate(day, 0);
    CumulativeDaysStep(y, m);
    CumulativeDaysIncreasing(leap, m + 1, 12);
    DayWithinKnownYear(t, y, within);
    MonthAndDateInKnownYear(t, y, m, d);
  }

  /** Once the year and the day within it are known, the month and the date
      are the ones the day was assembled from. */
  lemma MonthAndDateInKnownYear(t: int, y: int, m: int, d: int)
    requires 0 <= m <= 11 && 1 <= d <= DaysInMonth(y, m)
    requires InSearchedYears(t) && InLeapYear(t) == IsLeapYear(y)
    requires DayWithinYear(t) == CumulativeDays(LeapDigit(y), m) + d - 1
    ensures MonthFromTime(t) == m && DateFromTime(t) == d
  {
    var leap := if InLeapYear(t) then 1 else 0;
    var within := DayWithinYear(t);
    assert leap == LeapDigit(y);
    CumulativeDaysStep(y, m);
    MonthOfDayUnique(within, leap, m);
    assert MonthFromTime(t) == MonthOfDayWithinYear(within, leap);
  }

  /** A day that lies inside month `m` is given month `m` by the comparison
      chain, and its date counts from that month's first day. */
  lemma MonthOfDayUnique(d: int, leap: int, m: int)
    requires 0 <= leap <= 1 && 0 <= m <= 11
    requires CumulativeDays(leap, m) <= d < CumulativeDays(leap, m + 1)
    ensures MonthOfDayWithinYear(d, leap) == m
    ensures DateOfDayWithinYear(d, leap, m) == d - CumulativeDays(leap, m) + 1
  {
    CumulativeDaysIncreasing(leap, 0, m);
    CumulativeDaysIncreasing(leap, m + 1, 12);
    MonthOfDayBrackets(d, leap);
    MonthUnique(leap, MonthOfDayWithinYear(d, leap), m, d);
  }

  /** Each month adds its own length to the days before it. */
  lemma CumulativeDaysStep(y: int, m: int)
    requires 0 <= m <= 11
    ensures CumulativeDays(LeapDigit(y), m + 1) == CumulativeDays(LeapDigit(y), m) + DaysInMonth(y, m)
  {
    var leap := IsLeapYear(y);
    var table := MonthDays(leap);
    assert DaysInMonth(y, m) == table[m];
    if leap {
      assert LeapDigit(y) == 1;
    } else {
      assert LeapDigit(y) == 0;
    }
  }

  /** A day `within` days into year `y` (0..9999) is placed in that year. */
  lemma DayWithinKnownYear(t: int, y: int, within: int)
    requires MinYear <= y <= MaxYear && 0 <= within < DaysInYear(y)
    requires Day(t) == DayFromYear(y) + within
    ensures YearFromTime(t) == y && DayWithinYear(t) == within
    ensures InLeapYear(t) == IsLeapYear(y) && InSearchedYears(t)
  {
    DayFromYearStep(y);
    YearFromTimeIsYearOfDay(t, y);
    DayFromYearIncreasing(MinYear, y);
    DayFromYearIncreasing(y + 1, MaxYear + 1);
  }

  /** Day -> calendar fields -> day: inside 0..9999 `MakeDay` rebuilds the day
      from `YearFromTime`, `MonthFromTime` and `DateFromTime`. */
  lemma CalendarFieldsRoundTrip(t: int)
    requires InSearchedYears(t)
    ensures MakeDay(YearFromTime(t), MonthFromTime(t), DateFromTime(t)) == Day(t)
  {
    MonthAndDateOfDayWithinYear(t);
    MakeDayInRange(YearFromTime(t), MonthFromTime(t), DateFromTime(t));
  }

  // ---------------------------------------------------------------------------
  // Time of day

  /** A time value splits into its day and its time-of-day fields. */
  lemma TimeOfDayRoundTrip(t: int)
    ensures MakeDate(Day(t), MakeTime(HourFromTime(t), MinFromTime(t), SecFromTime(t), MsFromTime(t))) == t
  {
    DivDiv(t, MsPerSecond, SecondsPerMinute);
    DivDiv(t, MsPerMinute, MinutesPerHour);
    DivDiv(t, MsPerHour, HoursPerDay);
    assert t == t / MsPerSecond * MsPerSecond + t % MsPerSecond;
    assert t / MsPerSecond == t / MsPerMinute * 60 + t / MsPerSecond % 60;
    assert t / MsPerMinute == t / MsPerHour * 60 + t / MsPerMinute % 60;
    assert t / MsPerHour == t / MsPerDay * 24 + t / MsPerHour % 24;
  }

  /** In-range fields assembled by `MakeTime` and `MakeDate` are read back
      unchanged by `Day` and the time-of-day accessors. */
  lemma TimeFieldsOfMakeDate(day: int, h: int, mi: int, s: int, ms: int)
    requires 0 <= h < HoursPerDay && 0 <= mi < MinutesPerHour
    requires 0 <= s < SecondsPerMinute && 0 <= ms < MsPerSecond
    ensures var t := MakeDate(day, MakeTime(h, mi, s, ms));
            Day(t) == day && HourFromTime(t) == h && MinFromTime(t) == mi
            && SecFromTime(t) == s && MsFromTime(t) == ms
  {
    var t := MakeDate(day, MakeTime(h, mi, s, ms));
    DayOfMakeDate(day, MakeTime(h, mi, s, ms));
    var hours := day * 24 + h;
    var minutes := hours * 60 + mi;
    var seconds := minutes * 60 + s;
    DivModUnique(t, MsPerHour, hours, mi * MsPerMinute + s * MsPerSecond + ms);
    DivModUnique(hours, HoursPerDay, day, h);
    DivModUnique(t, MsPerMinute, minutes, s * MsPerSecond + ms);
    DivModUnique(minutes, MinutesPerHour, hours, mi);
    DivModUnique(t, MsPerSecond, seconds, ms);
    DivModUnique(seconds, SecondsPerMinute, minutes, s);
  }

  /** The whole time value inside 0..9999 is rebuilt from its seven fields. */
  lemma TimeValueRoundTrip(t: int)
    requires InSearchedYears(t)
    ensures MakeDate(MakeDay(YearFromTime(t), MonthFromTime(t), DateFromTime(t)),
                     MakeTime(HourFromTime(t), MinFromTime(t), SecFromTime(t), MsFromTime(t))) == t
  {
    CalendarFieldsRoundTrip(t);
    TimeOfDayRoundTrip(t);
  }

  // ---------------------------------------------------------------------------
  // Week days, TimeClip, MakeFullYear

  /** The week day advances by one each day, wrapping from Saturday to Sunday. */
  lemma WeekDayNextDay(t: int)
    ensures WeekDay(t + MsPerDay) == (WeekDay(t) + 1) % 7
  {
    ModAddMultiple(t, 1, MsPerDay);
    var d := Day(t) + 4;
    if d % 7 < 6 {
      DivModUnique(d + 1, 7, d / 7, d % 7 + 1);
    } else {
      DivModUnique(d + 1, 7, d / 7 + 1, 0);
    }
  }

  /** Clipping an already clipped value changes nothing. */
  lemma TimeClipIdempotent(v: Number)
    ensures TimeClip(TimeValueToNumber(TimeClip(v))) == TimeClip(v)
  {
    match TimeClip(v)
    case Invalid =>
    case Valid(i) =>
      assert Trunc(i as real) == i;
  }

  /** A year already widened by `MakeFullYear` is left alone by a second call. */
  lemma MakeFullYearIdempotent(year: Number)
    ensures MakeFullYear(MakeFullYear(year)) == MakeFullYear(year)
  {
    match MakeFullYear(year)
    case Finite(x) =>
      var i := x.Floor;
      assert x == i as real;
      assert Trunc(x) == i;
    case _ =>
  }
}

=== FILE: Correction.dfy ===
/** The overflow-correcting setters of `Datetime_global` (`setHours` and
    `setFullYear`, and the setters that delegate to `setHours`).

    A setter builds a candidate record of calendar and clock fields and offers
    it to a strict validation (`ZonedDateTime.with(..., {overflow:
    "reject"})`). When the validation rejects the candidate, one correction step
    carries overflowing fields upward and borrows for negative fields, using
    capacities (hours in a day, days in a month, months in a year) read once
    from the original value; then the candidate is offered again. After 800
    rejections the setter gives up.

    The validation belongs to the Temporal library and is a parameter
    here; so are the capacities. */
module Correction {
  import opened Results
  import opened JsNumbers

  /** A capacity Temporal reports: always at least one. */
  type Capacity = n: int | n > 0 witness 1

  /** The fields of a candidate offered to `ZonedDateTime.with`. */
  datatype Fields = Fields(year: int, month: int, day: int, hour: int, minute: int,
                           second: int, millisecond: int, microsecond: int, nanosecond: int)

  /** The capacities the correction step reads from the original value:
      `hoursInDay`, `daysInMonth`, `monthsInYear`, and the `daysInMonth` of
      the month before it (used when a day is borrowed). */
  datatype Capacities = Capacities(hoursInDay: Capacity, daysInMonth: Capacity,
                                   monthsInYear: Capacity, daysInPreviousMonth: Capacity)

  /** How many candidates a setter offers before it gives up. */
  const PrecautionLimit := 800

  const LimitMessage := "Precaution recursion limit reached"

  // ---------------------------------------------------------------------------
  // One field pair at a time

  /** A positive carry: when `low` reaches `base`, its whole multiples of
      `base` move into `high` (`high += Math.trunc(low / base); low %= base`). */
  function CarryUp(high: int, low: int, base: Capacity): (r: (int, int))
    ensures r.0 * base + r.1 == high * base + low
    ensures low >= base ==> 0 <= r.1 < base && r.0 > high
    ensures low < base ==> r == (high, low)
  {
    if low >= base then
      TruncDivRem(low, base);
      (high + TruncDiv(low, base), TruncRem(low, base))
    else (high, low)
  }

  /** A negative borrow: a negative `low` takes one more than its whole
      multiples of `base` from `high`
      (`high -= 1 + Math.trunc(Math.abs(low) / base); low = base + low % base`). */
  function BorrowDown(high: int, low: int, base: Capacity): (r: (int, int))
    ensures r.0 * base + r.1 == high * base + low
    ensures low < 0 ==> 0 < r.1 <= base && r.0 < high
    ensures low >= 0 ==> r == (high, low)
  {
    if low < 0 then
      TruncDivRem(low, base);
      (high - (1 + TruncDiv(Abs(low), base)), base + TruncRem(low, base))
    else (high, low)
  }

  /** A borrowed field lands on `base` itself exactly when the deficit is a
      whole multiple of `base`; the next correction step carries it. */
  lemma BorrowDownExact(high: int, low: int, base: Capacity)
    requires low < 0
    ensures BorrowDown(high, low, base).1 == base <==> Abs(low) % base == 0
  {
  }

  /** One millisecond field of -1000 becomes 1000 and takes two seconds. */
  lemma BorrowWholeSecond(second: int)
    ensures BorrowDown(second, -1000, 1000) == (second - 2, 1000)
  {
    assert TruncDiv(Abs(-1000), 1000) == 1;
    assert TruncRem(-1000, 1000) == 0;
  }

  /** The carry of a one-based field (a day into months, a month into years):
      `high += Math.trunc(low / cap); low = ((low - 1) % cap) + 1`. */
  function CarryOneBased(high: int, low: int, cap: Capacity): (r: (int, int))
    ensures low > cap ==> 1 <= r.1 <= cap && r.0 > high
    ensures low <= cap ==> r == (high, low)
  {
    if low > cap then (high + TruncDiv(low, cap), TruncRem(low - 1, cap) + 1)
    else (high, low)
  }

  /** The one-based carry keeps the count `high * cap + low - 1` unless `low`
      is a whole multiple of `cap`; then it overshoots by exactly `cap`. */
  lemma CarryOneBasedValue(high: int, low: int, cap: Capacity)
    requires low > cap
    ensures var r := CarryOneBased(high, low, cap);
            r.0 * cap + r.1 == high * cap + low + (if low % cap == 0 then cap else 0)
  {
    var q := low / cap;
    var r := CarryOneBased(high, low, cap);
    assert r.0 == high + q;
    assert (high + q) * cap == high * cap + q * cap;
    if low % cap == 0 {
      ExactCarry(low, cap);
    } else {
      InexactCarry(low, cap);
    }
  }

  /** For a whole multiple of `cap`, the one-based remainder is `cap`. */
  lemma ExactCarry(low: int, cap: Capacity)
    requires low > cap && low % cap == 0
    ensures TruncRem(low - 1, cap) + 1 == cap && low == low / cap * cap
  {
    DivModUnique(low - 1, cap, low / cap - 1, cap - 1);
  }

  /** Otherwise it is the Euclidean remainder. */
  lemma InexactCarry(low: int, cap: Capacity)
    requires low > cap && low % cap != 0
    ensures TruncRem(low - 1, cap) + 1 == low % cap && low == low / cap * cap + low % cap
  {
    DivModUnique(low - 1, cap, low / cap, low % cap - 1);
  }

  /** The borrow of a one-based field: `high -= 1; low += cap`. */
  function BorrowOneBased(high: int, low: int, cap: Capacity): (r: (int, int))
    ensures r.0 * cap + r.1 == high * cap + low
    ensures 1 - cap <= low < 1 ==> 1 <= r.1 <= cap
    ensures low >= 1 ==> r == (high, low)
  {
    if low < 1 then (high - 1, low + cap) else (high, low)
  }

  // ---------------------------------------------------------------------------
  // The correction step

  /** The clock fields and the day as one count of milliseconds, with days
      of `hoursInDay` hours. */
  function ClockValue(f: Fields, caps: Capacities): int {
    f.day * caps.hoursInDay * 3600000 + f.hour * 3600000 + f.minute * 60000
    + f.second * 1000 + f.millisecond
  }

  /** The positive carries of milliseconds, seconds, minutes and hours. */
  function CarryClock(f: Fields, caps: Capacities): (r: Fields)
    ensures ClockValue(r, caps) == ClockValue(f, caps)
    ensures r.millisecond < 1000 && r.second < 60 && r.minute < 60 && r.hour < caps.hoursInDay
    ensures f.millisecond >= 0 ==> r.millisecond >= 0
    ensures f.second >= 0 ==> r.second >= 0
    ensures f.minute >= 0 ==> r.minute >= 0
    ensures f.hour >= 0 ==> r.hour >= 0
    ensures r.year == f.year && r.month == f.month
    ensures r.microsecond == f.microsecond && r.nanosecond == f.nanosecond
  {
    var ms := CarryUp(f.second, f.millisecond, 1000);
    var sec := CarryUp(f.minute, ms.0, 60);
    var min := CarryUp(f.hour, sec.0, 60);
    var hour := CarryUp(f.day, min.0, caps.hoursInDay);
    var r := f.(day := hour.0, hour := hour.1, minute := min.1, second := sec.1, millisecond := ms.1);
    assert hour.0 * caps.hoursInDay * 3600000 + hour.1 * 3600000
           == (f.day * caps.hoursInDay + min.0) * 3600000;
    r
  }

  /** The carries of the day into months and of the month into years. */
  function CarryCalendar(f: Fields, caps: Capacities): (r: Fields)
    ensures r.day <= caps.daysInMonth && r.month <= caps.monthsInYear
    ensures f.day > caps.daysInMonth ==> 1 <= r.day
    ensures f.day <= caps.daysInMonth ==> r.day == f.day
    ensures f.month >= 1 ==> r.month >= 1
    ensures r.hour == f.hour && r.minute == f.minute && r.second == f.second
    ensures r.millisecond == f.millisecond
    ensures r.microsecond == f.microsecond && r.nanosecond == f.nanosecond
  {
    var day := CarryOneBased(f.month, f.day, caps.daysInMonth);
    var month := CarryOneBased(f.year, day.0, caps.monthsInYear);
    f.(year := month.0, month := month.1, day := day.1)
  }

  /** The negative borrows of milliseconds, seconds, minutes and hours. */
  function BorrowClock(f: Fields, caps: Capacities): (r: Fields)
    ensures ClockValue(r, caps) == ClockValue(f, caps)
    ensures r.millisecond >= 0 && r.second >= 0 && r.minute >= 0 && r.hour >= 0
    ensures f.millisecond < 0 ==> r.millisecond <= 1000
    ensures f.millisecond >= 0 ==> r.millisecond == f.millisecond
    ensures r.year == f.year && r.month == f.month
    ensures r.microsecond == f.microsecond && r.nanosecond == f.nanosecond
  {
    var ms := BorrowDown(f.second, f.millisecond, 1000);
    var sec := BorrowDown(f.minute, ms.0, 60);
    var min := BorrowDown(f.hour, sec.0, 60);
    var hour := BorrowDown(f.day, min.0, caps.hoursInDay);
    var r := f.(day := hour.0, hour := hour.1, minute := min.1, second := sec.1, millisecond := ms.1);
    assert hour.0 * caps.hoursInDay * 3600000 + hour.1 * 3600000
           == (f.day * caps.hoursInDay + min.0) * 3600000;
    r
  }

  /** The borrows of a day from the month before and of a month from the
      year before. */
  function BorrowCalendar(f: Fields, caps: Capacities): (r: Fields)
    ensures r.year * caps.monthsInYear + r.month
            == f.year * caps.monthsInYear + f.month - (if f.day < 1 then 1 else 0)
    ensures f.day >= 1 ==> r.day == f.day
    ensures 1 - caps.daysInPreviousMonth <= f.day < 1 ==> 1 <= r.day <= caps.daysInPreviousMonth
    ensures r.hour == f.hour && r.minute == f.minute && r.second == f.second
    ensures r.millisecond == f.millisecond
    ensures r.microsecond == f.microsecond && r.nanosecond == f.nanosecond
  {
    var day := BorrowOneBased(f.month, f.day, caps.daysInPreviousMonth);
    var month := BorrowOneBased(f.year, day.0, caps.monthsInYear);
    f.(year := month.0, month := month.1, day := day.1)
  }

  /** The whole correction step of `setHours`: the positive carries from
      milliseconds up to months, then the negative borrows in the same order. */
  function CorrectTime(f: Fields, caps: Capacities): (r: Fields)
    ensures r.microsecond == f.microsecond && r.nanosecond == f.nanosecond
    ensures r.millisecond >= 0 && r.second >= 0 && r.minute >= 0 && r.hour >= 0
  {
    BorrowCalendar(BorrowClock(CarryCalendar(CarryClock(f, caps), caps), caps), caps)
  }

  /** The correction step of `setFullYear`: the day and month carries, then
      the day and month borrows. */
  function CorrectDate(f: Fields, caps: Capacities): (r: Fields)
    ensures r.hour == f.hour && r.minute == f.minute && r.second == f.second
    ensures r.millisecond == f.millisecond
    ensures r.microsecond == f.microsecond && r.nanosecond == f.nanosecond
  {
    BorrowCalendar(CarryCalendar(f, caps), caps)
  }

  /** Fields already inside their ranges. */
  predicate InRange(f: Fields, caps: Capacities) {
    0 <= f.millisecond < 1000 && 0 <= f.second < 60 && 0 <= f.minute < 60
    && 0 <= f.hour < caps.hoursInDay && 1 <= f.day <= caps.daysInMonth
    && 1 <= f.month <= caps.monthsInYear
  }

  /** A candidate whose fields are all inside their ranges is left alone by
      the correction step: only rejected out-of-range fields move. */
  lemma CorrectTimeFixesInRange(f: Fields, caps: Capacities)
    requires InRange(f, caps)
    ensures CorrectTime(f, caps) == f
  {
    assert CarryClock(f, caps) == f;
    assert CarryCalendar(f, caps) == f;
    assert BorrowClock(f, caps) == f;
  }

  /** The clock part of the step keeps the milliseconds of the day and clock
      fields together, whatever the fields hold: the carries and borrows between
      milliseconds, seconds, minutes, hours and the day move value, they never
      create or lose it. */
  lemma ClockStepsKeepValue(f: Fields, caps: Capacities)
    ensures ClockValue(BorrowClock(CarryClock(f, caps), caps), caps) == ClockValue(f, caps)
  {
  }

  // ---------------------------------------------------------------------------
  // The retry loop

  /** `n` applications of `step` to `f`. */
  function Iterate(step: Fields -> Fields, f: Fields, n: nat): Fields
    decreases n
  {
    if n == 0 then f else Iterate(step, step(f), n - 1)
  }

  /** The loop of the setters: offer `candidate`; on rejection correct it
      and offer again, at most `remaining` times in all; then fail with the
      precaution error. */
  function Settle(accept: Fields -> bool, step: Fields -> Fields, candidate: Fields,
                  remaining: nat): (r: Result<Fields>)
    ensures r.Success? ==> accept(r.value)
    ensures r.Failure? ==> r.error == PlainError(LimitMessage)
    decreases remaining
  {
    if remaining == 0 then Failure(PlainError(LimitMessage))
    else if accept(candidate) then Success(candidate)
    else Settle(accept, step, step(candidate), remaining - 1)
  }

  /** The loop fails exactly when none of the first `n` candidates is
      accepted. */
  lemma SettleFailsIff(accept: Fields -> bool, step: Fields -> Fields, candidate: Fields, n: nat)
    ensures Settle(accept, step, candidate, n).Failure?
            <==> forall k :: 0 <= k < n ==> !accept(Iterate(step, candidate, k))
  {
    if Settle(accept, step, candidate, n).Failure? {
      SettleFailureRejectsAll(accept, step, candidate, n);
    } else {
      var k := SettleFirst(accept, step, candidate, n);
      assert accept(Iterate(step, candidate, k));
    }
  }

  /** When the loop fails, every one of the first `n` candidates was
      rejected. */
  lemma {:induction false} SettleFailureRejectsAll(accept: Fields -> bool, step: Fields -> Fields,
                                                   candidate: Fields, n: nat)
    requires Settle(accept, step, candidate, n).Failure?
    ensures forall k :: 0 <= k < n ==> !accept(Iterate(step, candidate, k))
    decreases n
  {
    if n > 0 {
      SettleFailureRejectsAll(accept, step, step(candidate), n - 1);
      forall k | 0 <= k < n
        ensures !accept(Iterate(step, candidate, k))
      {
        if k > 0 {
          assert Iterate(step, candidate, k) == Iterate(step, step(candidate), k - 1);
        }
      }
    }
  }

  /** On success the loop returns the first accepted candidate: the `k`-th
      correction for some `k < n`, with every earlier one rejected. */
  lemma {:induction false} SettleFirst(accept: Fields -> bool, step: Fields -> Fields,
                                       candidate: Fields, n: nat) returns (k: nat)
    requires Settle(accept, step, candidate, n).Success?
    ensures k < n && Settle(accept, step, candidate, n).value == Iterate(step, candidate, k)
    ensures forall j :: 0 <= j < k ==> !accept(Iterate(step, candidate, j))
    decreases n
  {
    if accept(candidate) {
      k := 0;
    } else {
      var k' := SettleFirst(accept, step, step(candidate), n - 1);
      k := k' + 1;
      forall j | 0 <= j < k
        ensures !accept(Iterate(step, candidate, j))
      {
        if j > 0 {
          assert Iterate(step, candidate, j) == Iterate(step, step(candidate), j - 1);
        }
      }
    }
  }

  /** A property every correction step keeps holds of the accepted value. */
  lemma {:induction false} SettleKeeps(accept: Fields -> bool, step: Fields -> Fields,
                                       candidate: Fields, n: nat, keep: Fields -> bool)
    requires keep(candidate)
    requires forall f :: keep(f) ==> keep(step(f))
    ensures Settle(accept, step, candidate, n).Success? ==>
              keep(Settle(accept, step, candidate, n).value)
    decreases n
  {
    if n > 0 && !accept(candidate) {
      SettleKeeps(accept, step, step(candidate), n - 1, keep);
    }
  }

  // ---------------------------------------------------------------------------
  // The setters

  /** An argument as a setter receives it; `None` is `undefined`. */
  type Arg = Option<Number>

  /** An integer passed as a JS number. */
  function Given(n: int): Arg {
    Some(Finite(n as real))
  }

  /** `arguments.length > i ? args[i] : fallback`. */
  function ArgOr(args: seq<Arg>, i: nat, fallback: Arg): Arg {
    if i < |args| then args[i] else fallback
  }

  /** `Number(BigInt(a ?? 0))`: `undefined` becomes 0, an integral number
      itself, anything else a RangeError. */
  function Coerce(a: Arg): (r: Result<int>)
    ensures r.Failure? ==> r.error.RangeError?
  {
    match a
    case None => Success(0)
    case Some(n) => ToBigInt(n)
  }

  /** The candidate `setHours` builds: the hour from the first argument,
      the minute, second and millisecond from the next ones or, when the call
      has fewer arguments, from the current value; every other field is the
      current value's. */
  function HoursCandidate(current: Fields, args: seq<Arg>): (r: Result<Fields>)
    ensures r.Failure? ==> r.error.RangeError?
    ensures r.Success? <==> forall i :: 0 <= i < |args| && i < 4 ==> Coerce(args[i]).Success?
    ensures r.Success? ==> r.value.hour == if |args| > 0 then Coerce(args[0]).value else 0
    ensures r.Success? ==> r.value.minute == if |args| > 1 then Coerce(args[1]).value else current.minute
    ensures r.Success? ==> r.value.second == if |args| > 2 then Coerce(args[2]).value else current.second
    ensures r.Success? ==>
              r.value.millisecond == if |args| > 3 then Coerce(args[3]).value else current.millisecond
    ensures r.Success? ==>
              r.value.year == current.year && r.value.month == current.month
              && r.value.day == current.day && r.value.microsecond == current.microsecond
              && r.value.nanosecond == current.nanosecond
  {
    ToBigIntOfInteger(current.minute);
    ToBigIntOfInteger(current.second);
    ToBigIntOfInteger(current.millisecond);
    var hours := ArgOr(args, 0, None);
    var minutes := ArgOr(args, 1, Given(current.minute));
    var seconds := ArgOr(args, 2, Given(current.second));
    var milliseconds := ArgOr(args, 3, Given(current.millisecond));
    match (Coerce(hours), Coerce(minutes), Coerce(seconds), Coerce(milliseconds))
    case (Failure(e), _, _, _) => Failure(e)
    case (_, Failure(e), _, _) => Failure(e)
    case (_, _, Failure(e), _) => Failure(e)
    case (_, _, _, Failure(e)) => Failure(e)
    case (Success(h), Success(mi), Success(sec), Success(ms)) =>
      Success(current.(hour := h, minute := mi, second := sec, millisecond := ms))
  }

  /** `setHours(h)` keeps the current minute, second and millisecond; the
      hour alone changes. */
  lemma HoursCandidateDefaults(current: Fields, h: int)
    ensures HoursCandidate(current, [Given(h)]) == Success(current.(hour := h))
  {
    ToBigIntOfInteger(h);
    ToBigIntOfInteger(current.minute);
    ToBigIntOfInteger(current.second);
    ToBigIntOfInteger(current.millisecond);
  }

  /** An explicit `undefined` is not a missing argument: it becomes 0. */
  lemma HoursCandidateUndefined(current: Fields, h: int)
    ensures HoursCandidate(current, [Given(h), None]) == Success(current.(hour := h, minute := 0))
  {
    ToBigIntOfInteger(h);
    ToBigIntOfInteger(current.second);
    ToBigIntOfInteger(current.millisecond);
  }

  /** `setHours(hours, minutes, seconds, milliseconds)`: the accepted
      candidate, or the first error. */
  function SetHours(current: Fields, caps: Capacities, accept: Fields -> bool,
                    args: seq<Arg>): (r: Result<Fields>)
    ensures r.Success? ==> accept(r.value)
    ensures r.Success? ==> r.value.microsecond == current.microsecond
                           && r.value.nanosecond == current.nanosecond
    ensures r.Failure? ==> r.error.RangeError? || r.error == PlainError(LimitMessage)
  {
    match HoursCandidate(current, args)
    case Failure(e) => Failure(e)
    case Success(candidate) =>
      var step := (f: Fields) => CorrectTime(f, caps);
      var keep := (f: Fields) => f.microsecond == current.microsecond && f.nanosecond == current.nanosecond;
      SettleKeeps(accept, step, candidate, PrecautionLimit, keep);
      Settle(accept, step, candidate, PrecautionLimit)
  }

  /** A candidate the validation accepts at once is the result: the fields
      are the coerced arguments, or the current ones where an argument is
      missing. */
  lemma SetHoursFirstOffer(current: Fields, caps: Capacities, accept: Fields -> bool, args: seq<Arg>)
    requires HoursCandidate(current, args).Success?
    requires accept(HoursCandidate(current, args).value)
    ensures SetHours(current, caps, accept, args) == HoursCandidate(current, args)
  {
  }

  /** A bad argument makes `setHours` throw its RangeError before any
      candidate is offered. */
  lemma SetHoursRejectsArgument(current: Fields, caps: Capacities, accept: Fields -> bool,
                                args: seq<Arg>, i: nat)
    requires i < |args| && i < 4 && Coerce(args[i]).Failure?
    ensures SetHours(current, caps, accept, args).Failure?
    ensures SetHours(current, caps, accept, args).error.RangeError?
  {
  }

  /** The wrap-around on a 24-hour day: `setHours(25)` on an in-range value
      is one o'clock the next day, when that day is in the same month. */
  lemma SetHoursWrapsHour(current: Fields, caps: Capacities)
    requires caps.hoursInDay == 24 && InRange(current, caps) && current.day < caps.daysInMonth
    ensures SetHours(current, caps, f => InRange(f, caps), [Given(25)])
            == Success(current.(day := current.day + 1, hour := 1))
  {
    var accept := (f: Fields) => InRange(f, caps);
    var step := (f: Fields) => CorrectTime(f, caps);
    var candidate := current.(hour := 25);
    var next := current.(day := current.day + 1, hour := 1);
    ToBigIntOfInteger(25);
    ToBigIntOfInteger(current.minute);
    ToBigIntOfInteger(current.second);
    ToBigIntOfInteger(current.millisecond);
    assert HoursCandidate(current, [Given(25)]) == Success(candidate);
    CorrectTwentyFifthHour(current, caps);
    assert step(candidate) == next;
    SettleSecondOffer(accept, step, candidate, PrecautionLimit);
  }

  /** One correction step turns hour 25 of an in-range day into hour 1 of
      the next day of the same month. */
  lemma CorrectTwentyFifthHour(current: Fields, caps: Capacities)
    requires caps.hoursInDay == 24 && InRange(current, caps) && current.day < caps.daysInMonth
    ensures CorrectTime(current.(hour := 25), caps) == current.(day := current.day + 1, hour := 1)
  {
    var next := current.(day := current.day + 1, hour := 1);
    assert CarryUp(current.day, 25, 24) == (current.day + 1, 1) by {
      TruncDivRem(25, 24);
    }
    assert CarryClock(current.(hour := 25), caps) == next;
    assert CarryCalendar(next, caps) == next;
    assert BorrowClock(next, caps) == next;
    assert BorrowCalendar(next, caps) == next;
  }

  /** A candidate the validation refuses, whose correction it accepts,
      settles on that correction. */
  lemma SettleSecondOffer(accept: Fields -> bool, step: Fields -> Fields, candidate: Fields,
                          remaining: nat)
    requires remaining >= 2 && !accept(candidate) && accept(step(candidate))
    ensures Settle(accept, step, candidate, remaining) == Success(step(candidate))
  {
  }

  /** `setMinutes(minutes, seconds, milliseconds)`: `setHours` with the
      current hour. */
  function SetMinutes(current: Fields, caps: Capacities, accept: Fields -> bool,
                      args: seq<Arg>): (r: Result<Fields>)
    ensures r.Success? ==> accept(r.value)
    ensures r.Success? ==> r.value.microsecond == current.microsecond
                           && r.value.nanosecond == current.nanosecond
    ensures r.Failure? ==> r.error.RangeError? || r.error == PlainError(LimitMessage)
  {
    SetHours(current, caps, accept,
             [Given(current.hour), ArgOr(args, 0, None), ArgOr(args, 1, Given(current.second)),
              ArgOr(args, 2, Given(current.millisecond))])
  }

  /** `setSeconds(seconds, milliseconds)`: `setHours` with the current hour
      and minute. */
  function SetSeconds(current: Fields, caps: Capacities, accept: Fields -> bool,
                      args: seq<Arg>): (r: Result<Fields>)
    ensures r.Success? ==> accept(r.value)
    ensures r.Success? ==> r.value.microsecond == current.microsecond
                           && r.value.nanosecond == current.nanosecond
    ensures r.Failure? ==> r.error.RangeError? || r.error == PlainError(LimitMessage)
  {
    SetHours(current, caps, accept,
             [Given(current.hour), Given(current.minute), ArgOr(args, 0, None),
              ArgOr(args, 1, Given(current.millisecond))])
  }

  /** `setMilliseconds(milliseconds)`: `setHours` with the current hour,
      minute and second. */
  function SetMilliseconds(current: Fields, caps: Capacities, accept: Fields -> bool,
                           args: seq<Arg>): (r: Result<Fields>)
    ensures r.Success? ==> accept(r.value)
    ensures r.Success? ==> r.value.microsecond == current.microsecond
                           && r.value.nanosecond == current.nanosecond
    ensures r.Failure? ==> r.error.RangeError? || r.error == PlainError(LimitMessage)
  {
    SetHours(current, caps, accept,
             [Given(current.hour), Given(current.minute), Given(current.second), ArgOr(args, 0, None)])
  }

  /** With at least one argument, `setMinutes(...)` is `setHours` with the
      current hour put in front of the same arguments. */
  lemma SetMinutesDelegates(current: Fields, caps: Capacities, accept: Fields -> bool, args: seq<Arg>)
    requires |args| >= 1
    ensures SetMinutes(current, caps, accept, args)
            == SetHours(current, caps, accept, [Given(current.hour)] + args)
  {
    assert HoursCandidate(current, [Given(current.hour), ArgOr(args, 0, None),
                                    ArgOr(args, 1, Given(current.second)),
                                    ArgOr(args, 2, Given(current.millisecond))])
           == HoursCandidate(current, [Given(current.hour)] + args);
  }

  /** With at least one argument, `setSeconds(...)` is `setHours` with the
      current hour and minute put in front. */
  lemma SetSecondsDelegates(current: Fields, caps: Capacities, accept: Fields -> bool, args: seq<Arg>)
    requires |args| >= 1
    ensures SetSeconds(current, caps, accept, args)
            == SetHours(current, caps, accept, [Given(current.hour), Given(current.minute)] + args)
  {
    assert HoursCandidate(current, [Given(current.hour), Given(current.minute), ArgOr(args, 0, None),
                                    ArgOr(args, 1, Given(current.millisecond))])
           == HoursCandidate(current, [Given(current.hour), Given(current.minute)] + args);
  }

  /** With its argument, `setMilliseconds(ms)` is `setHours` with the current
      hour, minute and second put in front. */
  lemma SetMillisecondsDelegates(current: Fields, caps: Capacities, accept: Fields -> bool,
                                 args: seq<Arg>)
    requires |args| >= 1
    ensures SetMilliseconds(current, caps, accept, args)
            == SetHours(current, caps, accept,
                        [Given(current.hour), Given(current.minute), Given(current.second)] + args)
  {
    assert HoursCandidate(current, [Given(current.hour), Given(current.minute), Given(current.second),
                                    ArgOr(args, 0, None)])
           == HoursCandidate(current, [Given(current.hour), Given(current.minute), Given(current.second)]
                                      + args);
  }

  /** Called with no argument, `setMinutes()` does not keep the minute: it
      sets it to 0, unlike `setHours(currentHour)`. */
  lemma SetMinutesWithoutArgument(current: Fields, caps: Capacities, accept: Fields -> bool)
    ensures SetMinutes(current, caps, accept, [])
            == SetHours(current, caps, accept, [Given(current.hour), Given(0)])
  {
    assert HoursCandidate(current, [Given(current.hour), None, Given(current.second),
                                    Given(current.millisecond)])
           == HoursCandidate(current, [Given(current.hour), Given(0)]);
  }

  /** A value the validation accepts survives `setHours` with its own hour. */
  lemma SetHoursKeepsAccepted(current: Fields, caps: Capacities, accept: Fields -> bool)
    requires accept(current)
    ensures SetHours(current, caps, accept, [Given(current.hour)]) == Success(current)
  {
    HoursCandidateDefaults(current, current.hour);
    assert current.(hour := current.hour) == current;
  }

  /** `BigInt(year)`: a missing year is a TypeError. */
  function CoerceYear(a: Arg): (r: Result<int>)
    ensures r.Failure? ==> r.error.RangeError? || r.error.TypeError?
    ensures r.Failure? <==> a.None? || Coerce(a).Failure?
  {
    match a
    case None => Failure(TypeError("Cannot convert undefined to a BigInt"))
    case Some(n) => ToBigInt(n)
  }

  /** The candidate `setFullYear` builds. The day is the third argument
      once there are two or more arguments (so `undefined`, hence 0, with
      exactly two), the month is the second argument only with three or more
      arguments, and otherwise both are the current value's. */
  function YearCandidate(current: Fields, args: seq<Arg>): (r: Result<Fields>)
    ensures r.Success? <==>
              CoerceYear(ArgOr(args, 0, None)).Success?
              && (|args| > 1 ==> Coerce(ArgOr(args, 2, None)).Success?)
              && (|args| > 2 ==> Coerce(args[1]).Success?)
    ensures CoerceYear(ArgOr(args, 0, None)).Failure? ==> r == Failure(CoerceYear(ArgOr(args, 0, None)).error)
    ensures r.Failure? ==> r.error.RangeError? || r.error.TypeError?
    ensures r.Success? ==> r.value.year == CoerceYear(ArgOr(args, 0, None)).value
    ensures r.Success? ==> r.value.month == if |args| > 2 then Coerce(args[1]).value else current.month
    ensures r.Success? ==>
              r.value.day == if |args| > 1 then Coerce(ArgOr(args, 2, None)).value else current.day
    ensures r.Success? ==>
              r.value.hour == current.hour && r.value.minute == current.minute
              && r.value.second == current.second && r.value.millisecond == current.millisecond
              && r.value.microsecond == current.microsecond && r.value.nanosecond == current.nanosecond
  {
    ToBigIntOfInteger(current.day);
    ToBigIntOfInteger(current.month);
    var date := if |args| > 1 then ArgOr(args, 2, None) else Given(current.day);
    var month := if |args| > 2 then args[1] else Given(current.month);
    match (CoerceYear(ArgOr(args, 0, None)), Coerce(date), Coerce(month))
    case (Failure(e), _, _) => Failure(e)
    case (_, Failure(e), _) => Failure(e)
    case (_, _, Failure(e)) => Failure(e)
    case (Success(y), Success(d), Success(m)) => Success(current.(year := y, month := m, day := d))
  }

  /** `setFullYear(year, month, date)`: the accepted candidate, or the first
      error. Only the calendar fields move. */
  function SetFullYear(current: Fields, caps: Capacities, accept: Fields -> bool,
                       args: seq<Arg>): (r: Result<Fields>)
    ensures r.Success? ==> accept(r.value)
    ensures r.Success? ==>
              r.value.hour == current.hour && r.value.minute == current.minute
              && r.value.second == current.second && r.value.millisecond == current.millisecond
              && r.value.microsecond == current.microsecond && r.value.nanosecond == current.nanosecond
    ensures r.Failure? ==> r.error.RangeError? || r.error.TypeError? || r.error == PlainError(LimitMessage)
  {
    match YearCandidate(current, args)
    case Failure(e) => Failure(e)
    case Success(candidate) =>
      var step := (f: Fields) => CorrectDate(f, caps);
      var keep := (f: Fields) => f.hour == current.hour && f.minute == current.minute
                       && f.second == current.second && f.millisecond == current.millisecond
                       && f.microsecond == current.microsecond && f.nanosecond == current.nanosecond;
      SettleKeeps(accept, step, candidate, PrecautionLimit, keep);
      Settle(accept, step, candidate, PrecautionLimit)
  }

  /** A candidate the validation accepts at once is the result: the year,
      month and day are the coerced arguments as the guards route them. */
  lemma SetFullYearFirstOffer(current: Fields, caps: Capacities, accept: Fields -> bool, args: seq<Arg>)
    requires YearCandidate(current, args).Success?
    requires accept(YearCandidate(current, args).value)
    ensures SetFullYear(current, caps, accept, args) == YearCandidate(current, args)
  {
  }

  /** `setFullYear()` without a year throws `BigInt(undefined)`'s TypeError
      before any candidate is offered. */
  lemma SetFullYearNeedsYear(current: Fields, caps: Capacities, accept: Fields -> bool)
    ensures SetFullYear(current, caps, accept, []).Failure?
    ensures SetFullYear(current, caps, accept, []).error.TypeError?
  {
  }

  /** With exactly two arguments the month argument is ignored and the day
      becomes 0 (then borrowed from the month before). */
  lemma SetFullYearTwoArguments(current: Fields, caps: Capacities, accept: Fields -> bool,
                                year: Arg, month: Arg)
    ensures SetFullYear(current, caps, accept, [year, month])
            == SetFullYear(current, caps, accept, [year, Given(current.month), Given(0)])
  {
    assert YearCandidate(current, [year, month])
           == YearCandidate(current, [year, Given(current.month), Given(0)]);
  }

  /** The guard swap exhibited on concrete fields: `setFullYear(y, m)` leaves
      the month as it was, whatever `m` is, and asks for day 0. */
  lemma YearCandidateDropsMonth(current: Fields, y: int, m: int)
    requires m != current.month
    ensures YearCandidate(current, [Given(y), Given(m)]) == Success(current.(year := y, day := 0))
    ensures YearCandidate(current, [Given(y), Given(m)]).value.month != m
  {
    ToBigIntOfInteger(y);
    ToBigIntOfInteger(m);
    ToBigIntOfInteger(0);
  }

  /** The candidate with the two argument-count guards the right way round:
      the month is the second argument whenever there is one, and the day is
      the third argument whenever there is one; a missing one keeps the current
      value's. The month argument goes to the candidate as the code feeds it,
      as a one-based month. */
  function YearCandidateIntended(current: Fields, args: seq<Arg>): (r: Result<Fields>)
    ensures r.Success? <==>
              CoerceYear(ArgOr(args, 0, None)).Success?
              && (|args| > 1 ==> Coerce(args[1]).Success?)
              && (|args| > 2 ==> Coerce(args[2]).Success?)
    ensures CoerceYear(ArgOr(args, 0, None)).Failure? ==> r == Failure(CoerceYear(ArgOr(args, 0, None)).error)
    ensures r.Failure? ==> r.error.RangeError? || r.error.TypeError?
    ensures r.Success? ==> r.value.year == CoerceYear(ArgOr(args, 0, None)).value
    ensures r.Success? ==> r.value.month == if |args| > 1 then Coerce(args[1]).value else current.month
    ensures r.Success? ==> r.value.day == if |args| > 2 then Coerce(args[2]).value else current.day
    ensures r.Success? ==>
              r.value.hour == current.hour && r.value.minute == current.minute
              && r.value.second == current.second && r.value.millisecond == current.millisecond
              && r.value.microsecond == current.microsecond && r.value.nanosecond == current.nanosecond
  {
    ToBigIntOfInteger(current.day);
    ToBigIntOfInteger(current.month);
    var month := ArgOr(args, 1, Given(current.month));
    var date := ArgOr(args, 2, Given(current.day));
    match (CoerceYear(ArgOr(args, 0, None)), Coerce(date), Coerce(month))
    case (Failure(e), _, _) => Failure(e)
    case (_, Failure(e), _) => Failure(e)
    case (_, _, Failure(e)) => Failure(e)
    case (Success(y), Success(d), Success(m)) => Success(current.(year := y, month := m, day := d))
  }

  /** With the intended defaults, `setFullYear(y, m)` sets the year and the
      month and keeps the day. */
  lemma YearCandidateIntendedKeepsDay(current: Fields, y: int, m: int)
    ensures YearCandidateIntended(current, [Given(y), Given(m)])
            == Success(current.(year := y, month := m))
  {
    ToBigIntOfInteger(y);
    ToBigIntOfInteger(m);
    ToBigIntOfInteger(current.day);
  }

  /** `setFullYear` with the intended argument defaults; the correction loop
      is the same. */
  function SetFullYearIntended(current: Fields, caps: Capacities, accept: Fields -> bool,
                               args: seq<Arg>): (r: Result<Fields>)
    ensures r.Success? ==> accept(r.value)
    ensures r.Success? ==>
              r.value.hour == current.hour && r.value.minute == current.minute
              && r.value.second == current.second && r.value.millisecond == current.millisecond
              && r.value.microsecond == current.microsecond && r.value.nanosecond == current.nanosecond
    ensures r.Failure? ==> r.error.RangeError? || r.error.TypeError? || r.error == PlainError(LimitMessage)
  {
    match YearCandidateIntended(current, args)
    case Failure(e) => Failure(e)
    case Success(candidate) =>
      var step := (f: Fields) => CorrectDate(f, caps);
      var keep := (f: Fields) => f.hour == current.hour && f.minute == current.minute
                       && f.second == current.second && f.millisecond == current.millisecond
                       && f.microsecond == current.microsecond && f.nanosecond == current.nanosecond;
      SettleKeeps(accept, step, candidate, PrecautionLimit, keep);
      Settle(accept, step, candidate, PrecautionLimit)
  }

  /** With the intended guards, a candidate the validation accepts at once
      is the result. */
  lemma SetFullYearIntendedFirstOffer(current: Fields, caps: Capacities, accept: Fields -> bool,
                                      args: seq<Arg>)
    requires YearCandidateIntended(current, args).Success?
    requires accept(YearCandidateIntended(current, args).value)
    ensures SetFullYearIntended(current, caps, accept, args) == YearCandidateIntended(current, args)
  {
  }

  /** With the intended defaults a two-argument call is the three-argument
      call that passes the current day, and a one-argument call passes the
      current month and day. */
  lemma SetFullYearIntendedDefaults(current: Fields, caps: Capacities, accept: Fields -> bool,
                                    year: Arg, month: Arg)
    ensures SetFullYearIntended(current, caps, accept, [year, month])
            == SetFullYearIntended(current, caps, accept, [year, month, Given(current.day)])
    ensures SetFullYearIntended(current, caps, accept, [year])
            == SetFullYearIntended(current, caps, accept, [year, Given(current.month), Given(current.day)])
  {
    assert YearCandidateIntended(current, [year, month])
           == YearCandidateIntended(current, [year, month, Given(current.day)]);
    assert YearCandidateIntended(current, [year])
           == YearCandidateIntended(current, [year, Given(current.month), Given(current.day)]);
  }

  /** The stored value after a setter: the outcome when it succeeded, the
      unchanged value when it threw. */
  function Commit(current: Fields, outcome: Result<Fields>): Fields {
    if outcome.Success? then outcome.value else current
  }

  /** The stored value is always one the validation accepted: a successful setter
      stores an accepted candidate and a failing one stores nothing. */
  lemma CommitKeepsAccepted(current: Fields, caps: Capacities, accept: Fields -> bool,
                            args: seq<Arg>)
    requires accept(current)
    ensures accept(Commit(current, SetHours(current, caps, accept, args)))
    ensures accept(Commit(current, SetFullYear(current, caps, accept, args)))
    ensures accept(Commit(current, SetFullYearIntended(current, caps, accept, args)))
    ensures SetHours(current, caps, accept, args).Failure? ==>
              Commit(current, SetHours(current, caps, accept, args)) == current
  {
  }
}

=== FILE: DatetimeGlobal.dfy ===
/** The small pure pieces of `Datetime_global` (Datetime_global.js): how the
    constructor and `setTime` turn their argument into epoch nanoseconds, the
    offset renderer `getUTCOffset`, the index getters `getDay`, `getMonth` and
    `getYear`, and the inner text of `toHTMLDiscordString`.

    The wrapped `Temporal.ZonedDateTime` is represented by what these pieces
    read from it: its epoch nanoseconds and its wall-clock fields. */
module DatetimeGlobal {
  import opened Results
  import opened JsNumbers
  import opened Text
  import Calendar
  import CalendarProofs
  import RelativeTime

  // ---------------------------------------------------------------------------
  // Constructor and setTime

  const NsPerMs := 1000000

  /** The argument of the constructor or of `setTime`, by what the two read
      from it: a `bigint` of epoch nanoseconds, a `Temporal.Instant` or
      `ZonedDateTime` with its epoch nanoseconds, another `Datetime_global` with
      the epoch nanoseconds of its `time`, or a JS number of epoch
      milliseconds. Strings, booleans, `null` and `undefined` are not in the
      model. */
  datatype Source =
    | BigIntValue(ns: int)
    | TemporalValue(ns: int)
    | GlobalValue(ns: int)
    | Primitive(n: Number)

  /** `Math.trunc` on a JS number; NaN and the infinities are unchanged. */
  function TruncNumber(n: Number): (r: Number)
    ensures r.Finite? <==> n.Finite?
    ensures r.Finite? ==> r.value == Trunc(n.value) as real
  {
    match n
    case Finite(v) => Finite(Trunc(v) as real)
    case _ => n
  }

  /** The epoch nanoseconds the constructor stores. A Temporal object, another
      `Datetime_global` and a `bigint` give their nanoseconds unchanged; any
      other primitive is `Math.trunc`'d and then scaled,
      `BigInt(timestamp) * 1000000n`, so a NaN or infinite one makes `BigInt`
      throw. */
  function ConstructorNs(from: Source): (r: Result<int>)
    ensures !from.Primitive? ==> r == Success(from.ns)
    ensures from.Primitive? ==> (r.Success? <==> from.n.Finite?)
    ensures from.Primitive? && r.Success? ==> r.value == Trunc(from.n.value) * NsPerMs
    ensures r.Failure? ==> r.error.RangeError?
  {
    match from
    case BigIntValue(ns) => Success(ns)
    case TemporalValue(ns) => Success(ns)
    case GlobalValue(ns) => Success(ns)
    case Primitive(n) =>
      var timestamp := TruncNumber(n);
      assert n.Finite? ==> ToBigInt(timestamp) == Success(Trunc(n.value)) by {
        if n.Finite? {
          ToBigIntOfInteger(Trunc(n.value));
        }
      }
      match ToBigInt(timestamp)
      case Success(i) => Success(i * NsPerMs)
      case Failure(e) => Failure(e)
  }

  /** `epochMilliseconds` of a `ZonedDateTime`: the nanoseconds divided by a
      million, rounded toward negative infinity. */
  function EpochMilliseconds(ns: int): (ms: int)
    ensures ms * NsPerMs <= ns < ms * NsPerMs + NsPerMs
  {
    ns / NsPerMs
  }

  /** `setTime(timestamp)`: the new epoch nanoseconds and the returned
      `epochMilliseconds`. It applies `BigInt` to the argument itself and
      scales everything that is not a `bigint` by a million. So a fractional
      number is a RangeError; a Temporal object is a TypeError, because its
      `valueOf` throws; and another `Datetime_global` is read through its
      `valueOf`, its whole epoch milliseconds. */
  function SetTime(timestamp: Source): (r: Result<(int, int)>)
    ensures timestamp.Primitive? ==>
              (r.Success? <==> timestamp.n.Finite? && timestamp.n.value.Floor as real == timestamp.n.value)
    ensures timestamp.BigIntValue? ==> r.Success? && r.value.0 == timestamp.ns
    ensures timestamp.GlobalValue? ==>
              r.Success? && r.value.0 == EpochMilliseconds(timestamp.ns) * NsPerMs
              && r.value.1 == EpochMilliseconds(timestamp.ns)
    ensures timestamp.Primitive? && r.Success? ==>
              r.value.0 == timestamp.n.value.Floor * NsPerMs && r.value.1 == timestamp.n.value.Floor
    ensures r.Success? ==> r.value.1 == EpochMilliseconds(r.value.0)
    ensures r.Failure? ==> (r.error.TypeError? <==> timestamp.TemporalValue?)
    ensures r.Failure? ==> r.error.RangeError? || r.error.TypeError?
  {
    match timestamp
    case BigIntValue(ns) => Success((ns, EpochMilliseconds(ns)))
    case TemporalValue(_) => Failure(TypeError("a Temporal object cannot be converted to a primitive"))
    case GlobalValue(ns) =>
      var ms := EpochMilliseconds(ns);
      ModAddMultiple(0, ms, NsPerMs);
      Success((ms * NsPerMs, EpochMilliseconds(ms * NsPerMs)))
    case Primitive(n) =>
      match ToBigInt(n)
      case Success(i) => ModAddMultiple(0, i, NsPerMs); Success((i * NsPerMs, EpochMilliseconds(i * NsPerMs)))
      case Failure(e) => Failure(e)
  }

  /** A millisecond count given to the constructor comes back, truncated, as
      its `epochMilliseconds` (`valueOf`). */
  lemma ConstructorMilliseconds(x: real)
    ensures ConstructorNs(Primitive(Finite(x))).Success?
    ensures EpochMilliseconds(ConstructorNs(Primitive(Finite(x))).value) == Trunc(x)
  {
    ModAddMultiple(0, Trunc(x), NsPerMs);
  }

  /** How `setTime` compares with the constructor, source by source. For a
      `bigint` or a primitive, where `setTime` succeeds it stores what the
      constructor would, and it rejects exactly the finite fractions the
      constructor would truncate. A Temporal object is accepted by the
      constructor and rejected by `setTime`. Another `Datetime_global` is kept
      whole by the constructor and cut to whole milliseconds by `setTime`, so
      the two agree exactly when it holds a whole number of milliseconds. */
  lemma SetTimeAgreesWithConstructor(from: Source)
    ensures (from.BigIntValue? || from.Primitive?) && SetTime(from).Success? ==>
              ConstructorNs(from) == Success(SetTime(from).value.0)
    ensures from.Primitive? && from.n.Finite? && SetTime(from).Failure? ==>
              ConstructorNs(from).Success? && from.n.value.Floor as real != from.n.value
    ensures from.TemporalValue? ==> ConstructorNs(from).Success? && SetTime(from).Failure?
    ensures from.GlobalValue? ==>
              SetTime(from).value.0 == EpochMilliseconds(ConstructorNs(from).value) * NsPerMs
              && (SetTime(from).value.0 == ConstructorNs(from).value <==> from.ns % NsPerMs == 0)
  {
    if from.Primitive? && from.n.Finite? && from.n.value.Floor as real == from.n.value {
      assert Trunc(from.n.value) == from.n.value.Floor;
    }
  }

  /** A whole number of milliseconds passes through `setTime` unchanged. */
  lemma SetTimeRoundTrip(ms: int)
    ensures SetTime(Primitive(Finite(ms as real))) == Success((ms * NsPerMs, ms))
  {
    ToBigIntOfInteger(ms);
  }

  // ---------------------------------------------------------------------------
  // getUTCOffset

  /** `Datetime_global.getUTCOffset(offset)` for an offset in whole minutes
      (`None` is NaN): `UTC`, then `-` for a positive offset (west of UTC, as
      `getTimezoneOffset` counts) and `+` otherwise, the hours padded to at
      least two digits and the minutes to two. */
  function GetUTCOffset(offset: Option<int>): (r: string)
    ensures offset.None? ==> r == "UTC+Error"
    ensures offset.Some? ==> |r| >= 8 && r[..3] == "UTC" && r[3] == (if offset.value > 0 then '-' else '+')
  {
    match offset
    case None => "UTC+Error"
    case Some(o) =>
      var sign := if o > 0 then '-' else '+';
      var hours := PadStart(NatToString(Abs(o) / 60), 2, '0');
      var minutes := PadStart(NatToString(Abs(o) % 60), 2, '0');
      OffsetLayout(sign, hours, minutes, "UTC" + [sign] + hours + minutes);
      "UTC" + [sign] + hours + minutes
  }

  /** Where the pieces of an offset text sit. */
  lemma OffsetLayout(sign: char, hours: string, minutes: string, s: string)
    requires s == "UTC" + [sign] + hours + minutes
    requires |hours| >= 2 && |minutes| == 2
    ensures |s| >= 8 && s[..3] == "UTC" && s[3] == sign && s[4..] == hours + minutes
  {
  }

  /** Reads an offset text back: `Some(None)` for the NaN text, `Some(Some(o))`
      for an offset of `o` minutes, `None` for anything else. */
  function ReadUTCOffset(s: string): (r: Option<Option<int>>)
  {
    if s == "UTC+Error" then Some(None)
    else if |s| >= 8 && s[..3] == "UTC" && (s[3] == '+' || s[3] == '-') && AllDigits(s[4..]) then
      Some(Some(OffsetOfDigits(s[3], s[4..])))
    else None
  }

  /** The minutes in `HH...MM` after a sign: `-` counts west of UTC. */
  function OffsetOfDigits(sign: char, digits: string): int
    requires |digits| >= 2 && AllDigits(digits)
  {
    assert AllDigits(digits[..|digits| - 2]) && AllDigits(digits[|digits| - 2..]);
    var total := ParseDigits(digits[..|digits| - 2]) * 60 + ParseDigits(digits[|digits| - 2..]);
    if sign == '-' then total else -total
  }

  /** Every offset, of any size and sign, and NaN can be read back from its
      text. */
  lemma GetUTCOffsetRoundTrip(offset: Option<int>)
    ensures ReadUTCOffset(GetUTCOffset(offset)) == Some(offset)
  {
    if offset.Some? {
      MinutesRoundTrip(offset.value, GetUTCOffset(offset));
    }
  }

  lemma MinutesRoundTrip(o: int, text: string)
    requires text == GetUTCOffset(Some(o))
    ensures ReadUTCOffset(text) == Some(Some(o))
  {
    var sign := if o > 0 then '-' else '+';
    var hours := PadStart(NatToString(Abs(o) / 60), 2, '0');
    var minutes := PadStart(NatToString(Abs(o) % 60), 2, '0');
    assert text == "UTC" + [sign] + hours + minutes;
    assert |hours| >= 2 && AllDigits(hours) && ParseDigits(hours) == Abs(o) / 60 by {
      PaddedNatRoundTrip(Abs(o) / 60, 2);
    }
    assert |minutes| == 2 && AllDigits(minutes) && ParseDigits(minutes) == Abs(o) % 60 by {
      MinutesPadded(Abs(o) % 60, minutes);
    }
    ReadOffsetText(text, sign, hours, minutes, Abs(o), o);
  }

  /** Reading a text laid out as an offset gives back its sign and its
      hours and minutes combined. */
  lemma ReadOffsetText(s: string, sign: char, hours: string, minutes: string, total: int, value: int)
    requires s == "UTC" + [sign] + hours + minutes
    requires sign == '-' || sign == '+'
    requires |hours| >= 2 && |minutes| == 2 && AllDigits(hours) && AllDigits(minutes)
    requires total == ParseDigits(hours) * 60 + ParseDigits(minutes)
    requires value == if sign == '-' then total else -total
    ensures ReadUTCOffset(s) == Some(Some(value))
  {
    OffsetLayout(sign, hours, minutes, s);
    assert s != "UTC+Error" by {
      assert "UTC+Error"[4] == 'E';
      assert s[4] == hours[0];
    }
    OffsetDigits(sign, hours, minutes, s[4..], total);
  }

  lemma OffsetDigits(sign: char, hours: string, minutes: string, digits: string, total: int)
    requires digits == hours + minutes
    requires |hours| >= 2 && |minutes| == 2 && AllDigits(hours) && AllDigits(minutes)
    requires total == ParseDigits(hours) * 60 + ParseDigits(minutes)
    ensures AllDigits(digits)
    ensures OffsetOfDigits(sign, digits) == if sign == '-' then total else -total
  {
    assert digits[..|digits| - 2] == hours;
    assert digits[|digits| - 2..] == minutes;
  }

  /** The minutes field is exactly two digits. */
  lemma MinutesPadded(m: nat, text: string)
    requires m < 60 && text == PadStart(NatToString(m), 2, '0')
    ensures |text| == 2 && AllDigits(text) && ParseDigits(text) == m
  {
    NatToStringLength(m, 2);
    PaddedNatRoundTrip(m, 2);
  }

  /** Worked cases: UTC itself is `+`, a zone east of UTC (negative minutes)
      is `+`, and one west of UTC is `-`. */
  lemma GetUTCOffsetExamples()
    ensures GetUTCOffset(Some(0)) == "UTC+0000"
    ensures GetUTCOffset(Some(-330)) == "UTC+0530"
    ensures GetUTCOffset(Some(60)) == "UTC-0100"
  {
    UtcExample();
    EastExample();
    WestExample();
  }

  lemma UtcExample()
    ensures GetUTCOffset(Some(0)) == "UTC+0000"
  {
    assert PadStart(NatToString(0), 2, '0') == "00" by {
      OneDigitPadded(0);
    }
    OffsetExample(0, '+', 0, 0, "00", "00", "UTC+0000");
  }

  lemma EastExample()
    ensures GetUTCOffset(Some(-330)) == "UTC+0530"
  {
    assert PadStart(NatToString(5), 2, '0') == "05" by {
      OneDigitPadded(5);
    }
    assert PadStart(NatToString(30), 2, '0') == "30" by {
      TwoDigitPadded(30, 3, 0);
      assert DigitChar(3) == '3' && DigitChar(0) == '0';
    }
    OffsetExample(-330, '+', 5, 30, "05", "30", "UTC" + ['+'] + "05" + "30");
    EastText();
  }

  lemma EastText()
    ensures "UTC" + ['+'] + "05" + "30" == "UTC+0530"
  {
  }

  lemma WestExample()
    ensures GetUTCOffset(Some(60)) == "UTC-0100"
  {
    assert PadStart(NatToString(1), 2, '0') == "01" by {
      OneDigitPadded(1);
    }
    assert PadStart(NatToString(0), 2, '0') == "00" by {
      OneDigitPadded(0);
    }
    OffsetExample(60, '-', 1, 0, "01", "00", "UTC-0100");
  }

  lemma OneDigitPadded(d: nat)
    requires d < 10
    ensures PadStart(NatToString(d), 2, '0') == ['0', DigitChar(d)]
  {
    assert NatToString(d) == [DigitChar(d)];
    assert Repeat('0', 1) == ['0'];
  }

  lemma TwoDigitPadded(n: nat, tens: nat, units: nat)
    requires 1 <= tens < 10 && units < 10 && n == 10 * tens + units
    ensures PadStart(NatToString(n), 2, '0') == [DigitChar(tens), DigitChar(units)]
  {
    assert n / 10 == tens && n % 10 == units;
    assert NatToString(n) == NatToString(tens) + [DigitChar(units)];
  }

  lemma OffsetExample(o: int, sign: char, h: nat, m: nat, hours: string, minutes: string, text: string)
    requires sign == (if o > 0 then '-' else '+')
    requires Abs(o) == 60 * h + m && m < 60
    requires hours == PadStart(NatToString(h), 2, '0')
    requires minutes == PadStart(NatToString(m), 2, '0')
    requires text == "UTC" + [sign] + hours + minutes
    ensures GetUTCOffset(Some(o)) == text
  {
    DivModUnique(Abs(o), 60, h, m);
  }

  // ---------------------------------------------------------------------------
  // getDay, getMonth, getYear

  /** Temporal's ISO day of the week for an epoch day: 1 is Monday and 7 is
      Sunday; day 0 (1970-01-01) was a Thursday. */
  function IsoDayOfWeek(day: int): (w: int)
    ensures 1 <= w <= 7
    ensures day == 0 ==> w == 4
  {
    (day + 3) % 7 + 1
  }

  /** `getDay()`: `this.time.dayOfWeek % 7`. */
  function GetDay(dayOfWeek: int): (r: int)
    requires 1 <= dayOfWeek <= 7
    ensures 0 <= r <= 6
    ensures r == 0 <==> dayOfWeek == 7
    ensures dayOfWeek < 7 ==> r == dayOfWeek
  {
    dayOfWeek % 7
  }

  /** Moving ISO's Sunday from 7 to 0 gives the ECMAScript week day: `getDay`
      of a time value agrees with `WeekDay` of the Date algorithms. */
  lemma GetDayIsWeekDay(t: int)
    ensures GetDay(IsoDayOfWeek(Calendar.Day(t))) == Calendar.WeekDay(t)
  {
    var d := Calendar.Day(t);
    ModAddMultiple(d + 3, 0, 7);
    assert (d + 4) % 7 == ((d + 3) % 7 + 1) % 7 by {
      var q := (d + 3) / 7;
      var m := (d + 3) % 7;
      assert d + 4 == q * 7 + (m + 1);
      if m + 1 < 7 {
        DivModUnique(d + 4, 7, q, m + 1);
      } else {
        DivModUnique(d + 4, 7, q + 1, 0);
      }
    }
  }

  /** `getMonth()`: Temporal's 1-based month as a 0-based index. */
  function GetMonth(month: int): (r: int)
    requires 1 <= month <= 12
    ensures 0 <= r < 12 && r + 1 == month
  {
    month - 1
  }

  /** `getMonth()` is a proxy for `Date.prototype.getMonth`: for a date in
      years 0..9999, the index it gives is the ECMAScript `MonthFromTime` of
      that day. */
  lemma GetMonthAgreesWithDate(y: int, m: int, d: int)
    requires 0 <= y <= 9999 && 1 <= m <= 12
    requires 1 <= d <= CalendarProofs.DaysInMonth(y, m - 1)
    ensures GetMonth(m) == Calendar.MonthFromTime(Calendar.MakeDate(Calendar.MakeDay(y, m - 1, d), 0))
  {
    CalendarProofs.MakeDayRoundTrip(y, m - 1, d);
  }

  /** `getYear()`: the year less 1900. */
  function GetYear(year: int): int {
    year - 1900
  }

  /** `Date`'s two-digit year rule (`MakeFullYear`) undoes `getYear` exactly
      for the years 1900 to 1999. */
  lemma GetYearRoundTrip(year: int)
    ensures Calendar.MakeFullYear(Finite(GetYear(year) as real)) == Finite(year as real)
            <==> 1900 <= year <= 1999
  {
    var y := GetYear(year);
    assert Trunc(y as real) == y;
  }

  // ---------------------------------------------------------------------------
  // toHTMLDiscordString

  const DayNamesFull: seq<string> :=
    ["Sunday", "Monday", "Tuesday", "Wednesday", "Thursday", "Friday", "Saturday"]
  const MonthNamesFull: seq<string> :=
    ["January", "February", "March", "April", "May", "June", "July", "August",
     "September", "October", "November", "December"]

  /** The wall-clock fields of the wrapped `ZonedDateTime` the formats read. */
  datatype Wall = Wall(year: int, month: int, day: int, hour: int, minute: int,
                       second: int, dayOfWeek: int)

  /** What Temporal guarantees of an ISO `ZonedDateTime`'s fields. */
  predicate ValidWall(w: Wall) {
    1 <= w.month <= 12 && 1 <= w.day <= 31 && 0 <= w.hour < 24 && 0 <= w.minute < 60
    && 0 <= w.second < 60 && 1 <= w.dayOfWeek <= 7
  }

  /** The format letters `toHTMLDiscordString` knows. */
  const DiscordFormats: set<string> := {"t", "T", "d", "D", "f", "F", "R"}

  /** The seven formats, named after what they show. */
  datatype Style = ShortTime | LongTime | ShortDate | LongDate | ShortDateTime | LongDateTime | Relative

  /** The `switch (f)`: which format a letter selects, `None` for the
      `default` case. */
  function StyleOf(f: string): (r: Option<Style>)
    ensures r.None? <==> f !in DiscordFormats
  {
    if f == "t" then Some(ShortTime)
    else if f == "T" then Some(LongTime)
    else if f == "d" then Some(ShortDate)
    else if f == "D" then Some(LongDate)
    else if f == "f" then Some(ShortDateTime)
    else if f == "F" then Some(LongDateTime)
    else if f == "R" then Some(Relative)
    else None
  }

  /** The `pad` helper: `String(x).padStart(2, '0')` of a text. */
  function PadText(s: string): (r: string)
    ensures |s| >= 2 ==> r == s
  {
    PadStart(s, 2, '0')
  }

  /** The shared `t`: `HH:MM`. */
  function ShortTimeText(w: Wall): string {
    ZeroPadded(w.hour, 2) + ":" + ZeroPadded(w.minute, 2)
  }

  /** `YYYY Month DD`, the date part of `D`, `f` and `F`. */
  function LongDateText(w: Wall): string
    requires ValidWall(w)
  {
    ZeroPadded(w.year, 4) + " " + PadText(MonthNamesFull[GetMonth(w.month)]) + " " + ZeroPadded(w.day, 2)
  }

  /** The text a format shows, with the clock reading `now` and the instant at
      `epochMs`. */
  function Render(w: Wall, epochMs: int, now: int, style: Style): string
    requires ValidWall(w)
  {
    match style
    case ShortTime => ShortTimeText(w)
    case LongTime => ShortTimeText(w) + ":" + ZeroPadded(w.second, 2)
    case ShortDate =>
      ZeroPadded(w.year, 4) + "-" + ZeroPadded(GetMonth(w.month) + 1, 2) + "-" + ZeroPadded(w.day, 2)
    case LongDate => LongDateText(w)
    case ShortDateTime => LongDateText(w) + " " + ShortTimeText(w)
    case LongDateTime =>
      PadText(DayNamesFull[GetDay(w.dayOfWeek)]) + ", " + LongDateText(w) + " " + ShortTimeText(w)
    case Relative => RelativeTime.RPhraseTs(now, epochMs)
  }

  /** The text inside the `<time>` element `toHTMLDiscordString(f)` returns;
      `None` is an omitted format, which defaults to `'f'`. */
  function DiscordText(w: Wall, epochMs: int, now: int, format: Option<string>): (r: Result<string>)
    requires ValidWall(w)
    ensures var f := if format.Some? then format.value else "f";
            r.Failure? <==> f !in DiscordFormats
    ensures var f := if format.Some? then format.value else "f";
            r.Failure? ==> r.error == PlainError(f + " is not valid")
  {
    var f := if format.Some? then format.value else "f";
    match StyleOf(f)
    case Some(style) => Success(Render(w, epochMs, now, style))
    case None => Failure(PlainError(f + " is not valid"))
  }

  /** Each letter selects its format, and the omitted format is `'f'`. */
  lemma DiscordLetters(w: Wall, epochMs: int, now: int)
    requires ValidWall(w)
    ensures StyleOf("t") == Some(ShortTime) && StyleOf("T") == Some(LongTime)
    ensures StyleOf("d") == Some(ShortDate) && StyleOf("D") == Some(LongDate)
    ensures StyleOf("f") == Some(ShortDateTime) && StyleOf("F") == Some(LongDateTime)
    ensures StyleOf("R") == Some(Relative)
    ensures DiscordText(w, epochMs, now, None) == Success(Render(w, epochMs, now, ShortDateTime))
    ensures DiscordText(w, epochMs, now, Some("R")) == Success(RelativeTime.RPhraseTs(now, epochMs))
  {
    assert "t" != "T" && "t" != "d" && "t" != "D" && "t" != "f" && "t" != "F";
  }

  lemma TwoDigits(n: int)
    requires 0 <= n < 100
    ensures |ZeroPadded(n, 2)| == 2 && AllDigits(ZeroPadded(n, 2)) && ParseDigits(ZeroPadded(n, 2)) == n
  {
    ZeroPaddedRoundTrip(n, 2);
  }

  /** The `d` format of a four-digit year is `YYYY-MM-DD` with the 1-based
      month, and each field reads back. */
  lemma DiscordDateReadsBack(w: Wall, epochMs: int, now: int)
    requires ValidWall(w) && 0 <= w.year <= 9999
    ensures var s := Render(w, epochMs, now, ShortDate);
            |s| == 10 && s[4] == '-' && s[7] == '-'
            && AllDigits(s[..4]) && ParseDigits(s[..4]) == w.year
            && AllDigits(s[5..7]) && ParseDigits(s[5..7]) == w.month
            && AllDigits(s[8..]) && ParseDigits(s[8..]) == w.day
  {
    var year, month, day := ZeroPadded(w.year, 4), ZeroPadded(w.month, 2), ZeroPadded(w.day, 2);
    FourDigits(w.year);
    TwoDigits(w.month);
    TwoDigits(w.day);
    assert GetMonth(w.month) + 1 == w.month;
    var s := Render(w, epochMs, now, ShortDate);
    assert s == year + "-" + month + "-" + day;
    DateLayout(year, month, day, s);
  }

  lemma FourDigits(n: int)
    requires 0 <= n <= 9999
    ensures |ZeroPadded(n, 4)| == 4 && AllDigits(ZeroPadded(n, 4)) && ParseDigits(ZeroPadded(n, 4)) == n
  {
    assert Pow10(4) == 10000 by {
      assert Pow10(2) == 100;
    }
    ZeroPaddedRoundTrip(n, 4);
  }

  lemma DateLayout(year: string, month: string, day: string, s: string)
    requires s == year + "-" + month + "-" + day
    requires |year| == 4 && |month| == 2 && |day| == 2
    ensures |s| == 10 && s[4] == '-' && s[7] == '-'
    ensures s[..4] == year && s[5..7] == month && s[8..] == day
  {
  }

  /** The `t` format is `HH:MM` and reads back as the hour and minute; `T`
      is `t` followed by `:SS`. */
  lemma DiscordTimeReadsBack(w: Wall, epochMs: int, now: int)
    requires ValidWall(w)
    ensures var s := Render(w, epochMs, now, ShortTime);
            |s| == 5 && s[2] == ':'
            && AllDigits(s[..2]) && ParseDigits(s[..2]) == w.hour
            && AllDigits(s[3..]) && ParseDigits(s[3..]) == w.minute
    ensures var s := Render(w, epochMs, now, LongTime);
            |s| == 8 && s[..5] == Render(w, epochMs, now, ShortTime) && s[5] == ':'
            && AllDigits(s[6..]) && ParseDigits(s[6..]) == w.second
  {
    TwoDigits(w.hour);
    TwoDigits(w.minute);
    TwoDigits(w.second);
    TimeLayout(ZeroPadded(w.hour, 2), ZeroPadded(w.minute, 2), ZeroPadded(w.second, 2),
               Render(w, epochMs, now, ShortTime), Render(w, epochMs, now, LongTime));
  }

  lemma TimeLayout(hour: string, minute: string, second: string, short: string, long: string)
    requires short == hour + ":" + minute && long == short + ":" + second
    requires |hour| == 2 && |minute| == 2 && |second| == 2
    ensures |short| == 5 && short[2] == ':' && short[..2] == hour && short[3..] == minute
    ensures |long| == 8 && long[..5] == short && long[5] == ':' && long[6..] == second
  {
  }
}

=== FILE: DatetimeLocal.dfy ===
/** The string renderers and the zone-offset arithmetic of the
    `Datetime_local` class (`toISOString`, `toString`, `toDateString`,
    `toTimeString`, `toUTCString`, `#LocalTime`, `#TimeZoneString`,
    `getTimezoneOffset`, `setTime`), built on the time-value arithmetic of
    `Calendar`. The time zone database is outside the model: the offset the
    zone has at the instant (Temporal's `offsetNanoseconds`) and the zone id
    are inputs, as a `ZoneOffset`. */
module DatetimeLocal {
  import opened Results
  import opened JsNumbers
  import opened Text
  import opened Calendar
  import CalendarProofs

  /** The state of a `Datetime_local`: the time value and the zone id. */
  datatype LocalDate = LocalDate(value: TimeValue, timezone: string)

  /** What the zone database answers for an instant in a zone. */
  datatype ZoneOffset = ZoneOffset(offsetNanoseconds: int, timezoneId: string)

  const DayNames: seq<string> := ["Sun", "Mon", "Tue", "Wed", "Thu", "Fri", "Sat"]
  const MonthNames: seq<string> :=
    ["Jan", "Feb", "Mar", "Apr", "May", "Jun", "Jul", "Aug", "Sep", "Oct", "Nov", "Dec"]

  const InvalidDate: string := "Invalid Date"

  // ---------------------------------------------------------------------------
  // Zone offsets

  /** `Math.trunc(offsetNanoseconds / 10 ** 6)`: the offset in whole
      milliseconds, rounded toward zero. */
  function OffsetMs(ns: int): (ms: int)
    ensures Abs(ms) * 1000000 <= Abs(ns) < (Abs(ms) + 1) * 1000000
    ensures ms == 0 || (ms > 0 <==> ns > 0)
  {
    TruncDiv(ns, 1000000)
  }

  /** `#LocalTime(t)`: the time value shifted by the zone's offset. */
  function LocalTime(t: int, zone: ZoneOffset): (lt: int)
    ensures lt - t == OffsetMs(zone.offsetNanoseconds)
  {
    t + OffsetMs(zone.offsetNanoseconds)
  }

  /** With an offset of whole milliseconds, local time and UTC differ by
      exactly the offset. */
  lemma LocalTimeWholeMs(t: int, zone: ZoneOffset)
    requires zone.offsetNanoseconds % 1000000 == 0
    ensures LocalTime(t, zone) * 1000000 == t * 1000000 + zone.offsetNanoseconds
  {
    WholeMsOffset(zone.offsetNanoseconds);
  }

  /** An offset of whole milliseconds converts exactly. */
  lemma WholeMsOffset(ns: int)
    requires ns % 1000000 == 0
    ensures OffsetMs(ns) * 1000000 == ns
  {
    var q := ns / 1000000;
    if ns >= 0 {
      DivModUnique(Abs(ns), 1000000, q, 0);
    } else {
      DivModUnique(Abs(ns), 1000000, -q, 0);
    }
  }

  /** `getTimezoneOffset()`: `(t - #LocalTime(t)) / msPerMinute`, a number of
      minutes. There is no NaN guard: `#LocalTime` asks the zone database for
      the offset at `BigInt(t)`, and `BigInt(NaN)` throws a RangeError. */
  function GetTimezoneOffset(d: LocalDate, zone: ZoneOffset): (r: Result<Number>)
    ensures r.Failure? <==> d.value.Invalid?
    ensures r.Failure? ==> r.error.RangeError?
    ensures r.Success? ==>
              r.value.Finite? && r.value.value * MsPerMinute as real == -(OffsetMs(zone.offsetNanoseconds) as real)
  {
    match ToBigInt(TimeValueToNumber(d.value))
    case Failure(e) => Failure(e)
    case Success(t) => Success(Finite((t - LocalTime(t, zone)) as real / MsPerMinute as real))
  }

  // ---------------------------------------------------------------------------
  // Fixed-width fields

  lemma SmallPowers()
    ensures Pow10(2) == 100 && Pow10(3) == 1000 && Pow10(4) == 10000
  {
  }

  lemma DateWhenInRange(t: int)
    ensures InSearchedYears(t) ==> 1 <= DateFromTime(t) <= 31
  {
    if InSearchedYears(t) {
      CalendarProofs.DateFromTimeBounds(t);
    }
  }

  /** The number in `s[start..start + width]`, when those are all digits. */
  function ReadField(s: string, start: nat, width: nat): (r: Option<nat>)
    ensures r.Some? <==> start + width <= |s| && AllDigits(s[start..start + width])
  {
    if start + width <= |s| && AllDigits(s[start..start + width]) then
      Some(ParseDigits(s[start..start + width]))
    else None
  }

  // ---------------------------------------------------------------------------
  // TimeString, DateString

  /** `ToZeroPaddedDecimalString(n)` of a two-digit field. */
  function Pad2(n: int): (r: string)
    requires 0 <= n < 100
    ensures |r| == 2 && AllDigits(r) && ParseDigits(r) == n
  {
    ZeroPaddedRoundTrip(n, 2);
    ZeroPadded(n, 2)
  }

  /** `Dateinternals.TimeString(tv)`: `HH:MM:SS GMT`. */
  function TimeString(tv: int): (r: string)
    ensures |r| == 12
    ensures r[2] == ':' && r[5] == ':' && r[8..] == " GMT"
  {
    TimeLayout(Pad2(HourFromTime(tv)), Pad2(MinFromTime(tv)), Pad2(SecFromTime(tv)))
  }

  /** The template of `TimeString`. */
  function TimeLayout(h: string, i: string, s: string): (r: string)
    requires |h| == 2 && |i| == 2 && |s| == 2
    ensures |r| == 12
    ensures r[..2] == h && r[2] == ':' && r[3..5] == i && r[5] == ':' && r[6..8] == s
    ensures r[8..] == " GMT"
  {
    h + ":" + i + ":" + s + " " + "GMT"
  }

  /** The year as `DateString` and `toUTCString` print it: a `-` for a
      negative year, then `String(year).padStart(4, '0')`. */
  function YearText(year: int): (r: string)
    ensures |r| >= 4
    ensures 0 <= year < 10000 ==> |r| == 4 && AllDigits(r) && ParseDigits(r) == year
  {
    SmallPowers();
    ZeroPaddedRoundTrip(year, 4);
    assert "" + ZeroPadded(year, 4) == ZeroPadded(year, 4);
    (if year < 0 then "-" else "") + ZeroPadded(year, 4)
  }

  function DayName(d: int): (r: string)
    requires 0 <= d < 7
    ensures |r| == 3
  {
    DayNames[d]
  }

  function MonthName(m: int): (r: string)
    requires 0 <= m < 12
    ensures |r| == 3
  {
    MonthNames[m]
  }

  /** `Dateinternals.DateString(tv)`: `Www Mmm DD YYYY`. */
  function DateString(tv: int): (r: string)
    ensures |r| >= 15
    ensures r[..3] == DayName(WeekDay(tv)) && r[4..7] == MonthName(MonthFromTime(tv))
  {
    DateLayout(DayName(WeekDay(tv)), MonthName(MonthFromTime(tv)),
               ZeroPadded(DateFromTime(tv), 2), YearText(YearFromTime(tv)))
  }

  /** The template of `DateString`. */
  function DateLayout(weekday: string, month: string, day: string, year: string): (r: string)
    requires |weekday| == 3 && |month| == 3 && |day| >= 2 && |year| >= 4
    ensures |r| == 9 + |day| + |year|
    ensures r[..3] == weekday && r[3] == ' ' && r[4..7] == month && r[7] == ' '
    ensures r[8..8 + |day|] == day && r[8 + |day|] == ' ' && r[9 + |day|..9 + |day| + |year|] == year
  {
    weekday + " " + month + " " + day + " " + year
  }

  /** Inside the years 0..9999 the date string is 15 characters whose date
      and year fields read back as `DateFromTime` and `YearFromTime`. */
  lemma DateStringFields(tv: int)
    requires InSearchedYears(tv)
    ensures var r := DateString(tv);
            |r| == 15
            && ReadField(r, 8, 2) == Some(DateFromTime(tv))
            && ReadField(r, 11, 4) == Some(YearFromTime(tv))
  {
    CalendarProofs.DateFromTimeBounds(tv);
    ZeroPaddedRoundTrip(DateFromTime(tv), 2);
  }

  /** The template of `toUTCString`. */
  function UTCLayout(weekday: string, day: string, month: string, year: string, time: string): (r: string)
    requires |weekday| == 3 && |day| >= 2 && |month| == 3 && |year| >= 4
    ensures |r| == 11 + |day| + |year| + |time|
    ensures r[..3] == weekday && r[3..5] == ", " && r[5..5 + |day|] == day
    ensures r[5 + |day|] == ' ' && r[6 + |day|..9 + |day|] == month && r[9 + |day|] == ' '
    ensures r[10 + |day|..10 + |day| + |year|] == year
    ensures r[10 + |day| + |year|] == ' ' && r[11 + |day| + |year|..] == time
  {
    weekday + ", " + day + " " + month + " " + year + " " + time
  }

  /** `toUTCString()`: `Www, DD Mmm YYYY HH:MM:SS GMT` of the time value
      itself (no zone shift), "Invalid Date" for NaN. */
  function ToUTCString(tv: TimeValue): (r: string)
    ensures r == InvalidDate <==> tv.Invalid?
  {
    match tv
    case Invalid => InvalidDate
    case Valid(t) =>
      UTCLayout(DayName(WeekDay(t)), ZeroPadded(DateFromTime(t), 2),
                MonthName(MonthFromTime(t)), YearText(YearFromTime(t)), TimeString(t))
  }

  /** Inside the years 0..9999 the UTC string is 29 characters with the week
      day, date, month, year and time of day where the format puts them. */
  lemma UTCStringFields(t: int)
    requires InSearchedYears(t)
    ensures var r := ToUTCString(Valid(t));
            |r| == 29
            && r[..3] == DayName(WeekDay(t)) && r[8..11] == MonthName(MonthFromTime(t))
            && ReadField(r, 5, 2) == Some(DateFromTime(t))
            && ReadField(r, 12, 4) == Some(YearFromTime(t))
            && r[17..] == TimeString(t)
  {
    CalendarProofs.DateFromTimeBounds(t);
    ZeroPaddedRoundTrip(DateFromTime(t), 2);
  }

  // ---------------------------------------------------------------------------
  // toISOString

  /** A rendered field: the zero-padded number, or "NaN" for a field computed
      from a NaN time value. */
  function FieldText(f: Option<int>, width: nat): (r: string)
    ensures f.None? ==> r == "NaN"
    ensures f.Some? && 0 <= f.value < Pow10(width) && 1 <= width <= 4 ==>
              |r| == width && AllDigits(r) && ParseDigits(r) == f.value
  {
    match f
    case None => "NaN"
    case Some(n) => ZeroPaddedRoundTrip(n, width); ZeroPadded(n, width)
  }

  /** The template of `toISOString`. */
  function IsoLayout(year: string, month: string, day: string, hour: string,
                     minute: string, second: string, milli: string): string
  {
    year + "-" + month + "-" + day + "T" + hour + ":" + minute + ":" + second + "." + milli + "Z"
  }

  /** Where the ISO template puts its fields when each has its width. */
  lemma IsoLayoutShape(year: string, month: string, day: string, hour: string,
                       minute: string, second: string, milli: string)
    requires |year| == 4 && |month| == 2 && |day| == 2 && |hour| == 2 && |minute| == 2
             && |second| == 2 && |milli| == 3
    ensures var r := IsoLayout(year, month, day, hour, minute, second, milli);
            |r| == 24 && r[..4] == year && r[4] == '-' && r[5..7] == month && r[7] == '-'
            && r[8..10] == day && r[10] == 'T' && r[11..13] == hour && r[13] == ':'
            && r[14..16] == minute && r[16] == ':' && r[17..19] == second && r[19] == '.'
            && r[20..23] == milli && r[23] == 'Z'
  {
    var a := year + "-" + month + "-";
    var b := a + day + "T" + hour + ":";
    var c := b + minute + ":" + second + ".";
    var r := c + milli + "Z";
    assert r == IsoLayout(year, month, day, hour, minute, second, milli);
    assert |a| == 8 && a[..4] == year && a[4] == '-' && a[5..7] == month && a[7] == '-';
    assert |b| == 14 && b[..8] == a && b[8..10] == day && b[10] == 'T' && b[11..13] == hour && b[13] == ':';
    assert |c| == 20 && c[..14] == b && c[14..16] == minute && c[16] == ':' && c[17..19] == second && c[19] == '.';
    assert |r| == 24 && r[..20] == c && r[20..23] == milli && r[23] == 'Z';
  }

  /** `toISOString()`. The source does not test for NaN: with a NaN time value
      the year search keeps its initial 0 (no comparison with NaN holds), the
      month chain falls through to 11 (printed 12), and every other field is
      NaN. */
  function ToISOString(tv: TimeValue): (r: string)
  {
    match tv
    case Invalid =>
      IsoLayout(FieldText(Some(MinYear), 4), FieldText(Some(11 + 1), 2), FieldText(None, 2),
                FieldText(None, 2), FieldText(None, 2), FieldText(None, 2), FieldText(None, 3))
    case Valid(t) =>
      IsoLayout(FieldText(Some(YearFromTime(t)), 4), FieldText(Some(MonthFromTime(t) + 1), 2),
                FieldText(Some(DateFromTime(t)), 2), FieldText(Some(HourFromTime(t)), 2),
                FieldText(Some(MinFromTime(t)), 2), FieldText(Some(SecFromTime(t)), 2),
                FieldText(Some(MsFromTime(t)), 3))
  }

  /** Reads a `YYYY-MM-DDTHH:MM:SS.mmmZ` string back into a time value. */
  function ParseISO(s: string): (r: Option<int>)
    ensures r.Some? ==> |s| == 24 && s[4] == '-' && s[7] == '-' && s[10] == 'T' && s[23] == 'Z'
  {
    if |s| == 24 && s[4] == '-' && s[7] == '-' && s[10] == 'T' && s[13] == ':' && s[16] == ':'
       && s[19] == '.' && s[23] == 'Z' then
      match (ReadField(s, 0, 4), ReadField(s, 5, 2), ReadField(s, 8, 2), ReadField(s, 11, 2),
             ReadField(s, 14, 2), ReadField(s, 17, 2), ReadField(s, 20, 3))
      case (Some(y), Some(mo), Some(d), Some(h), Some(mi), Some(sec), Some(ms)) =>
        Some(MakeDate(MakeDay(y, mo as int - 1, d), MakeTime(h, mi, sec, ms)))
      case _ => None
    else None
  }

  /** Inside the years 0..9999 the ISO string reads back as the time value. */
  lemma ISOStringRoundTrip(t: int)
    requires InSearchedYears(t)
    ensures ParseISO(ToISOString(Valid(t))) == Some(t)
  {
    CalendarProofs.TimeValueRoundTrip(t);
    IsoStringReadsFields(t, t);
  }

  /** Inside the years 0..9999 the ISO string reads back as the time value
      its seven fields make. */
  lemma IsoStringReadsFields(t: int, value: int)
    requires InSearchedYears(t)
    requires value == MakeDate(MakeDay(YearFromTime(t), MonthFromTime(t), DateFromTime(t)),
                               MakeTime(HourFromTime(t), MinFromTime(t), SecFromTime(t), MsFromTime(t)))
    ensures ParseISO(ToISOString(Valid(t))) == Some(value)
  {
    IsoFieldsFit(t);
    IsoStringOfValid(t);
    IsoTextReadBack(ToISOString(Valid(t)), YearFromTime(t), MonthFromTime(t), DateFromTime(t),
                    HourFromTime(t), MinFromTime(t), SecFromTime(t), MsFromTime(t), value);
  }

  /** Seven fields that fit their widths read back from the ISO template. */
  lemma IsoTextReadBack(s: string, y: int, mo: int, d: int, h: int, mi: int, sec: int, ms: int, value: int)
    requires 0 <= y < 10000 && 0 <= mo + 1 < 100 && 0 <= d < 100 && 0 <= h < 100
             && 0 <= mi < 100 && 0 <= sec < 100 && 0 <= ms < 1000
    requires s == IsoLayout(FieldText(Some(y), 4), FieldText(Some(mo + 1), 2), FieldText(Some(d), 2),
                            FieldText(Some(h), 2), FieldText(Some(mi), 2), FieldText(Some(sec), 2),
                            FieldText(Some(ms), 3))
    requires value == MakeDate(MakeDay(y, mo, d), MakeTime(h, mi, sec, ms))
    ensures ParseISO(s) == Some(value)
  {
    var year, month, day := FieldText(Some(y), 4), FieldText(Some(mo + 1), 2), FieldText(Some(d), 2);
    var hour, minute := FieldText(Some(h), 2), FieldText(Some(mi), 2);
    var second, milli := FieldText(Some(sec), 2), FieldText(Some(ms), 3);
    FieldReads(y, 4, 10000);
    FieldReads(mo + 1, 2, 100);
    FieldReads(d, 2, 100);
    FieldReads(h, 2, 100);
    FieldReads(mi, 2, 100);
    FieldReads(sec, 2, 100);
    FieldReads(ms, 3, 1000);
    IsoLayoutReadBack(s, year, month, day, hour, minute, second, milli, y, mo, d, h, mi, sec, ms, value);
  }

  /** `text` is `width` digits spelling `n`. */
  predicate Reads(text: string, width: nat, n: int) {
    |text| == width && AllDigits(text) && ParseDigits(text) == n
  }

  /** A number that fits its width reads back from its field text. */
  lemma FieldReads(n: int, width: nat, limit: int)
    requires 2 <= width <= 4 && limit == Pow10(width) && 0 <= n < limit
    ensures Reads(FieldText(Some(n), width), width, n)
  {
  }

  /** A field spelled in its slot of `s` is read back by `ReadField`. */
  lemma FieldAt(s: string, start: nat, text: string, n: int)
    requires start + |text| <= |s| && s[start..start + |text|] == text
    requires Reads(text, |text|, n)
    ensures ReadField(s, start, |text|) == Some(n)
  {
  }

  /** The ISO string of a valid time value, field by field. */
  lemma IsoStringOfValid(t: int)
    ensures ToISOString(Valid(t))
            == IsoLayout(FieldText(Some(YearFromTime(t)), 4), FieldText(Some(MonthFromTime(t) + 1), 2),
                         FieldText(Some(DateFromTime(t)), 2), FieldText(Some(HourFromTime(t)), 2),
                         FieldText(Some(MinFromTime(t)), 2), FieldText(Some(SecFromTime(t)), 2),
                         FieldText(Some(MsFromTime(t)), 3))
  {
  }

  /** Inside the years 0..9999 each ISO field fits its width. */
  lemma IsoFieldsFit(t: int)
    requires InSearchedYears(t)
    ensures 0 <= YearFromTime(t) < 10000 && 0 <= MonthFromTime(t) + 1 < 100
    ensures 0 <= DateFromTime(t) < 100 && 0 <= HourFromTime(t) < 100
    ensures 0 <= MinFromTime(t) < 100 && 0 <= SecFromTime(t) < 100
    ensures 0 <= MsFromTime(t) < 1000
  {
    CalendarProofs.DateFromTimeBounds(t);
  }

  /** The ISO template reads back as the time value its seven fields make. */
  lemma IsoLayoutReadBack(s: string, year: string, month: string, day: string, hour: string,
                          minute: string, second: string, milli: string,
                          y: int, mo: int, d: int, h: int, mi: int, sec: int, ms: int, value: int)
    requires s == IsoLayout(year, month, day, hour, minute, second, milli)
    requires Reads(year, 4, y) && Reads(month, 2, mo + 1) && Reads(day, 2, d) && Reads(hour, 2, h)
             && Reads(minute, 2, mi) && Reads(second, 2, sec) && Reads(milli, 3, ms)
    requires value == MakeDate(MakeDay(y, mo, d), MakeTime(h, mi, sec, ms))
    ensures ParseISO(s) == Some(value)
  {
    IsoLayoutShape(year, month, day, hour, minute, second, milli);
    FieldAt(s, 0, year, y);
    FieldAt(s, 5, month, mo + 1);
    FieldAt(s, 8, day, d);
    FieldAt(s, 11, hour, h);
    FieldAt(s, 14, minute, mi);
    FieldAt(s, 17, second, sec);
    FieldAt(s, 20, milli, ms);
    ParseISOOfFields(s, y, mo + 1, d, h, mi, sec, ms);
  }

  /** A string with the ISO separators in place and seven readable fields
      parses to the time value those fields make. */
  lemma ParseISOOfFields(s: string, y: nat, mo: nat, d: nat, h: nat, mi: nat, sec: nat, ms: nat)
    requires |s| == 24 && s[4] == '-' && s[7] == '-' && s[10] == 'T' && s[13] == ':' && s[16] == ':'
             && s[19] == '.' && s[23] == 'Z'
    requires ReadField(s, 0, 4) == Some(y) && ReadField(s, 5, 2) == Some(mo) && ReadField(s, 8, 2) == Some(d)
             && ReadField(s, 11, 2) == Some(h) && ReadField(s, 14, 2) == Some(mi)
             && ReadField(s, 17, 2) == Some(sec) && ReadField(s, 20, 3) == Some(ms)
    ensures ParseISO(s) == Some(MakeDate(MakeDay(y, mo - 1, d), MakeTime(h, mi, sec, ms)))
  {
  }

  /** The ISO string of an invalid date. */
  lemma ISOStringOfInvalid()
    ensures ToISOString(Invalid) == "0000-12-NaNTNaN:NaN:NaN.NaNZ"
  {
    NaNDateFields();
    NaNLayout();
  }

  /** The ISO template filled with the invalid date's fields. */
  lemma NaNLayout()
    ensures IsoLayout("0000", "12", "NaN", "NaN", "NaN", "NaN", "NaN") == "0000-12-NaNTNaN:NaN:NaN.NaNZ"
  {
  }

  /** The two numeric fields of the invalid ISO string. */
  lemma NaNDateFields()
    ensures FieldText(Some(MinYear), 4) == "0000" && FieldText(Some(11 + 1), 2) == "12"
  {
    SmallPowers();
    assert NatToString(0) == "0";
    assert NatToString(12) == NatToString(1) + "2" == "12";
    assert ZeroPadded(0, 4) == Repeat('0', 3) + "0" == "0000";
    assert ZeroPadded(12, 2) == "12";
  }

  // ---------------------------------------------------------------------------
  // toString and the zone string

  /** `#TimeZoneString()`: the sign, then the hours and minutes of the
      offset's magnitude (each zero-padded to 2), then the zone id in
      parentheses after a space. */
  function TimeZoneString(zone: ZoneOffset): (r: string)
    ensures |r| == 8 + |zone.timezoneId|
    ensures r[0] == (if OffsetMs(zone.offsetNanoseconds) < 0 then '-' else '+')
    ensures r[5..7] == " (" && r[7..|r| - 1] == zone.timezoneId && r[|r| - 1] == ')'
  {
    OffsetText(OffsetMs(zone.offsetNanoseconds), zone.timezoneId)
  }

  /** The zone string of an offset already truncated to milliseconds. */
  function OffsetText(offset: int, id: string): (r: string)
    ensures |r| == 8 + |id|
    ensures r[0] == (if offset < 0 then '-' else '+')
    ensures r[5..7] == " (" && r[7..|r| - 1] == id && r[|r| - 1] == ')'
  {
    var abs := Abs(offset);
    ZoneLayout(if offset < 0 then '-' else '+', Pad2(HourFromTime(abs)), Pad2(MinFromTime(abs)), id)
  }

  /** The template of `#TimeZoneString`. */
  function ZoneLayout(sign: char, hour: string, minute: string, id: string): (r: string)
    requires |hour| == 2 && |minute| == 2
    ensures |r| == 8 + |id|
    ensures r[0] == sign && r[1..3] == hour && r[3..5] == minute
    ensures r[5..7] == " (" && r[7..|r| - 1] == id && r[|r| - 1] == ')'
  {
    [sign] + hour + minute + " (" + id + ")"
  }

  /** Reads back the signed offset, in milliseconds, that a zone string shows. */
  function ReadZoneOffset(s: string): (r: Option<int>)
    ensures r.Some? ==> |s| >= 5 && (s[0] == '-' || s[0] == '+')
  {
    if |s| >= 5 && (s[0] == '-' || s[0] == '+') then
      match (ReadField(s, 1, 2), ReadField(s, 3, 2))
      case (Some(h), Some(m)) =>
        var magnitude := h * MsPerHour + m * MsPerMinute;
        Some(if s[0] == '-' then -magnitude else magnitude)
      case _ => None
    else None
  }

  /** A whole-minute offset of less than a day reads back from the zone
      string. */
  lemma TimeZoneStringRoundTrip(zone: ZoneOffset)
    requires Abs(OffsetMs(zone.offsetNanoseconds)) < MsPerDay
    requires Abs(OffsetMs(zone.offsetNanoseconds)) % MsPerMinute == 0
    ensures ReadZoneOffset(TimeZoneString(zone)) == Some(OffsetMs(zone.offsetNanoseconds))
  {
    OffsetTextRoundTrip(OffsetMs(zone.offsetNanoseconds), zone.timezoneId);
  }

  /** A whole-minute offset of less than a day reads back from its text. */
  lemma OffsetTextRoundTrip(offset: int, id: string)
    requires Abs(offset) < MsPerDay && Abs(offset) % MsPerMinute == 0
    ensures ReadZoneOffset(OffsetText(offset, id)) == Some(offset)
  {
    ZoneMagnitude(Abs(offset));
    OffsetTextReadsFields(offset, id, offset);
  }

  /** Any zone text reads back as its sign and the hour and minute fields of
      the offset's magnitude. */
  lemma OffsetTextReadsFields(offset: int, id: string, value: int)
    requires var abs := Abs(offset);
             var magnitude := HourFromTime(abs) * MsPerHour + MinFromTime(abs) * MsPerMinute;
             value == if offset < 0 then -magnitude else magnitude
    ensures ReadZoneOffset(OffsetText(offset, id)) == Some(value)
  {
    var abs := Abs(offset);
    var hour, minute := HourFromTime(abs), MinFromTime(abs);
    var sign := if offset < 0 then '-' else '+';
    assert OffsetText(offset, id) == ZoneLayout(sign, Pad2(hour), Pad2(minute), id);
    ZoneLayoutReadBack(sign, Pad2(hour), Pad2(minute), id, hour, minute, value);
  }

  /** The zone template reads back as its sign and its two fields. */
  lemma ZoneLayoutReadBack(sign: char, hour: string, minute: string, id: string, h: int, m: int, value: int)
    requires sign == '-' || sign == '+'
    requires |hour| == 2 && AllDigits(hour) && |minute| == 2 && AllDigits(minute)
    requires ParseDigits(hour) == h && ParseDigits(minute) == m
    requires value == if sign == '-' then -(h * MsPerHour + m * MsPerMinute) else h * MsPerHour + m * MsPerMinute
    ensures ReadZoneOffset(ZoneLayout(sign, hour, minute, id)) == Some(value)
  {
  }

  /** Whole minutes of less than a day are rebuilt from their hour and minute
      fields. */
  lemma ZoneMagnitude(abs: int)
    requires 0 <= abs < MsPerDay && abs % MsPerMinute == 0
    ensures abs == HourFromTime(abs) * MsPerHour + MinFromTime(abs) * MsPerMinute
  {
    DivDiv(abs, MsPerMinute, MinutesPerHour);
    DivModUnique(abs / MsPerHour, HoursPerDay, 0, abs / MsPerHour);
    assert HourFromTime(abs) == abs / MsPerHour;
    assert MinFromTime(abs) == abs / MsPerMinute % MinutesPerHour;
    assert abs == abs / MsPerHour * MsPerHour + abs % MsPerHour;
  }

  /** `toString()`: "Invalid Date" for NaN, otherwise the date string and
      the time string of the local time, then the zone string. */
  function ToString(d: LocalDate, zone: ZoneOffset): (r: string)
    ensures r == InvalidDate <==> d.value.Invalid?
  {
    match d.value
    case Invalid => InvalidDate
    case Valid(t) =>
      var lt := LocalTime(t, zone);
      DateString(lt) + " " + TimeString(lt) + TimeZoneString(zone)
  }

  /** Inside the years 0..9999 the pieces of `toString` sit at fixed places. */
  lemma ToStringFields(t: int, zone: ZoneOffset)
    requires InSearchedYears(LocalTime(t, zone))
    ensures var r := ToString(LocalDate(Valid(t), zone.timezoneId), zone);
            var lt := LocalTime(t, zone);
            |r| == 36 + |zone.timezoneId|
            && r[..15] == DateString(lt) && r[16..28] == TimeString(lt)
            && r[28..] == TimeZoneString(zone)
  {
    var lt := LocalTime(t, zone);
    DateStringFields(lt);
    var date, time, tz := DateString(lt), TimeString(lt), TimeZoneString(zone);
    assert ToString(LocalDate(Valid(t), zone.timezoneId), zone) == date + " " + time + tz;
    JoinedPieces(date, " ", time, tz);
  }

  /** Where the four pieces of a concatenation end up. */
  lemma JoinedPieces(a: string, b: string, c: string, d: string)
    ensures var r := a + b + c + d;
            |r| == |a| + |b| + |c| + |d|
            && r[..|a|] == a && r[|a| + |b|..|a| + |b| + |c|] == c && r[|a| + |b| + |c|..] == d
  {
  }

  /** `toDateString()`. */
  function ToDateString(d: LocalDate, zone: ZoneOffset): (r: string)
    ensures r == InvalidDate <==> d.value.Invalid?
    ensures d.value.Valid? ==> r == DateString(LocalTime(d.value.ms, zone))
  {
    match d.value
    case Invalid => InvalidDate
    case Valid(t) => DateString(LocalTime(t, zone))
  }

  /** `toTimeString()`. */
  function ToTimeString(d: LocalDate, zone: ZoneOffset): (r: string)
    ensures r == InvalidDate <==> d.value.Invalid?
    ensures d.value.Valid? ==>
              |r| == 20 + |zone.timezoneId| && r[..12] == TimeString(LocalTime(d.value.ms, zone))
  {
    match d.value
    case Invalid => InvalidDate
    case Valid(t) => TimeString(LocalTime(t, zone)) + TimeZoneString(zone)
  }

  /** Hour, minute and second read back from `TimeString`. */
  lemma TimeStringFields(tv: int)
    ensures var r := TimeString(tv);
            ReadField(r, 0, 2) == Some(HourFromTime(tv))
            && ReadField(r, 3, 2) == Some(MinFromTime(tv))
            && ReadField(r, 6, 2) == Some(SecFromTime(tv))
  {
  }

  // ---------------------------------------------------------------------------
  // setTime

  /** `setTime(time)`: the clipped value is stored and returned; the zone is
      kept. */
  function SetTime(d: LocalDate, time: Number): (r: (LocalDate, Number))
    ensures r.0.timezone == d.timezone
    ensures r.0.value.Valid? <==> time.Finite? && AbsReal(time.value) <= MaxTimeValue as real
    ensures r.0.value.Valid? ==> r.0.value.ms == Trunc(time.value) && r.1 == Finite(r.0.value.ms as real)
    ensures r.0.value.Invalid? ==> r.1 == NaN
  {
    var v := TimeClip(time);
    (LocalDate(v, d.timezone), TimeValueToNumber(v))
  }

  /** Setting the value `setTime` returned changes nothing more. */
  lemma SetTimeIdempotent(d: LocalDate, time: Number)
    ensures var (d1, n1) := SetTime(d, time);
            SetTime(d1, n1) == (d1, n1)
  {
    CalendarProofs.TimeClipIdempotent(time);
  }
}

=== FILE: DigitGrouping.dfy ===
/** `chunk` and `underscoreNumber` of testsx.ts (and its compiled twin
    testsx.js): the digits of an integer grouped in threes from the right and
    joined by underscores.

    `chunk` only ever emits a group when its third element arrives, so a
    final group of one or two elements is dropped; `underscoreNumber` feeds it
    the reversed digits, so the digits that are lost are the LEADING ones. */
module DigitGrouping {
  import opened Results
  import opened JsNumbers
  import opened Text

  // ---------------------------------------------------------------------------
  // chunk

  /** `chunk(array)`: the complete groups of three, in order. */
  function Chunk<T>(a: seq<T>): (r: seq<seq<T>>)
    ensures |r| == |a| / 3
    ensures forall i :: 0 <= i < |r| ==> r[i] == a[3 * i..3 * i + 3]
    decreases |a|
  {
    if |a| < 3 then []
    else
      var rest := Chunk(a[3..]);
      assert forall i :: 1 <= i < |rest| + 1 ==> rest[i - 1] == a[3 * i..3 * i + 3];
      [a[..3]] + rest
  }

  /** The loop of `chunk` as written: every element goes into `temporary`,
      and `temporary` is pushed and emptied when the running count reaches a
      multiple of three. Whatever is left in `temporary` at the end is never
      pushed. */
  method ChunkLoop<T>(items: seq<T>) returns (result: seq<seq<T>>)
    ensures result == Chunk(items)
  {
    var index := 0;
    var temporary: seq<T> := [];
    result := [];
    for k := 0 to |items|
      invariant index == k
      invariant |result| == k / 3
      invariant forall i :: 0 <= i < |result| ==> result[i] == items[3 * i..3 * i + 3]
      invariant temporary == items[3 * (k / 3)..k]
    {
      assert items[3 * (k / 3)..k + 1] == items[3 * (k / 3)..k] + [items[k]];
      temporary := temporary + [items[k]];
      index := index + 1;
      if index % 3 == 0 {
        assert 3 * |result| + 3 == k + 1;
        var done := result;
        result := result + [temporary];
        forall i | 0 <= i < |result|
          ensures result[i] == items[3 * i..3 * i + 3]
        {
          if i < |done| {
            assert result[i] == done[i];
          }
        }
        temporary := [];
      } else {
        assert (k + 1) / 3 == k / 3;
      }
    }
    assert |result| == |Chunk(items)|;
  }

  /** The groups, end to end, are the longest prefix whose length is a
      multiple of three: the trailing partial group is lost. */
  lemma ChunkConcat<T>(a: seq<T>)
    ensures Concat(Chunk(a)) == a[..3 * (|a| / 3)]
  {
    GroupsConcat(Chunk(a), a, |a| / 3);
  }

  lemma {:induction false} GroupsConcat<T>(groups: seq<seq<T>>, a: seq<T>, n: nat)
    requires |groups| == n && 3 * n <= |a|
    requires forall i :: 0 <= i < n ==> groups[i] == a[3 * i..3 * i + 3]
    ensures Concat(groups) == a[..3 * n]
    decreases n
  {
    if n > 0 {
      GroupsConcat(groups[..n - 1], a, n - 1);
      assert a[..3 * n] == a[..3 * (n - 1)] + a[3 * (n - 1)..3 * n];
    }
  }

  /** The repaired `chunk`: the leftover group is pushed after the loop. */
  function ChunkFlushed<T>(a: seq<T>): (r: seq<seq<T>>)
    ensures |r| == (|a| + 2) / 3
  {
    var whole := Chunk(a);
    if |a| % 3 == 0 then whole else whole + [a[3 * (|a| / 3)..]]
  }

  /** Nothing is lost by the repaired `chunk`. */
  lemma ChunkFlushedConcat<T>(a: seq<T>)
    ensures Concat(ChunkFlushed(a)) == a
  {
    ChunkConcat(a);
    var r := ChunkFlushed(a);
    if |a| % 3 != 0 {
      assert r[..|r| - 1] == Chunk(a);
    }
  }

  // ---------------------------------------------------------------------------
  // underscoreNumber

  /** The map callback: `e.reverse().join().replace(/\D/g, '')` — the group
      back in reading order, joined with commas, non-digits removed. */
  function GroupText(group: seq<string>): string {
    KeepDigits(Join(Reverse(group), ","))
  }

  /** The map itself: one text per group. */
  function Texts(groups: seq<seq<string>>): seq<string> {
    seq(|groups|, i requires 0 <= i < |groups| => GroupText(groups[i]))
  }

  /** Everything after `chunk`: the texts reversed, joined with commas and
      the commas turned into underscores. */
  function Underscored(groups: seq<seq<string>>): string {
    CommasToUnderscores(Join(Reverse(Texts(groups)), ","))
  }

  /** The body of `underscoreNumber` applied to the decimal text `s`. */
  function GroupDigits(s: string): string {
    Underscored(Chunk(Reverse(Characters(s))))
  }

  /** `underscoreNumber(n)` for an integral `n`: the text is
      `BigInt(n).toString()`. */
  function UnderscoreNumber(n: int): string {
    GroupDigits(IntToString(n))
  }

  /** `underscoreNumber` of a number: `BigInt` rejects NaN, the infinities and
      fractions with a RangeError. */
  function UnderscoreNumberOf(x: Number): (r: Result<string>)
    ensures r.Success? <==> x.Finite? && x.value.Floor as real == x.value
    ensures r.Success? ==> r.value == UnderscoreNumber(x.value.Floor)
  {
    match ToBigInt(x)
    case Success(i) => Success(UnderscoreNumber(i))
    case Failure(e) => Failure(e)
  }

  /** `m` consecutive triples of `s` from position `p`, each without its
      non-digits. */
  function Triples(s: string, p: nat, m: nat): (r: seq<string>)
    requires p + 3 * m <= |s|
    ensures |r| == m
    ensures forall j :: 0 <= j < m ==> r[j] == KeepDigits(s[p + 3 * j..p + 3 * j + 3])
    decreases m
  {
    if m == 0 then [] else Triples(s, p, m - 1) + [KeepDigits(s[p + 3 * (m - 1)..p + 3 * m])]
  }

  /** The complete triples of `s` counted from the right, in reading order:
      everything after the first `|s| % 3` characters. */
  function KeptGroups(s: string): (r: seq<string>)
    ensures |r| == |s| / 3
  {
    Triples(s, |s| % 3, |s| / 3)
  }

  lemma KeptGroupsDigits(s: string)
    ensures forall j :: 0 <= j < |s| / 3 ==> AllDigits(KeptGroups(s)[j])
  {
    forall j | 0 <= j < |s| / 3
      ensures AllDigits(KeptGroups(s)[j])
    {
      var p := |s| % 3;
      assert KeptGroups(s)[j] == KeepDigits(s[p + 3 * j..p + 3 * j + 3]);
    }
  }

  /** The exact output: the complete triples counted from the right, joined
      by underscores; the leading `|s| % 3` characters are dropped. */
  lemma GroupDigitsJoin(s: string)
    ensures GroupDigits(s) == Join(KeptGroups(s), "_")
  {
    TextsReversed(s, Characters(s), Texts(Chunk(Reverse(Characters(s)))));
    KeptGroupsDigits(s);
    CommasBecomeUnderscores(KeptGroups(s));
  }

  /** The rendered groups, reversed, are the kept triples in reading order. */
  lemma TextsReversed(s: string, cs: seq<string>, texts: seq<string>)
    requires Spelled(cs, s) && texts == Texts(Chunk(Reverse(cs)))
    ensures Reverse(texts) == KeptGroups(s)
  {
    forall j | 0 <= j < |s| / 3
      ensures Reverse(texts)[j] == KeptGroups(s)[j]
    {
      TextReversed(s, cs, texts, j);
    }
  }

  lemma TextReversed(s: string, cs: seq<string>, texts: seq<string>, j: nat)
    requires Spelled(cs, s) && texts == Texts(Chunk(Reverse(cs)))
    requires j < |s| / 3
    ensures Reverse(texts)[j] == KeepDigits(s[|s| % 3 + 3 * j..|s| % 3 + 3 * j + 3])
  {
    var i := |s| / 3 - 1 - j;
    var lo := |s| % 3 + 3 * j;
    assert |s| - 3 * i - 3 == lo;
    var rev := Reverse(cs);
    var groups := Chunk(rev);
    ChunkAt(rev, i);
    ReversedTextAt(groups, texts, j);
    ReversedGroup(s, cs, i);
    SpelledGroupText(groups[i], s[lo..lo + 3]);
  }

  /** Read from the end, the texts are the texts of the groups from the end. */
  lemma ReversedTextAt(groups: seq<seq<string>>, texts: seq<string>, j: nat)
    requires texts == Texts(groups) && j < |groups|
    ensures Reverse(texts)[j] == GroupText(groups[|groups| - 1 - j])
  {
    assert Reverse(texts)[j] == texts[|texts| - 1 - j];
  }

  /** A group whose reversal spells `t` renders as the digits of `t`. */
  lemma SpelledGroupText(group: seq<string>, t: string)
    requires Spelled(Reverse(group), t)
    ensures GroupText(group) == KeepDigits(t)
  {
    SpelledIsCharacters(Reverse(group), t);
    JoinCharacters(t);
  }

  lemma ChunkAt<T>(a: seq<T>, i: nat)
    requires 3 * i + 3 <= |a|
    ensures i < |Chunk(a)| && Chunk(a)[i] == a[3 * i..3 * i + 3]
  {
  }

/** A group of the reversed characters, turned back, is three consecutive
      characters of `s`. */
  lemma ReversedGroup(s: string, cs: seq<string>, i: nat)
    requires Spelled(cs, s) && 3 * i + 3 <= |s|
    ensures Spelled(Reverse(Reverse(cs)[3 * i..3 * i + 3]), s[|s| - 3 * i - 3..|s| - 3 * i])
  {
    var g := Reverse(Reverse(cs)[3 * i..3 * i + 3]);
    var lo := |s| - 3 * i - 3;
    var t := s[lo..lo + 3];
    assert |g| == 3 && |t| == 3;
    forall k | 0 <= k < 3
      ensures g[k] == [t[k]]
    {
      ReversedGroupAt(s, cs, i, k);
    }
  }

  /** One character of such a group. */
  lemma ReversedGroupAt(s: string, cs: seq<string>, i: nat, k: nat)
    requires Spelled(cs, s) && 3 * i + 3 <= |s| && k < 3
    ensures Reverse(Reverse(cs)[3 * i..3 * i + 3])[k] == [s[|s| - 3 * i - 3 + k]]
  {
    var rev := Reverse(cs);
    var g := rev[3 * i..3 * i + 3];
    var lo := |s| - 3 * i - 3;
    assert Reverse(g)[k] == g[2 - k];
    assert g[2 - k] == rev[3 * i + 2 - k];
    assert rev[3 * i + 2 - k] == cs[lo + k];
  }

  /** `cs` lists the characters of `s` one by one. */
  predicate Spelled(cs: seq<string>, s: string) {
    |cs| == |s| && forall i :: 0 <= i < |s| ==> cs[i] == [s[i]]
  }

  /** That description pins the list down: it is `Characters(s)`. */
  lemma SpelledIsCharacters(cs: seq<string>, s: string)
    requires Spelled(cs, s)
    ensures cs == Characters(s)
  {
  }

  /** Joining one-character strings with commas and then removing the
      non-digits keeps exactly the digits. */
  lemma {:induction false} JoinCharacters(c: string)
    ensures KeepDigits(Join(Characters(c), ",")) == KeepDigits(c)
    decreases |c|
  {
    var n := |c|;
    if n >= 2 {
      JoinCharacters(c[..n - 1]);
      assert Characters(c)[..n - 1] == Characters(c[..n - 1]);
      KeepDigitsConcat(Join(Characters(c[..n - 1]), ","), ",");
      KeepDigitsConcat(Join(Characters(c[..n - 1]), ",") + ",", [c[n - 1]]);
      KeepDigitsConcat(c[..n - 1], [c[n - 1]]);
      assert c == c[..n - 1] + [c[n - 1]];
    } else if n == 1 {
      assert Join(Characters(c), ",") == [c[0]];
      assert c == [c[0]];
    }
  }

  /** Removing non-digits works piece by piece. */
  lemma {:induction false} KeepDigitsConcat(a: string, b: string)
    ensures KeepDigits(a + b) == KeepDigits(a) + KeepDigits(b)
    decreases |a|
  {
    if a != [] {
      KeepDigitsConcat(a[1..], b);
      assert (a + b)[1..] == a[1..] + b;
    } else {
      assert a + b == b;
    }
  }

  /** Joining digit groups with commas and turning the commas into
      underscores is joining them with underscores. */
  lemma {:induction false} CommasBecomeUnderscores(parts: seq<string>)
    requires forall j :: 0 <= j < |parts| ==> AllDigits(parts[j])
    ensures CommasToUnderscores(Join(parts, ",")) == Join(parts, "_")
    decreases |parts|
  {
    var n := |parts|;
    if n == 1 {
      assert CommasToUnderscores(parts[0]) == parts[0];
    } else if n >= 2 {
      var init := parts[..n - 1];
      CommasBecomeUnderscores(init);
      assert CommasToUnderscores(parts[n - 1]) == parts[n - 1];
      CommasConcat(Join(init, ","), ",", parts[n - 1]);
    }
  }

  lemma CommasConcat(a: string, b: string, c: string)
    ensures CommasToUnderscores(a + b + c)
         == CommasToUnderscores(a) + CommasToUnderscores(b) + CommasToUnderscores(c)
  {
  }

  /** Every character of the output is a digit or `_`; a minus sign never
      survives. */
  lemma GroupDigitsAlphabet(s: string)
    ensures forall i :: 0 <= i < |GroupDigits(s)| ==> IsDigit(GroupDigits(s)[i]) || GroupDigits(s)[i] == '_'
  {
    GroupDigitsJoin(s);
    KeptGroupsDigits(s);
    JoinAlphabet(KeptGroups(s));
  }

  lemma {:induction false} JoinAlphabet(parts: seq<string>)
    requires forall j :: 0 <= j < |parts| ==> AllDigits(parts[j])
    ensures forall i :: 0 <= i < |Join(parts, "_")| ==> IsDigit(Join(parts, "_")[i]) || Join(parts, "_")[i] == '_'
    decreases |parts|
  {
    if |parts| >= 2 {
      JoinAlphabet(parts[..|parts| - 1]);
    }
  }

  /** Deleting the underscores leaves the digits after the first `|s| % 3`
      characters. */
  lemma GroupDigitsKept(s: string)
    ensures DropUnderscores(GroupDigits(s)) == KeepDigits(s[|s| % 3..])
  {
    GroupDigitsJoin(s);
    KeptGroupsDigits(s);
    DropJoined(KeptGroups(s));
    KeptConcat(s);
  }

  /** For a non-negative integer exactly the leading `|s| % 3` digits are
      lost; with a digit count that is a multiple of three nothing is. */
  lemma UnderscoreNumberDigits(n: nat)
    ensures var s := NatToString(n);
            DropUnderscores(UnderscoreNumber(n)) == s[|s| % 3..]
  {
    var s := NatToString(n);
    GroupDigitsKept(s);
    assert AllDigits(s[|s| % 3..]);
    KeepAllDigits(s[|s| % 3..]);
  }

  /** With fewer than three characters nothing is left. */
  lemma GroupDigitsShort(s: string)
    requires |s| < 3
    ensures GroupDigits(s) == ""
  {
    GroupDigitsJoin(s);
  }

  lemma DecimalExample()
    ensures IntToString(1234) == "1234"
  {
    assert NatToString(1234) == NatToString(123) + "4";
    assert NatToString(123) == NatToString(12) + "3";
    assert NatToString(12) == NatToString(1) + "2";
  }

  lemma KeptExample(s: string)
    requires s == "1234"
    ensures KeptGroups(s) == ["234"]
  {
    var r := KeptGroups(s);
    assert r == Triples(s, 1, 1);
    assert |r| == 1 && r[0] == KeepDigits(s[1..4]);
    assert s[1..4] == "234";
    assert AllDigits("234");
    KeepAllDigits("234");
  }

  /** The leading digit of 1234 is lost. */
  lemma UnderscoreNumberExample()
    ensures UnderscoreNumber(1234) == "234"
  {
    DecimalExample();
    GroupDigitsJoin("1234");
    KeptExample("1234");
  }

  lemma {:induction false} DropJoined(parts: seq<string>)
    requires forall j :: 0 <= j < |parts| ==> AllDigits(parts[j])
    ensures DropUnderscores(Join(parts, "_")) == Concat(parts)
    decreases |parts|
  {
    var n := |parts|;
    if n == 1 {
      DropDigits(parts[0]);
      assert Concat(parts) == Concat(parts[..0]) + parts[0];
    } else if n >= 2 {
      var init := parts[..n - 1];
      DropJoined(init);
      DropDigits(parts[n - 1]);
      DropConcat(Join(init, "_"), "_");
      DropConcat(Join(init, "_") + "_", parts[n - 1]);
    }
  }

  lemma {:induction false} DropDigits(s: string)
    requires AllDigits(s)
    ensures DropUnderscores(s) == s
    decreases |s|
  {
    if s != [] {
      DropDigits(s[1..]);
    }
  }

  lemma {:induction false} DropConcat(a: string, b: string)
    ensures DropUnderscores(a + b) == DropUnderscores(a) + DropUnderscores(b)
    decreases |a|
  {
    if a != [] {
      DropConcat(a[1..], b);
      assert (a + b)[1..] == a[1..] + b;
    } else {
      assert a + b == b;
    }
  }

  /** Triples of `s` from position `p`, end to end, are `s[p..p + 3m]` without
      its non-digits. */
  lemma {:induction false} TriplesConcat(s: string, p: nat, m: nat)
    requires p + 3 * m <= |s|
    ensures Concat(Triples(s, p, m)) == KeepDigits(s[p..p + 3 * m])
    decreases m
  {
    if m == 0 {
      assert Triples(s, p, m) == [];
    } else {
      TriplesConcat(s, p, m - 1);
      TriplesStep(s, p, m);
    }
  }

  /** The inductive step of `TriplesConcat`, with `q` and `e` the start and
      end of the last triple. */
  lemma TriplesStep(s: string, p: nat, m: nat)
    requires 1 <= m && p + 3 * m <= |s|
    requires Concat(Triples(s, p, m - 1)) == KeepDigits(s[p..p + 3 * (m - 1)])
    ensures Concat(Triples(s, p, m)) == KeepDigits(s[p..p + 3 * m])
  {
    var q, e := p + 3 * (m - 1), p + 3 * m;
    assert Triples(s, p, m) == Triples(s, p, m - 1) + [KeepDigits(s[q..e])];
    ConcatAppend(Triples(s, p, m - 1), [KeepDigits(s[q..e])]);
    ConcatSingle(KeepDigits(s[q..e]));
    KeepDigitsSplit(s, p, q, e);
  }

  lemma ConcatSingle<T>(x: seq<T>)
    ensures Concat([x]) == x
  {
    assert [x][..0] == [];
  }

  lemma KeepDigitsSplit(s: string, a: nat, b: nat, c: nat)
    requires a <= b <= c <= |s|
    ensures KeepDigits(s[a..c]) == KeepDigits(s[a..b]) + KeepDigits(s[b..c])
  {
    KeepDigitsConcat(s[a..b], s[b..c]);
    assert s[a..c] == s[a..b] + s[b..c];
  }

  // ---------------------------------------------------------------------------
  // The repaired underscoreNumber

  /** The body of `underscoreNumber` on the repaired `chunk`. */
  function GroupDigitsFlushed(s: string): string {
    Underscored(ChunkFlushed(Reverse(Characters(s))))
  }

  /** `underscoreNumber` on the repaired `chunk`: the leading digits that do
      not fill a triple form a shorter first group. */
  function UnderscoreNumberFlushed(n: int): string {
    GroupDigitsFlushed(IntToString(n))
  }

  /** The leading partial group, when there is one. */
  function Lead(s: string): (r: seq<string>)
    ensures |r| == if |s| % 3 == 0 then 0 else 1
    ensures forall j :: 0 <= j < |r| ==> AllDigits(r[j])
  {
    if |s| % 3 == 0 then [] else [KeepDigits(s[..|s| % 3])]
  }

  /** The repaired output is the leading partial group followed by the
      complete triples. */
  lemma GroupDigitsFlushedJoin(s: string)
    ensures GroupDigitsFlushed(s) == Join(Lead(s) + KeptGroups(s), "_")
  {
    FlushedTexts(s, Characters(s));
    LeadKeptDigits(s);
    CommasBecomeUnderscores(Lead(s) + KeptGroups(s));
  }

  lemma FlushedTexts(s: string, cs: seq<string>)
    requires Spelled(cs, s)
    ensures Reverse(Texts(ChunkFlushed(Reverse(cs)))) == Lead(s) + KeptGroups(s)
  {
    var rev := Reverse(cs);
    var texts := Texts(Chunk(rev));
    TextsReversed(s, cs, texts);
    if |s| % 3 == 0 {
      assert ChunkFlushed(rev) == Chunk(rev);
      assert Lead(s) + KeptGroups(s) == KeptGroups(s);
    } else {
      FlushedLead(s, cs, rev, texts);
    }
  }

  lemma FlushedLead(s: string, cs: seq<string>, rev: seq<string>, texts: seq<string>)
    requires Spelled(cs, s) && rev == Reverse(cs) && texts == Texts(Chunk(rev))
    requires |s| % 3 != 0 && Reverse(texts) == KeptGroups(s)
    ensures Reverse(Texts(ChunkFlushed(rev))) == Lead(s) + KeptGroups(s)
  {
    var x := KeepDigits(s[..|s| % 3]);
    FlushedLast(s, cs, rev, texts);
    ReverseConcat(texts, [x]);
    assert Reverse([x]) == [x];
    assert Lead(s) == [x];
  }

  lemma FlushedLast(s: string, cs: seq<string>, rev: seq<string>, texts: seq<string>)
    requires Spelled(cs, s) && rev == Reverse(cs) && texts == Texts(Chunk(rev))
    requires |s| % 3 != 0
    ensures Texts(ChunkFlushed(rev)) == texts + [KeepDigits(s[..|s| % 3])]
  {
    var last := rev[3 * (|s| / 3)..];
    assert ChunkFlushed(rev) == Chunk(rev) + [last];
    TextsAppend(Chunk(rev), last);
    LastGroup(s, cs);
  }

  lemma TextsAppend(groups: seq<seq<string>>, last: seq<string>)
    ensures Texts(groups + [last]) == Texts(groups) + [GroupText(last)]
  {
    var a, b := Texts(groups + [last]), Texts(groups) + [GroupText(last)];
    forall k | 0 <= k < |a|
      ensures a[k] == b[k]
    {
      if k < |groups| {
        assert (groups + [last])[k] == groups[k];
      }
    }
  }

  lemma LeadKeptDigits(s: string)
    ensures forall j :: 0 <= j < |Lead(s) + KeptGroups(s)| ==> AllDigits((Lead(s) + KeptGroups(s))[j])
  {
    KeptGroupsDigits(s);
  }

  /** The leftover group of the reversed characters, turned back, is the
      leading `|s| % 3` characters. */
  lemma LastGroup(s: string, cs: seq<string>)
    requires Spelled(cs, s) && |s| % 3 != 0
    ensures GroupText(Reverse(cs)[3 * (|s| / 3)..]) == KeepDigits(s[..|s| % 3])
  {
    var p := |s| % 3;
    var rev := Reverse(cs);
    assert Spelled(Reverse(rev[3 * (|s| / 3)..]), s[..p]);
    SpelledIsCharacters(Reverse(rev[3 * (|s| / 3)..]), s[..p]);
    JoinCharacters(s[..p]);
  }

  lemma ReverseConcat<T>(a: seq<T>, b: seq<T>)
    ensures Reverse(a + b) == Reverse(b) + Reverse(a)
  {
  }

  /** Every digit of `s` survives the repaired grouping, in order. */
  lemma GroupDigitsFlushedKept(s: string)
    ensures DropUnderscores(GroupDigitsFlushed(s)) == KeepDigits(s)
  {
    GroupDigitsFlushedJoin(s);
    LeadKeptDigits(s);
    DropJoined(Lead(s) + KeptGroups(s));
    PartsConcat(s);
  }

  lemma PartsConcat(s: string)
    ensures Concat(Lead(s) + KeptGroups(s)) == KeepDigits(s)
  {
    var p := |s| % 3;
    ConcatAppend(Lead(s), KeptGroups(s));
    LeadConcat(s);
    KeptConcat(s);
    KeepDigitsSplit(s, 0, p, |s|);
    assert s[0..|s|] == s;
  }

  lemma LeadConcat(s: string)
    ensures Concat(Lead(s)) == KeepDigits(s[..|s| % 3])
  {
    if |s| % 3 == 0 {
      assert Concat(Lead(s)) == [];
      assert s[..0] == [];
    } else {
      assert Concat(Lead(s)) == Concat(Lead(s)[..0]) + Lead(s)[0];
    }
  }

  lemma KeptConcat(s: string)
    ensures Concat(KeptGroups(s)) == KeepDigits(s[|s| % 3..])
  {
    var p, m := |s| % 3, |s| / 3;
    TriplesConcat(s, p, m);
    assert s[p..] == s[p..p + 3 * m];
  }

  /** Every digit of the integer survives the repaired grouping, in order. */
  lemma UnderscoreNumberFlushedDigits(n: int)
    ensures DropUnderscores(UnderscoreNumberFlushed(n)) == NatToString(Abs(n))
  {
    GroupDigitsFlushedKept(IntToString(n));
    DecimalDigits(n);
  }

  lemma {:induction false} ConcatAppend<T>(a: seq<seq<T>>, b: seq<seq<T>>)
    ensures Concat(a + b) == Concat(a) + Concat(b)
    decreases |b|
  {
    if b != [] {
      ConcatAppend(a, b[..|b| - 1]);
      assert (a + b)[..|a + b| - 1] == a + b[..|b| - 1];
    } else {
      assert a + b == a;
    }
  }

  /** The non-digits of `String(n)` are at most its minus sign. */
  lemma DecimalDigits(n: int)
    ensures KeepDigits(IntToString(n)) == NatToString(Abs(n))
  {
    KeepAllDigits(NatToString(Abs(n)));
    if n < 0 {
      var s := IntToString(n);
      assert s == "-" + NatToString(-n);
      KeepDigitsConcat("-", NatToString(-n));
    }
  }

  /** 1234 keeps its leading digit once the partial group is flushed. */
  lemma UnderscoreNumberFlushedExample()
    ensures UnderscoreNumberFlushed(1234) == "1_234"
  {
    DecimalExample();
    FlushedExample("1234");
  }

  lemma FlushedExample(s: string)
    requires s == "1234"
    ensures GroupDigitsFlushed(s) == "1_234"
  {
    GroupDigitsFlushedJoin(s);
    KeptExample(s);
    assert s[..1] == "1";
    KeepAllDigits("1");
    assert Lead(s) + KeptGroups(s) == ["1", "234"];
    assert Join(["1", "234"], "_") == Join(["1"], "_") + "_" + "234";
  }
}

=== FILE: JsNumbers.dfy ===
/** JavaScript number semantics needed by the model.
    A JS number is NaN, a signed infinity or a finite value; finite values are
    mathematical reals (IEEE-754 rounding and the sign of zero are not modelled).
    `Math.trunc`, integer `/` followed by `Math.trunc`, and the `%` operator
    (truncated remainder, whose sign follows the dividend) are written out here,
    because Dafny's own `/` and `%` on `int` are Euclidean. */
module JsNumbers {
  import opened Results

  datatype Number = NaN | Infinity(negative: bool) | Finite(value: real)

  function Abs(x: int): nat {
    if x < 0 then -x else x
  }

  function AbsReal(x: real): real {
    if x < 0.0 then -x else x
  }

  /** `Math.sign` on integers. */
  function Sign(x: int): int {
    if x > 0 then 1 else if x < 0 then -1 else 0
  }

  /** `Math.trunc` on a finite value: drop the fraction, rounding toward zero. */
  function Trunc(x: real): (i: int)
    ensures x >= 0.0 ==> 0 <= i && i as real <= x < i as real + 1.0
    ensures x < 0.0 ==> i <= 0 && i as real - 1.0 < x <= i as real
  {
    if x >= 0.0 then x.Floor else -((-x).Floor)
  }

  /** `Math.trunc(a / b)` for integers: the quotient rounded toward zero. */
  function TruncDiv(a: int, b: int): int
    requires b != 0
  {
    if (a >= 0) == (b > 0) then Abs(a) / Abs(b) else -(Abs(a) / Abs(b))
  }

  /** JavaScript `a % b` for integers: the magnitude is `|a| mod |b|` and the
      sign is the dividend's. */
  function TruncRem(a: int, b: int): (r: int)
    requires b != 0
    ensures Abs(r) < Abs(b)
    ensures r == 0 || (r > 0 <==> a > 0)
  {
    var m := Abs(a) % Abs(b);
    assert 0 <= m < Abs(b);
    assert a == 0 ==> m == 0;
    if a >= 0 then m else -m
  }

  /** `TruncDiv` and `TruncRem` split the dividend exactly. */
  lemma TruncDivRem(a: int, b: int)
    requires b != 0
    ensures a == TruncDiv(a, b) * b + TruncRem(a, b)
  {
    var q, m := Abs(a) / Abs(b), Abs(a) % Abs(b);
    assert Abs(a) == q * Abs(b) + m;
    if b < 0 {
      assert q * Abs(b) == -(q * b);
    }
  }

  lemma MulAtLeast(k: int, y: int)
    requires k >= 1 && y > 0
    ensures k * y >= y
  {
    if k > 1 {
      MulAtLeast(k - 1, y);
      assert k * y == (k - 1) * y + y;
    }
  }

  /** Euclidean division (Dafny's `/` and `%`) is determined by its defining
      equation, for either sign of the divisor. */
  lemma DivModUnique(x: int, y: int, q: int, r: int)
    requires y != 0 && 0 <= r < Abs(y) && x == q * y + r
    ensures x / y == q && x % y == r
  {
    var q0, r0 := x / y, x % y;
    var k := q - q0;
    assert k * y == r0 - r by {
      assert q * y + r == q0 * y + r0;
      assert k * y == q * y - q0 * y;
    }
    if k != 0 {
      MulAtLeast(Abs(k), Abs(y));
      assert false;
    }
  }

  /** Dividing by `a` and then by `b` is dividing by `a * b`. */
  lemma DivDiv(x: int, a: int, b: int)
    requires a > 0 && b > 0
    ensures x / a / b == x / (a * b)
    ensures x % (a * b) == (x / a % b) * a + x % a
  {
    var q1, r1 := x / a, x % a;
    var q2, r2 := q1 / b, q1 % b;
    var ab := a * b;
    assert x == q2 * ab + (r2 * a + r1) by {
      assert x == q1 * a + r1;
      assert q1 == q2 * b + r2;
      assert q1 * a == (q2 * b + r2) * a;
      assert (q2 * b + r2) * a == q2 * ab + r2 * a;
    }
    assert r2 * a + r1 < ab by {
      MulAtLeast(b - r2, a);
      assert (b - r2) * a == ab - r2 * a;
    }
    assert 0 <= r2 * a;
    DivModUnique(x, ab, q2, r2 * a + r1);
  }

  /** Adding a whole multiple of `y` does not change the remainder. */
  lemma ModAddMultiple(x: int, k: int, y: int)
    requires y > 0
    ensures (x + k * y) % y == x % y
    ensures (x + k * y) / y == x / y + k
  {
    DivModUnique(x + k * y, y, x / y + k, x % y);
  }

  /** `BigInt(n)` of a number: an integral value converts exactly, anything
      else (NaN, an infinity, a fraction) is a RangeError. */
  function ToBigInt(n: Number): (r: Result<int>)
    ensures r.Success? <==> n.Finite? && n.value.Floor as real == n.value
    ensures r.Success? ==> r.value as real == n.value
    ensures r.Failure? ==> r.error.RangeError?
  {
    match n
    case Finite(v) =>
      if v.Floor as real == v then Success(v.Floor)
      else Failure(RangeError("The number cannot be converted to a BigInt because it is not an integer"))
    case _ => Failure(RangeError("The number cannot be converted to a BigInt because it is not an integer"))
  }

  /** A JS number holding an integer converts back to that integer. */
  lemma ToBigIntOfInteger(i: int)
    ensures ToBigInt(Finite(i as real)) == Success(i)
  {
  }
}

=== FILE: RelativeTime.dfy ===
/** The relative-time phrases ("3 minutes ago", "in 1 year").

    Two algorithms live in the repository:
    - `RelativeTime.getRelativeTime` (RelativeTimeChecker.ts and its compiled
      twin RelativeTimeChecker.js) rounds the elapsed seconds DOWN and picks
      one of seven units, years to seconds;
    - the `'R'` format of `RelativeTimeChecker.run` (relative-time-checker.ts
      and its twin relative-time-checker.js), repeated verbatim by the `'R'`
      letter of `Datetime_global.prototype.toHTMLDiscordString`, truncates the
      elapsed seconds TOWARD ZERO and picks one of four units, seconds to days.

    Instants are whole epoch milliseconds; the current time, which the source
    reads from the host clock, is a parameter `now`. */
module RelativeTime {
  import opened Results
  import opened JsNumbers
  import opened Text

  // ---------------------------------------------------------------------------
  // getRelativeTime (RelativeTimeChecker.ts / .js)

  /** `Math.floor((now - date) / 1000)`: whole seconds from `date` to `now`,
      rounded down, so an instant 1 ms in the future is already -1. */
  function ElapsedSeconds(now: int, date: int): (d: int)
    ensures d * 1000 <= now - date < d * 1000 + 1000
  {
    (now - date) / 1000
  }

  /** The `format` helper: `in N unit` for a future instant (negative
      difference), `N unit ago` otherwise; the unit is singular exactly when
      the count is one. */
  function Phrase(diff: int, value: nat, one: string, many: string): string {
    var unit := if value == 1 then one else many;
    if diff < 0 then "in " + NatToString(value) + " " + unit
    else NatToString(value) + " " + unit + " ago"
  }

  /** Every counted phrase starts with `in ` (future) or with a digit and ends
      with ` ago` (past), so none of them is "now". */
  lemma PhraseShape(diff: int, value: nat, one: string, many: string)
    ensures var r := Phrase(diff, value, one, many);
            (diff < 0 ==> |r| > 3 && r[..3] == "in ") &&
            (diff >= 0 ==> |r| > 4 && IsDigit(r[0]) && r[|r| - 4..] == " ago") &&
            r != "now"
  {
  }

  /** The unit chain of `getRelativeTime` for a difference of `diff` seconds. */
  function PhraseOfSeconds(diff: int): string {
    var abs := Abs(diff);
    if abs >= 31536000 then Phrase(diff, abs / 31536000, "year", "years")
    else if abs >= 2629746 then Phrase(diff, abs / 2629746, "month", "months")
    else if abs >= 604800 then Phrase(diff, abs / 604800, "week", "weeks")
    else if abs >= 86400 then Phrase(diff, abs / 86400, "day", "days")
    else if abs >= 3600 then Phrase(diff, abs / 3600, "hour", "hours")
    else if abs >= 60 then Phrase(diff, abs / 60, "minute", "minutes")
    else if abs < 1 then "now"
    else Phrase(diff, abs, "second", "seconds")
  }

  /** "now" is the phrase of a zero difference and of nothing else. */
  lemma NowExactlyAtZero(diff: int)
    ensures PhraseOfSeconds(diff) == "now" <==> diff == 0
  {
    var abs := Abs(diff);
    if abs >= 31536000 {
      PhraseShape(diff, abs / 31536000, "year", "years");
    } else if abs >= 2629746 {
      PhraseShape(diff, abs / 2629746, "month", "months");
    } else if abs >= 604800 {
      PhraseShape(diff, abs / 604800, "week", "weeks");
    } else if abs >= 86400 {
      PhraseShape(diff, abs / 86400, "day", "days");
    } else if abs >= 3600 {
      PhraseShape(diff, abs / 3600, "hour", "hours");
    } else if abs >= 60 {
      PhraseShape(diff, abs / 60, "minute", "minutes");
    } else if abs >= 1 {
      PhraseShape(diff, abs, "second", "seconds");
    }
  }

  /** `getRelativeTime(date)` with the clock reading `now`. An invalid date
      (`None`, a NaN time value) makes every comparison false and falls
      through to the seconds case with a NaN count. */
  function GetRelativeTime(now: int, date: Option<int>): (r: string)
    ensures date.None? ==> r == "NaN seconds ago"
    ensures date.Some? ==> (r == "now" <==> 0 <= now - date.value < 1000)
  {
    match date
    case None => "NaN seconds ago"
    case Some(d) =>
      NowExactlyAtZero(ElapsedSeconds(now, d));
      PhraseOfSeconds(ElapsedSeconds(now, d))
  }

  /** The units of `getRelativeTime`, largest first. */
  datatype UnitName = Year | Month | Week | Day | Hour | Minute | Second

  /** A unit: its length in seconds and its name. */
  datatype Unit = Unit(length: nat, name: UnitName)

  function Singular(name: UnitName): string {
    match name
    case Year => "year"
    case Month => "month"
    case Week => "week"
    case Day => "day"
    case Hour => "hour"
    case Minute => "minute"
    case Second => "second"
  }

  function Plural(name: UnitName): string {
    match name
    case Year => "years"
    case Month => "months"
    case Week => "weeks"
    case Day => "days"
    case Hour => "hours"
    case Minute => "minutes"
    case Second => "seconds"
  }

  /** The units in the order `getRelativeTime` tries them: a year of 365 days,
      a month of 30.436875 days (2629746 s), a week, a day, an hour, a minute
      and a second. */
  const Units: seq<Unit> := [
    Unit(31536000, Year), Unit(2629746, Month), Unit(604800, Week), Unit(86400, Day),
    Unit(3600, Hour), Unit(60, Minute), Unit(1, Second)]

  /** The position of the first unit in `units` no longer than `abs` seconds
      (`|units|` when there is none). */
  function FirstFitting(units: seq<Unit>, abs: nat): (i: nat)
    ensures i <= |units|
    ensures i < |units| ==> units[i].length <= abs
    ensures forall j :: 0 <= j < i ==> units[j].length > abs
    decreases |units|
  {
    if units == [] then 0
    else if units[0].length <= abs then 0
    else 1 + FirstFitting(units[1..], abs)
  }

  /** The first fitting unit is the one that fits while every earlier one
      does not. */
  lemma {:induction false} FirstFittingAt(units: seq<Unit>, abs: nat, k: nat)
    requires k < |units| && units[k].length <= abs
    requires forall j :: 0 <= j < k ==> units[j].length > abs
    ensures FirstFitting(units, abs) == k
    decreases k
  {
    if k > 0 {
      FirstFittingAt(units[1..], abs, k - 1);
    }
  }

  /** The unit chain of `getRelativeTime` is the table search: for a non-zero
      difference, the phrase counts whole units of the first (largest) unit that
      fits in `|diff|`, and that count is at least one. */
  lemma PhraseOfSecondsByTable(diff: int)
    requires diff != 0
    ensures FirstFitting(Units, Abs(diff)) < |Units|
    ensures Abs(diff) / Units[FirstFitting(Units, Abs(diff))].length >= 1
    ensures var u := Units[FirstFitting(Units, Abs(diff))];
            PhraseOfSeconds(diff) == Phrase(diff, Abs(diff) / u.length, Singular(u.name), Plural(u.name))
  {
    var abs := Abs(diff);
    var k := UnitIndex(abs);
    FirstFittingAt(Units, abs, k);
    UnitIndexRow(diff, k);
    DivAtLeastOne(abs, Units[k].length);
  }

  /** Which row of `Units` the chain of `PhraseOfSeconds` selects. */
  function UnitIndex(abs: nat): (k: nat)
    requires abs >= 1
    ensures k < |Units|
  {
    if abs >= 31536000 then 0
    else if abs >= 2629746 then 1
    else if abs >= 604800 then 2
    else if abs >= 86400 then 3
    else if abs >= 3600 then 4
    else if abs >= 60 then 5
    else 6
  }

  /** The row `UnitIndex` names is the one the chain of `PhraseOfSeconds` uses,
      and it is the first unit that fits. */
  lemma UnitIndexRow(diff: int, k: nat)
    requires diff != 0 && k == UnitIndex(Abs(diff))
    ensures Units[k].length <= Abs(diff)
    ensures forall j :: 0 <= j < k ==> Units[j].length > Abs(diff)
    ensures PhraseOfSeconds(diff)
         == Phrase(diff, Abs(diff) / Units[k].length, Singular(Units[k].name), Plural(Units[k].name))
  {
    if k == 0 {
    } else if k == 1 {
    } else if k == 2 {
    } else if k == 3 {
    } else if k == 4 {
    } else if k == 5 {
    } else {
    }
  }

  lemma DivAtLeastOne(a: int, b: int)
    requires 0 < b <= a
    ensures a / b >= 1
  {
  }

  /** Worked cases: 59 s ago is still counted in seconds; 60 s ago and 60 s
      ahead are one minute. */
  lemma PhraseExamples()
    ensures PhraseOfSeconds(59) == "59 seconds ago"
    ensures PhraseOfSeconds(60) == "1 minute ago"
    ensures PhraseOfSeconds(-60) == "in 1 minute"
  {
    assert NatToString(59) == "59" by {
      assert NatToString(5) == "5";
    }
    assert Phrase(59, 59, "second", "seconds") == "59 seconds ago";
    assert NatToString(1) == "1";
    assert Phrase(60, 1, "minute", "minutes") == "1 minute ago";
    assert Phrase(-60, 1, "minute", "minutes") == "in 1 minute";
  }

  /** Because the difference is rounded down, an instant up to 999 ms in the
      future is "in 1 second", never "now". */
  lemma JustAhead(now: int, date: int)
    requires now < date < now + 1000
    ensures GetRelativeTime(now, Some(date)) == "in 1 second"
  {
    assert ElapsedSeconds(now, date) == -1;
  }

  // ---------------------------------------------------------------------------
  // The 'R' format (relative-time-checker.ts / .js, toHTMLDiscordString)

  /** `Math.trunc((now - date) / 1000)`: whole seconds, rounded toward zero. */
  function TruncSeconds(now: int, date: int): int {
    TruncDiv(now - date, 1000)
  }

  /** `N unit` or `N units`: the plural `s` unless the count is one. */
  function Counted(n: nat, unit: string): (r: string)
    ensures |r| > 0 && IsDigit(r[0])
  {
    NatToString(n) + " " + unit + (if n != 1 then "s" else "")
  }

  /** The `'R'` phrase for a truncated difference of `seconds`, worded `ago`
      when `positive` and `from now` otherwise. Seconds are always plural; the
      minute, hour and day counts are `|Math.trunc(seconds / unit)|`. */
  function RPhrase(seconds: int, positive: bool): (r: string)
    ensures r == "now" <==> seconds == 0
  {
    var abs := Abs(seconds);
    var word := if positive then "ago" else "from now";
    if seconds == 0 then "now"
    else if abs < 60 then NatToString(abs) + " seconds " + word
    else if abs < 3600 then Counted(Abs(TruncDiv(seconds, 60)), "minute") + " " + word
    else if abs < 86400 then Counted(Abs(TruncDiv(seconds, 3600)), "hour") + " " + word
    else Counted(Abs(TruncDiv(seconds, 86400)), "day") + " " + word
  }

  /** relative-time-checker.ts: the direction comes from the truncated seconds. */
  function RPhraseTs(now: int, date: int): (r: string)
    ensures r == "now" <==> Abs(now - date) < 1000
  {
    var seconds := TruncSeconds(now, date);
    RPhrase(seconds, seconds >= 0)
  }

  /** relative-time-checker.js: the direction comes from the raw millisecond
      difference. */
  function RPhraseJs(now: int, date: int): (r: string)
    ensures r == "now" <==> Abs(now - date) < 1000
  {
    RPhrase(TruncSeconds(now, date), now - date >= 0)
  }

  /** The two builds disagree on where the direction is read, but never on the
      text: whenever the truncated seconds are non-zero their sign is the sign
      of the raw difference, and when they are zero the text is "now". */
  lemma RPhraseTwinsAgree(now: int, date: int)
    ensures RPhraseTs(now, date) == RPhraseJs(now, date)
  {
    var seconds := TruncSeconds(now, date);
    if seconds != 0 {
      assert (seconds >= 0) == (now - date >= 0);
    }
  }

  /** `|Math.trunc(s / unit)|` is `|s|` divided by the unit, rounded down. */
  lemma AbsTruncDiv(s: int, unit: int)
    requires unit > 0
    ensures Abs(TruncDiv(s, unit)) == Abs(s) / unit
  {
  }

  /** The `'R'` units above seconds, the largest first. */
  const RUnits: seq<(nat, string)> := [(86400, "day"), (3600, "hour"), (60, "minute")]

  /** For a difference of at least a minute the `'R'` phrase counts whole units
      of the largest unit that fits (days have no upper bound), and the count
      is at least one; below a minute it is the seconds, always plural. */
  lemma RPhraseByUnit(seconds: int, positive: bool)
    requires seconds != 0
    ensures var word := if positive then "ago" else "from now";
            Abs(seconds) < 60 ==> RPhrase(seconds, positive) == NatToString(Abs(seconds)) + " seconds " + word
    ensures var word := if positive then "ago" else "from now";
            var abs := Abs(seconds);
            abs >= 60 ==>
              var k := if abs >= 86400 then 0 else if abs >= 3600 then 1 else 2;
              RUnits[k].0 <= abs && (k == 0 || abs < RUnits[k - 1].0) &&
              abs / RUnits[k].0 >= 1 &&
              RPhrase(seconds, positive) == Counted(abs / RUnits[k].0, RUnits[k].1) + " " + word
  {
    AbsTruncDiv(seconds, 60);
    AbsTruncDiv(seconds, 3600);
    AbsTruncDiv(seconds, 86400);
  }

  /** A one-second difference still says "seconds". */
  lemma OneSecondIsPlural()
    ensures RPhrase(1, true) == "1 seconds ago"
    ensures RPhrase(-1, false) == "1 seconds from now"
  {
  }

  // ---------------------------------------------------------------------------
  // RelativeTimeChecker: constructor and run

  /** A format: a method name (`'R'`, `'Relative'`, `'toString'`, ...) or a
      callback from the time value to a text (`None` stands for `undefined`). */
  datatype Format = Named(name: string) | Callback(render: int -> Option<string>)

  /** Which build of relative-time-checker runs: they read the `'R'`
      direction from different quantities. */
  datatype Build = TypeScript | JavaScript

  datatype Checker = Checker(build: Build, format: Format)

  /** The `Date` methods `run` delegates to; any other name is the `'R'` case. */
  const HostRenderings: set<string> := {"toString", "toDateString", "toTimeString",
    "toLocaleString", "toLocaleDateString", "toLocaleTimeString", "toUTCString"}

  /** `new RelativeTimeChecker(timetag, format)`: an omitted (or `undefined`)
      format takes the parameter default `'R'`; `'Relative'` is stored as
      `'R'`; any other format is kept as given. */
  function NewChecker(build: Build, format: Option<Format>): (c: Checker)
    ensures c.build == build
    ensures format.None? ==> c.format == Named("R")
    ensures format == Some(Named("Relative")) ==> c.format == Named("R")
    ensures format.Some? && format.value != Named("Relative") ==> c.format == format.value
  {
    match format
    case None => Checker(build, Named("R"))
    case Some(f) =>
      if f.Named? && f.name == "Relative" then Checker(build, Named("R"))
      else Checker(build, f)
  }

  function RPhraseOf(build: Build, now: int, date: int): string {
    match build
    case TypeScript => RPhraseTs(now, date)
    case JavaScript => RPhraseJs(now, date)
  }

  /** `run(format)`: the text written into the element and the returned flag.
      `dateTime` is the element's time value (`None` when it does not parse),
      `override` the optional argument, `host` the host `Date` renderings. */
  function Run(c: Checker, override: Option<Format>, dateTime: Option<int>, now: int,
               host: (string, int) -> string): (r: (string, bool))
    ensures dateTime.None? ==> r == ("Invalid Date", false)
    ensures !r.1 ==> r.0 == "Invalid Date"
    ensures dateTime.Some? ==>
              var f := if override.Some? then override.value else c.format;
              (!r.1 <==> f.Callback? && f.render(dateTime.value).None?)
    ensures dateTime.Some? ==>
              var f := if override.Some? then override.value else c.format;
              f.Named? && f.name !in HostRenderings ==>
                r == (RPhraseOf(c.build, now, dateTime.value), true)
  {
    match dateTime
    case None => ("Invalid Date", false)
    case Some(t) =>
      var f := if override.Some? then override.value else c.format;
      match f
      case Callback(render) =>
        (match render(t)
         case None => ("Invalid Date", false)
         case Some(text) => (text, true))
      case Named(name) =>
        if name in HostRenderings then (host(name, t), true)
        else (RPhraseOf(c.build, now, t), true)
  }

  /** Normalising `'Relative'` to `'R'` changes nothing `run` shows: both
      names reach the `'R'` branch. */
  lemma RelativeRunsAsR(build: Build, override: Option<Format>, dateTime: Option<int>, now: int,
                        host: (string, int) -> string)
    ensures Run(Checker(build, Named("Relative")), override, dateTime, now, host)
         == Run(NewChecker(build, Some(Named("Relative"))), override, dateTime, now, host)
    ensures Run(Checker(build, Named("Relative")), override, dateTime, now, host)
         == Run(Checker(build, Named("R")), override, dateTime, now, host)
  {
  }

  /** A checker made without a format, run without an override on a valid
      date, shows the relative phrase. */
  lemma DefaultCheckerRunsR(build: Build, t: int, now: int, host: (string, int) -> string)
    ensures Run(NewChecker(build, None), None, Some(t), now, host) == (RPhraseOf(build, now, t), true)
  {
    assert "R" !in HostRenderings;
  }

  /** Both builds show the same text and return the same flag. */
  lemma RunTwinsAgree(format: Format, override: Option<Format>, dateTime: Option<int>, now: int,
                      host: (string, int) -> string)
    ensures Run(Checker(TypeScript, format), override, dateTime, now, host)
         == Run(Checker(JavaScript, format), override, dateTime, now, host)
  {
    if dateTime.Some? {
      RPhraseTwinsAgree(now, dateTime.value);
    }
  }
}

=== FILE: Results.dfy ===
/** Failure-carrying wrappers shared by every module of the model.
    A JavaScript exception is modelled as a `Failure` carrying the kind of
    error the source throws and its message. */
module Results {

  /** A value that may be absent. */
  datatype Option<+T> = None | Some(value: T)

  /** The error classes the modelled code throws. */
  datatype Error =
    | RangeError(message: string)
    | TypeError(message: string)
    | PlainError(message: string)

  /** Either the computed value or the exception the source would throw. */
  datatype Result<+T> = Success(value: T) | Failure(error: Error)
}

=== FILE: Text.dfy ===
/** Strings as the source builds them: `String(n)` of an integer,
    `String.prototype.padStart`, `Array.prototype.join`, and the reverse
    direction (reading a run of decimal digits back) used to state round trips. */
module Text {

  predicate IsDigit(c: char) {
    '0' <= c <= '9'
  }

  predicate AllDigits(s: string) {
    forall i :: 0 <= i < |s| ==> IsDigit(s[i])
  }

  function DigitValue(c: char): int
    requires IsDigit(c)
  {
    c as int - '0' as int
  }

  function DigitChar(d: int): (c: char)
    requires 0 <= d < 10
    ensures IsDigit(c) && DigitValue(c) == d
  {
    ('0' as int + d) as char
  }

  function Pow10(k: nat): nat {
    if k == 0 then 1 else 10 * Pow10(k - 1)
  }

  /** `String(n)` for a non-negative integer: its decimal digits, most
      significant first, with no leading zero. */
  function NatToString(n: nat): (s: string)
    ensures 1 <= |s| && AllDigits(s)
    ensures s[0] == '0' ==> n == 0
    ensures n < 10 <==> |s| == 1
    decreases n
  {
    if n < 10 then [DigitChar(n)] else NatToString(n / 10) + [DigitChar(n % 10)]
  }

  /** `String(i)` for any integer: a minus sign before the digits of `|i|`. */
  function IntToString(i: int): (s: string)
    ensures i >= 0 ==> s == NatToString(i)
    ensures i < 0 ==> |s| >= 2 && s[0] == '-' && s[1..] == NatToString(-i)
  {
    if i < 0 then "-" + NatToString(-i) else NatToString(i)
  }

  /** The value of a run of decimal digits (leading zeros allowed). */
  function ParseDigits(s: string): nat
    requires AllDigits(s)
    decreases |s|
  {
    if s == [] then 0 else ParseDigits(s[..|s| - 1]) * 10 + DigitValue(s[|s| - 1])
  }

  /** Reading back `String(n)` gives `n`. */
  lemma {:induction false} ParseNatToString(n: nat)
    ensures ParseDigits(NatToString(n)) == n
    decreases n
  {
    var s := NatToString(n);
    if n >= 10 {
      ParseNatToString(n / 10);
      assert s[..|s| - 1] == NatToString(n / 10);
    }
  }

  /** A number below `10^k` has at most `k` digits. */
  lemma {:induction false} NatToStringLength(n: nat, k: nat)
    requires 1 <= k && n < Pow10(k)
    ensures |NatToString(n)| <= k
    decreases k
  {
    if n >= 10 {
      NatToStringLength(n / 10, k - 1);
    }
  }

  function Repeat(c: char, n: nat): (s: string)
    ensures |s| == n
    ensures forall i :: 0 <= i < n ==> s[i] == c
  {
    if n == 0 then [] else [c] + Repeat(c, n - 1)
  }

  /** `s.padStart(len, fill)` with a one-character fill: `fill` repeated on the
      left until the length is `len`; a string already that long is unchanged. */
  function PadStart(s: string, len: nat, fill: char): (r: string)
    ensures |r| == if |s| >= len then |s| else len
    ensures r[|r| - |s|..] == s
    ensures forall i :: 0 <= i < |r| - |s| ==> r[i] == fill
  {
    if |s| >= len then s else Repeat(fill, len - |s|) + s
  }

  /** `ToZeroPaddedDecimalString(n, len)` of Datetime_local.ts, which is also the
      `pad` helper of Datetime_global.js: `String(n).padStart(len, '0')`. */
  function ZeroPadded(n: int, len: nat): string {
    PadStart(IntToString(n), len, '0')
  }

  /** Leading zeros do not change the value of a digit run. */
  lemma {:induction false} ParseLeadingZeros(z: nat, s: string)
    requires AllDigits(s)
    ensures AllDigits(Repeat('0', z) + s)
    ensures ParseDigits(Repeat('0', z) + s) == ParseDigits(s)
    decreases |s|
  {
    var t := Repeat('0', z) + s;
    if s == [] {
      ParseZeros(z);
      assert t == Repeat('0', z);
    } else {
      ParseLeadingZeros(z, s[..|s| - 1]);
      assert t[..|t| - 1] == Repeat('0', z) + s[..|s| - 1];
    }
  }

  lemma {:induction false} ParseZeros(z: nat)
    ensures AllDigits(Repeat('0', z))
    ensures ParseDigits(Repeat('0', z)) == 0
    decreases z
  {
    if z > 0 {
      ParseZeros(z - 1);
      var t := Repeat('0', z);
      assert t[..z - 1] == Repeat('0', z - 1);
    }
  }

  /** `String(n).padStart(len, '0')` of a non-negative number, however many
      digits it has: at least `len` digits, reading back as the number. */
  lemma PaddedNatRoundTrip(n: nat, len: nat)
    ensures |PadStart(NatToString(n), len, '0')| >= len
    ensures AllDigits(PadStart(NatToString(n), len, '0'))
    ensures ParseDigits(PadStart(NatToString(n), len, '0')) == n
  {
    var s := NatToString(n);
    ParseNatToString(n);
    if |s| < len {
      ParseLeadingZeros(len - |s|, s);
    }
  }

  /** A non-negative number below `10^len`, zero-padded to `len`, is exactly
      `len` digits that read back as the number. */
  lemma ZeroPaddedRoundTrip(n: int, len: nat)
    ensures 1 <= len && 0 <= n < Pow10(len) ==>
              |ZeroPadded(n, len)| == len && AllDigits(ZeroPadded(n, len))
              && ParseDigits(ZeroPadded(n, len)) == n
  {
    if 1 <= len && 0 <= n < Pow10(len) {
      var s := NatToString(n);
      NatToStringLength(n, len);
      ParseNatToString(n);
      ParseLeadingZeros(len - |s|, s);
    }
  }

  function Reverse<T>(s: seq<T>): (r: seq<T>)
    ensures |r| == |s|
    ensures forall i :: 0 <= i < |s| ==> r[i] == s[|s| - 1 - i]
  {
    if s == [] then [] else Reverse(s[1..]) + [s[0]]
  }

  /** All the pieces, end to end. */
  function Concat<T>(parts: seq<seq<T>>): seq<T>
    decreases |parts|
  {
    if parts == [] then [] else Concat(parts[..|parts| - 1]) + parts[|parts| - 1]
  }

  /** `parts.join(sep)`: the pieces with `sep` between neighbours; `[]` joins to "". */
  function Join(parts: seq<string>, sep: string): string
    decreases |parts|
  {
    if |parts| == 0 then ""
    else if |parts| == 1 then parts[0]
    else Join(parts[..|parts| - 1], sep) + sep + parts[|parts| - 1]
  }

  /** The characters of `s` as one-character strings, as `Array.from(s)` yields them. */
  function Characters(s: string): (r: seq<string>)
    ensures |r| == |s|
    ensures forall i :: 0 <= i < |s| ==> r[i] == [s[i]]
    decreases |s|
  {
    if s == [] then [] else [[s[0]]] + Characters(s[1..])
  }

  /** `s.replace(/\D/g, '')`: keep only the decimal digits. */
  function KeepDigits(s: string): (r: string)
    ensures AllDigits(r)
    decreases |s|
  {
    if s == [] then []
    else (if IsDigit(s[0]) then [s[0]] else []) + KeepDigits(s[1..])
  }

  /** A run of digits has nothing to remove. */
  lemma {:induction false} KeepAllDigits(s: string)
    requires AllDigits(s)
    ensures KeepDigits(s) == s
    decreases |s|
  {
    if s != [] {
      KeepAllDigits(s[1..]);
      assert s == [s[0]] + s[1..];
    }
  }

  /** `s.replace(/,/g, '_')`: every comma becomes an underscore. */
  function CommasToUnderscores(s: string): (r: string)
    ensures |r| == |s|
    ensures forall i :: 0 <= i < |s| ==> r[i] == (if s[i] == ',' then '_' else s[i])
    decreases |s|
  {
    if s == [] then [] else [if s[0] == ',' then '_' else s[0]] + CommasToUnderscores(s[1..])
  }

  /** Delete every underscore. */
  function DropUnderscores(s: string): string
    decreases |s|
  {
    if s == [] then [] else (if s[0] == '_' then [] else [s[0]]) + DropUnderscores(s[1..])
  }
}
